=== FILE: README.md ===
# Cirky ghost routing, modelled in Dafny

This project models the routing engine that steers the ghost robots of
Cirky, a Pac-Man-like game played by small robots (cellulos) on a circular
board. The board is a `CircularMap`: concentric rings around a centre,
joined by radial passageways. A ghost's `Pathfinder` keeps a graph whose
nodes sit at the passageway ends, and whose edges run along rings and
passageways. `SetTarget` does four things:

- it splices temporary nodes into that graph for the ghost, the target and
  every obstacle;
- it runs a uniform-cost search over a sorted `PriorityList`;
- it reads the route back along the predecessors;
- it takes the temporary nodes out again.

`Orientation` then turns the first waypoint into a direction, or keeps the
ghost waiting next to another ghost.

Modules, one per file, follow the program's structure:

| file | module | what it holds |
|---|---|---|
| `wrappers.dfy` | `Wrappers` | `Option` and `Result`: exceptions and null answers become failures |
| `vectors.dfy` | `Vectors` | `Vector2`/`Vector3` over `real`; the `Math` parameter stands for the engine's square root, angles and trigonometry |
| `utils.dfy` | `Utils` | tolerance equality `AreSame` and the 2D/3D conversions |
| `sorting.dfy` | `Sorting` | the stable sort behind every `OrderBy` |
| `priority_list.dfy` | `PriorityLists` | `PriorityList`: a list re-sorted and cleared of nulls after every change |
| `pathways.dfy` | `Pathways` | `MapRing` and `Passageway` geometry |
| `circular_map.dfy` | `CircularMaps` | the map: rings, passages, closest rings, closest pathway and point, random choice |
| `graph.dfy` | `Graphs` | nodes, edges, `Connect`, `Disconnect`, `EdgeTo`, node lookup |
| `graph_edits.dfy` | `GraphEdits` | `InsertNode` and `RemoveNode`, and how they undo each other |
| `map_graph.dfy` | `MapGraphs` | `ResetNodes`, the graph of a map |
| `search.dfy` | `Search` | the search loop of `SetTarget`, the walk back and the reported length |
| `pathfinder.dfy` | `Pathfinders` | `SetTarget`, `DistanceBetween`, `Freeze`, `Orientation`, the fleeing-target test |

Floats are modelled as mathematical reals. The engine functions the model
does not compute are fields of a `Math` value passed to every operation that
needs them:

- square root
- `Vector2.Angle` and `Vector2.SignedAngle`
- cosine and sine in degrees
- the bearing `Utils.Angle` and `AngleBetween`

The predicate `ValidMath` states the few facts the proofs use about them.
Lengths are non-negative, and only the zero vector has length zero. Scaling
a vector scales its length. Points on the unit circle have length one. The
unsigned angle lies in [0, 180] and is symmetric.

Object identity, which the source's hash sets and dictionaries use because
`Node` overrides `Equals` but not `GetHashCode`, becomes a node id. The
graph is a map from ids to nodes plus a map from ordered pairs of ids to
edges. An edge is kept once from each end. The other cellulos, the player,
and the random draws come in as parameters.

## Model

| member | source | states |
|---|---|---|
| Utils.AreSameSymmetric | Assets/Scripts/Game/Utils.cs:13-16 | float tolerance equality does not depend on the order of its arguments |
| Utils.AreSameNotTransitive | Assets/Scripts/Game/Utils.cs:11-16 | tolerance equality is not transitive: 0 is the same as 0.00006, which is the same as 0.00012, but 0 is not the same as 0.00012 |
| Utils.AreSameVecIff | Assets/Scripts/Game/Utils.cs:18-21 | two points are the same exactly when they are less than 1e-4 apart |
| Utils.AreSameVecReflexiveSymmetric | Assets/Scripts/Game/Utils.cs:18-21 | point equality is reflexive and symmetric |
| Utils.ConversionsAreNotInverse | Assets/Scripts/Game/Utils.cs:40-41 | `ToVector2(ToVector3(v, h))` keeps x but has h as its y, so it gives v back only when v.y == h |
| Sorting.SortBy | Assets/Scripts/Game/PriorityList.cs:50 | `OrderBy` yields a permutation of its input |
| Sorting.SortBySorted | Assets/Scripts/Game/PriorityList.cs:50 | `OrderBy` yields a sequence whose keys never decrease |
| Sorting.SortByStable | Assets/Scripts/Game/PriorityList.cs:50 | `OrderBy` is stable: for every key, the elements with that key keep their relative order |
| Sorting.SortBySortedIsIdentity | Assets/Scripts/Game/PriorityList.cs:50 | sorting an already sorted sequence changes nothing |
| Sorting.SortThenDropNulls | Assets/Scripts/Game/PriorityList.cs:48-52 | sorting with the nulls and then removing them gives the same list as removing them first and sorting the rest |
| PriorityLists.SortQueueFacts | Assets/Scripts/Game/PriorityList.cs:48-52 | `SortQueue` leaves exactly the non-null elements, sorted by score, in a stable order |
| PriorityLists.Create | Assets/Scripts/Game/PriorityList.cs:20-25 | a new list holds the collection's non-null elements, sorted and stable, with the given sorter |
| PriorityLists.Add | Assets/Scripts/Game/PriorityList.cs:27-31 | adding keeps the list sorted and adds the element (a null adds nothing); on a sorted list it is an insertion behind the elements of equal score |
| PriorityLists.AddAll | Assets/Scripts/Game/PriorityList.cs:33-37 | adding a collection keeps the list sorted and adds its non-null elements |
| PriorityLists.Peek | Assets/Scripts/Game/PriorityList.cs:39 | peeking fails exactly on an empty list; otherwise it answers an element that scores no more than any other |
| PriorityLists.Remove | Assets/Scripts/Game/PriorityList.cs:41-46 | removing from an empty list changes nothing; otherwise it drops one copy of the head, and on a sorted list it leaves exactly the tail |
| PriorityLists.AbsoluteValueScenario | Assets/Scripts/Tests/UnitTests.cs:70-82 | with the absolute value as score, the list built from 2, 7, -3, 9, 11, -15 peeks 2, then -3 after a removal, then 7 after another |
| Pathways.NewRing | Assets/Scripts/Game/Ghosts/CircularMap.cs:461-466 | a ring is built exactly when the radius is positive, with that radius and centre |
| Pathways.PointAt | Assets/Scripts/Game/Ghosts/CircularMap.cs:489-493 | the point at any bearing lies at the radius from the centre |
| Pathways.RingDistanceFromPath | Assets/Scripts/Game/Ghosts/CircularMap.cs:479-482 | the distance to a ring is non-negative; it is within the tolerance exactly when `IsOn` holds, and zero exactly on the circle |
| Pathways.RingClosestTo | Assets/Scripts/Game/Ghosts/CircularMap.cs:524-528 | the closest point of a ring lies on the ring, at distance zero from it |
| Pathways.ArcsMakeCircumference | Assets/Scripts/Game/Ghosts/CircularMap.cs:472-477 | the short arc and the detour add up to 2πr; the short arc is at most πr and no longer than the detour |
| Pathways.RingDistanceSymmetric | Assets/Scripts/Game/Ghosts/CircularMap.cs:472-477 | the arc length does not depend on the order of its end points |
| Pathways.QuarterTurnScenario | Assets/Scripts/Tests/UnitTests.cs:51-63 | on the ring of radius 5 around (2, 2), between (2, 7) and (7, 2), the arc is π·5/2 and the detour 3π·5/2, in either order |
| Pathways.RingDirection | Assets/Scripts/Game/Ghosts/CircularMap.cs:508-522 | the direction of travel is tangent to the ring, of unit length (or zero at the centre), and turns clockwise exactly when asked |
| Pathways.RingOrientate | Assets/Scripts/Game/Ghosts/CircularMap.cs:499-505 | a ghost on a ring turns clockwise exactly when the signed angle to the target is negative; the direction is a unit tangent |
| Pathways.NewPassageway | Assets/Scripts/Game/Ghosts/CircularMap.cs:324-348 | the constructor rejects a missing ring, equal rings and a position on the first ring, each with its own error; otherwise the smaller ring comes first and both ends lie on their rings |
| Pathways.PassageEndsAreOn | Assets/Scripts/Game/Ghosts/CircularMap.cs:398-402 | both ends of a passageway are on it |
| Pathways.PassageClosestTo | Assets/Scripts/Game/Ghosts/CircularMap.cs:365-377 | the closest point is on the passageway; unless it is an end, it is the projection of the target |
| Pathways.PassageDistanceFromPath | Assets/Scripts/Game/Ghosts/CircularMap.cs:384-396 | the distance to a passageway is non-negative, and a target at distance zero is on it |
| Pathways.PassageOrientate | Assets/Scripts/Game/Ghosts/CircularMap.cs:404-410 | the direction on a passageway is its unit axis, turned to point towards the target |
| Pathways.PathwayDistanceSymmetric | Assets/Scripts/Game/Ghosts/CircularMap.cs:379-382 | the distance along any pathway does not depend on the order of its end points |
| Pathways.PathwayEqualsReflexiveSymmetric | Assets/Scripts/Game/Ghosts/CircularMap.cs:429-437 | pathway equality (tolerance-based for rings and passageways) is reflexive and symmetric |
| CircularMaps.NewMap | Assets/Scripts/Game/Ghosts/CircularMap.cs:33-36 | a new map has the centre, no rings and no passages, and satisfies the map invariant |
| CircularMaps.SortedRings | Assets/Scripts/Game/Ghosts/CircularMap.cs:241-245 | `Rings()` is the rings ordered by radius, which for a valid map is the stored list itself |
| CircularMaps.AddRing | Assets/Scripts/Game/Ghosts/CircularMap.cs:92-98 | adding a ring fails exactly for a non-positive radius; otherwise the map gains that ring around its centre and stays sorted by radius |
| CircularMaps.AddRingThrough | Assets/Scripts/Game/Ghosts/CircularMap.cs:86-89 | the ring added through a position passes through it, and is refused only when the position is the centre |
| CircularMaps.AnyRingOn | Assets/Scripts/Game/Ghosts/CircularMap.cs:120-124 | the fold is true exactly when some ring has the target on it |
| CircularMaps.ClosestRings | Assets/Scripts/Game/Ghosts/CircularMap.cs:214-227 | with no rings it fails; with one it returns that ring; with two, both with the smaller first; otherwise the two rings nearest the position, the nearer first |
| CircularMaps.PassageTarget | Assets/Scripts/Game/Ghosts/CircularMap.cs:106-110 | the point aimed at for ring index i lies at MARGIN + 2·MARGIN·(i+1) from the centre |
| CircularMaps.AddPassage | Assets/Scripts/Game/Ghosts/CircularMap.cs:118-131 | a target on a ring is refused; otherwise a map without rings fails, a map with one ring fails, and two closest rings that are equal fail; it succeeds exactly when none of these holds, and then the map gains one passage between the two closest rings, smaller ring first |
| CircularMaps.FirstBorderNotOn | Assets/Scripts/Game/Ghosts/CircularMap.cs:329-332 | a target on no ring never trips the passageway constructor's "too close to the ring" check |
| CircularMaps.PassagesPointsOnRing | Assets/Scripts/Game/Ghosts/CircularMap.cs:229-239 | a point is listed exactly when some passage has an end there on a ring equal to the given one |
| CircularMaps.AllPathways | Assets/Scripts/Game/Ghosts/CircularMap.cs:249-254 | the pathways are the rings followed by the passages |
| CircularMaps.FindClosestPoint | Assets/Scripts/Game/Ghosts/CircularMap.cs:179-203 | the closest point lies on the first nearest pathway, scanning rings then passages; with no pathway it is the far-away default |
| CircularMaps.FindClosestPathway | Assets/Scripts/Game/Ghosts/CircularMap.cs:205-212 | the answer is a pathway of the map no farther from the target than any other; only an empty map fails |
| CircularMaps.CumulativeNonDecreasing | Assets/Scripts/Game/Ghosts/CircularMap.cs:151-167 | the running totals of non-negative lengths never decrease |
| CircularMaps.ChoiceIsLengthWeighted | Assets/Scripts/Game/Ghosts/CircularMap.cs:169-175 | the draw picks index i exactly when it falls in the interval ending at i's running total, which is as long as i's weight |
| CircularMaps.RandomPathwayWeighted | Assets/Scripts/Game/Ghosts/CircularMap.cs:147-176 | in a valid map each pathway is chosen over a draw interval as long as the pathway (a ring weighs its circumference) |
| Graphs.EmptyGraph | Assets/Scripts/Game/Ghosts/Pathfinder.cs:64 | the empty node set is a valid graph |
| Graphs.NodeEqualsFacts | Assets/Scripts/Game/Ghosts/Pathfinder.cs:796-801 | node equality is reflexive and symmetric, and holds exactly when the positions are less than 1e-4 apart |
| Graphs.AdjacentNodesDiffer | Assets/Scripts/Game/Ghosts/Pathfinder.cs:662-667 | in a valid graph an edge never joins a node to itself or to an equal node |
| Graphs.EdgeTo | Assets/Scripts/Game/Ghosts/Pathfinder.cs:729-746 | there is an edge to a node exactly when it is a neighbour |
| Graphs.EdgeToSymmetric | Assets/Scripts/Game/Ghosts/Pathfinder.cs:750-767 | in a valid graph the edge from a to b is the edge from b to a |
| Graphs.Connect | Assets/Scripts/Game/Ghosts/Pathfinder.cs:750-767 | connecting fails for the node itself, for a negative length, and for an equal node, each with its own error; otherwise both sides gain the edge unless it was already there, and validity is kept |
| Graphs.Disconnect | Assets/Scripts/Game/Ghosts/Pathfinder.cs:779-787 | disconnecting removes the edge on both sides and nothing else |
| Graphs.ConnectIdempotent | Assets/Scripts/Game/Ghosts/Pathfinder.cs:754-762 | a second `Connect` of two neighbours, with any non-negative length and any pathway, changes nothing |
| Graphs.DisconnectUndoesConnect | Assets/Scripts/Game/Ghosts/Pathfinder.cs:750-787 | `Disconnect` undoes a `Connect` of two nodes that were not neighbours |
| Graphs.FindExistingNode | Assets/Scripts/Game/Ghosts/Pathfinder.cs:230-245 | the answer is none exactly when no node is within the distance; otherwise it is a node within it that is no farther than any other |
| Graphs.GetExistingNode | Assets/Scripts/Game/Ghosts/Pathfinder.cs:123-131 | it fails when no node, or more than one, is within the merge distance; otherwise it answers the single near node, which is also the nearest |
| Graphs.FindNodesOn | Assets/Scripts/Game/Ghosts/Pathfinder.cs:247-260 | the nodes found are exactly those with an edge along the pathway; fewer than two is an error |
| GraphEdits.Enumerate | Assets/Scripts/Game/Ghosts/Pathfinder.cs:250 | listing a hash set yields each element exactly once |
| GraphEdits.FindBoundingNodesOn | Assets/Scripts/Game/Ghosts/Pathfinder.cs:147-159 | it fails exactly when the pathway holds fewer than two nodes; otherwise it answers the nodes with the least and greatest angle, the nearer one first |
| GraphEdits.InsertNode | Assets/Scripts/Game/Ghosts/Pathfinder.cs:147-181 | fewer than two nodes on the pathway is an error; otherwise the new node has the next id and the given position, and it splits the edge between the two nodes at the extremes of the angle seen from the map centre, the nearer along the pathway first; validity is kept |
| GraphEdits.RemoveNode | Assets/Scripts/Game/Ghosts/Pathfinder.cs:196-215 | a node without exactly two edges is refused, and one whose two edges run along pathways that are not equal fails with mixed pathways; otherwise the node goes, every other edge is kept, no other edge appears, and its neighbours are joined, by a new edge along the first neighbour's pathway with the length that pathway gives between them unless they were already joined |
| GraphEdits.RemoveUndoesInsert | Assets/Scripts/Game/Ghosts/Pathfinder.cs:162-215 | removing a node right after inserting it between two joined nodes restores the graph, except for the id counter |
| GraphEdits.RemoveUndoesSplice | Assets/Scripts/Game/Ghosts/Pathfinder.cs:174-214 | when the split edge was as long as its pathway's distance between its ends, removing the node a splice added restores every node and edge; the id counter stays one ahead |
| GraphEdits.DetachEitherWay | Assets/Scripts/Game/Ghosts/Pathfinder.cs:204-211 | the order in which the hash set yields the two neighbours makes no difference to cutting their edges |
| GraphEdits.ConnectSwap | Assets/Scripts/Game/Ghosts/Pathfinder.cs:750-767 | connecting two nodes gives the same graph whichever comes first |
| GraphEdits.RemoveNodeEitherWay | Assets/Scripts/Game/Ghosts/Pathfinder.cs:196-215 | when both edges of the node carry the same pathway, the removal rejoins the neighbours the same way whichever order the hash set yields them in |
| MapGraphs.NodeFor | Assets/Scripts/Game/Ghosts/Pathfinder.cs:67-78 | a passageway end gets the node found near it, or a new passable node at it; nothing else changes |
| MapGraphs.AddPassageEdge | Assets/Scripts/Game/Ghosts/Pathfinder.cs:65-80 | each passageway's ends are joined by an edge along it, and every earlier node and edge is kept |
| MapGraphs.ChainRing | Assets/Scripts/Game/Ghosts/Pathfinder.cs:86-103 | the nodes at a ring's points, in bearing order, are joined one after the other and the last back to the first, every edge running along the ring |
| MapGraphs.JoinRing | Assets/Scripts/Game/Ghosts/Pathfinder.cs:82-104 | a ring's points are taken in bearing order; a ring with fewer than two points adds nothing |
| MapGraphs.ResetNodes | Assets/Scripts/Game/Ghosts/Pathfinder.cs:62-107 | the rebuilt graph is valid, every node is a passable passageway end, every passageway's ends are joined, every edge runs along a pathway of the map, and on every ring with two or more passageway ends the nodes found at those ends, in bearing order, are joined one to the next and the last to the first |
| MapGraphs.JoinMapRing | Assets/Scripts/Game/Ghosts/Pathfinder.cs:82-104 | chaining one ring keeps the map graph and leaves the rings chained before it chained |
| Search.WalkLengthNonNegative | Assets/Scripts/Game/Ghosts/Pathfinder.cs:667 | edge lengths are never negative, so no walk has a negative length |
| Search.Relax | Assets/Scripts/Game/Ghosts/Pathfinder.cs:495-513 | a blocking neighbour, or one already reached no more cheaply, leaves the state alone; otherwise it gets the new cost and predecessor, and joins the sorted frontier |
| Search.Dequeue | Assets/Scripts/Game/Ghosts/Pathfinder.cs:490-491 | taking from a sorted frontier answers its head and leaves its tail |
| Search.Search | Assets/Scripts/Game/Ghosts/Pathfinder.cs:483-514 | the search ends; when it stops at a node equal to the end node, that node's cost is the length of a shortest passable route; when the frontier runs dry, every node a route reaches was reached at its shortest cost |
| Search.TracePath | Assets/Scripts/Game/Ghosts/Pathfinder.cs:526-535 | reading the predecessors back from the end yields a passable route from the start whose length is the end's cost; when the end is the start it is that single node |
| Search.TracePathAsWritten | Assets/Scripts/Game/Ghosts/Pathfinder.cs:526-535 | the do-while as written yields [start, start] when the end node is the start node, and a route of the end's cost otherwise |
| Search.PathwaysAlong | Assets/Scripts/Game/Ghosts/Pathfinder.cs:538-544 | the pathways along a path exist exactly when consecutive nodes are joined, one per step, each the pathway of that step's edge |
| Search.RepeatedNodeHasNoPathway | Assets/Scripts/Game/Ghosts/Pathfinder.cs:540-543 | a path that repeats a node has no pathway for that step, because no edge joins a node to itself |
| Search.PathLength | Assets/Scripts/Game/Ghosts/Pathfinder.cs:556-564 | the reported length, a sum of distances along pathways, is never negative |
| Search.MeasuredPathLength | Assets/Scripts/Game/Ghosts/Pathfinder.cs:556-564 | when each edge is as long as its pathway's distance between its ends, the reported length equals the walk's edge-length sum |
| Pathfinders.NewPathfinder | Assets/Scripts/Game/Ghosts/Pathfinder.cs:53-59 | a new pathfinder holds the map's graph and the given obstacles, with no route and not frozen |
| Pathfinders.Freeze | Assets/Scripts/Game/Ghosts/Pathfinder.cs:574-577 | freezing sets the frozen flag and changes nothing else |
| Pathfinders.RemoveFirst | Assets/Scripts/Game/Ghosts/Pathfinder.cs:554 | `List.Remove` drops one copy of the object when it is there, and changes nothing otherwise |
| Pathfinders.AddThenRemoveFirst | Assets/Scripts/Game/Ghosts/Pathfinder.cs:457-554 | adding the player to the obstacles and removing it again keeps the same obstacles, in the same order when the player was not among them |
| Pathfinders.PlaceNode | Assets/Scripts/Game/Ghosts/Pathfinder.cs:465-479 | a map without pathways fails, and so does a nearest pathway of the map with fewer than two nodes on it; on success the graph gains exactly one node, with the next id, the given position and blocking flag, and stays valid |
| Pathfinders.EndNode | Assets/Scripts/Game/Ghosts/Pathfinder.cs:460-469 | an end of the search is the node found near it, or else a new node at it, which is recorded as added |
| Pathfinders.ObstacleNode | Assets/Scripts/Game/Ghosts/Pathfinder.cs:474-480 | an obstacle with a node near it changes nothing; otherwise placing a node fails for a map without pathways or a nearest pathway with fewer than two nodes, and on success a new blocking node is placed at it |
| Pathfinders.ObstacleNodes | Assets/Scripts/Game/Ghosts/Pathfinder.cs:472-481 | after the loop every obstacle has a node within the merge distance, and every node added is new and blocking |
| Pathfinders.PlaceEnds | Assets/Scripts/Game/Ghosts/Pathfinder.cs:460-469 | both ends are looked up in the graph as it was before either is placed, and each is merged with a near node or new |
| Pathfinders.Place | Assets/Scripts/Game/Ghosts/Pathfinder.cs:456-481 | the placement holds the start and end nodes and the obstacle nodes; only the nodes added are new, and every obstacle is covered |
| Pathfinders.RemoveAll | Assets/Scripts/Game/Ghosts/Pathfinder.cs:548-553 | removing the added nodes one by one leaves exactly the other nodes, unchanged, in a valid graph |
| Pathfinders.RemovedAgain | Assets/Scripts/Game/Ghosts/Pathfinder.cs:547-553 | taking the added nodes out again leaves exactly the nodes the graph had before the search |
| Pathfinders.Follow | Assets/Scripts/Game/Ghosts/Pathfinder.cs:534-570 | following a path fails with a missing edge exactly when two consecutive nodes are not joined, and removing the added nodes may also fail; otherwise the waypoints after the start, the pathways, the length and the end node are kept, and the added nodes are gone |
| Pathfinders.GiveUp | Assets/Scripts/Game/Ghosts/Pathfinder.cs:516-523 | without a route the length is 0, the only waypoint is the start node over the closest pathway, and the graph is rebuilt; the end node, the distance to the target and the obstacles (an avoided player included) are kept |
| Pathfinders.SetTarget | Assets/Scripts/Game/Ghosts/Pathfinder.cs:450-571 | the ghost is no longer frozen and the graph stays valid; a reached target has a passable route, shortest unless the search stopped at another equal node, and the node set and obstacles are restored; a ghost already at its target gets an empty route of length 0; an unreached target leaves the give-up state, and then no route exists unless the search stopped early at an equal node; the reported length is never negative |
| Pathfinders.Reach | Assets/Scripts/Game/Ghosts/Pathfinder.cs:525-570 | a reached end node yields the route read back from its predecessors, at its cost, then followed, with the node set and obstacles restored |
| Pathfinders.SetTargetAsWritten | Assets/Scripts/Game/Ghosts/Pathfinder.cs:526-543 | as written, when the ghost and its target merge into the same existing node, the route is that node twice and the call fails on a missing edge |
| Pathfinders.DistanceBetween | Assets/Scripts/Game/Ghosts/Pathfinder.cs:588-599 | the waypoints, pathways and distance to the target are put back afterwards; the length is that of the route, or 0 without one, and never negative |
| Pathfinders.Orientation | Assets/Scripts/Game/Ghosts/Pathfinder.cs:267-306 | only the waiting flag changes; a ghost waits exactly when it is near a ghost that is not waiting and is fleeing or farther from its target; a frozen or waiting ghost stands still; otherwise it fails exactly when there is no waypoint, and heads along the first pathway towards the first waypoint when there is one |
| Pathfinders.FrozenStandsStill | Assets/Scripts/Game/Ghosts/Pathfinder.cs:284 | a frozen ghost gets the zero vector whatever the other ghosts do |
| Pathfinders.NeverBothWait | Assets/Scripts/Game/Ghosts/Pathfinder.cs:271-282 | when one ghost updates after the other, the two never both wait |
| Pathfinders.FartherChaserWaits | Assets/Scripts/Game/Ghosts/Pathfinder.cs:273-279 | of two close chasing ghosts, exactly the one farther from its target waits, and neither waits on equal distances |
| Pathfinders.RouteGivesDirection | Assets/Scripts/Game/Ghosts/Pathfinder.cs:292-305 | after a route of at least one step, a ghost that is neither frozen nor waiting gets a direction |
| Pathfinders.FirstAccepted | Assets/Scripts/Game/Ghosts/Pathfinder.cs:317-328 | the fleeing target is the first draw that is at no occupied position and at least 7 away along the graph; no earlier draw qualifies |

## Left out

- Floating-point rounding: floats are reals, so tolerance comparisons (`AreSame`, `IsOn`, `MERGE_DIST`) are exact comparisons against the same constants.
- The engine's square root, angles, cosine and sine are parameters constrained by `ValidMath`, not computed.
- Randomness: `RandomPosition` takes its draw as a parameter, and the position it picks on the chosen pathway is not modelled. `SetFleeing`'s random choice of end node is left out with `SetFleeing`.
- Hash-set iteration order is an unspecified choice. `FindExistingNode` and `Enumerate` choose any order. `RemoveNode` takes the neighbour with the smaller id first. When both edges carry the same pathway the removal is the same either way (`GraphEdits.RemoveNodeEitherWay`). When the two pathways are only equal within tolerance, the new edge takes the pathway of the smaller id's edge, where the original takes whichever neighbour the hash set yields first.
- Exceptions are `Failure` results. The state a failure leaves behind (a half-edited graph, the player still among the obstacles) is not modelled.
- `SetFleeing` and `MergeNodes` are left out because neither serves `SetTarget`, `DistanceBetween` or `Orientation`. `MoveToNextPathway`, `CurrentTarget`, `SetObstacles`, `RemoveObstacles`, `ToString`, `DrawGraph` and `FindNode` are left out for the same reason. The Unity wiring (`GhostBehavior`, `GameManager`, game objects, logging) is left out too.
- `Orientation` takes the closest other ghost as a parameter instead of asking `GameManager`. The position of each obstacle and of the player is a parameter too.
- `GHOST_IS_BLOCKING` is fixed to its initial value `true`.
- `GenerateFleeingTarget`: only its exit test and the choice of the first accepted draw are modelled. The draws and the route lengths `DistanceBetween` gives for them are inputs, so the loop's termination is not modelled.
- Pathfinders.SetTarget: the shortest-route promise holds only when the search stops at the end node itself or runs dry. It may stop at another node equal to the end node (within 1e-4), whose cost need not be final. The contract names this case instead of ruling it out.
- Pathfinders.SetTarget: the reported length is the sum of the pathways' distances between consecutive waypoints. It equals the edge-length sum the search minimises only when each edge is measured the same way (`Search.MeasuredPathLength`); the contract does not claim that in general.
- Pathfinders.DistanceBetween: it states only what the source puts back and what the result is. The rest of what `SetTarget` changes stays changed.
- MapGraphs.ResetNodes: a ring's chain is promised as adjacency, not as edges along that ring. Two consecutive nodes already joined, by a passage or an earlier ring, keep the edge they had.
- GraphEdits.RemoveUndoesSplice: it needs the split edge to be as long as its pathway's distance between its ends, and the id counter is not put back. The premise is not shown for the graph `ResetNodes` builds, for the reason given on the next line.
- GraphEdits.RemoveUndoesInsert: its premise, an edge as long as its pathway's distance between its ends, is not shown for the graph `ResetNodes` builds. Ring edges are measured that way, but a passage edge has the passage's full length even when an end was merged into a node nearby.
- `ResetNodes` on a ring with exactly two passageway ends adds one arc edge, not two. The loop joins the two nodes, and the closing `Connect` finds them already joined. The model keeps this.
- Edge cost (`BASE_COST`) and `isOccupied` are never read by the search, and are left out.
- `PriorityList` is modelled for reference-typed elements, where `default(T)` is null. For value types `Remove` would put a 0 in the list.
- PriorityLists.AbsoluteValueScenario: the unit test at Assets/Scripts/Tests/UnitTests.cs:70-82 uses `PriorityList<int>`, but the expected 2, -3, 7 is proved only under the reference-element reading. `IsNull` is not shown in the source; unless it counts 0 as null, the 0 written at the head stays and, scoring 0, is peeked next.
- `PriorityList.cs` has no sorter-only constructor and no `Count` or `Dequeue`, but `SetTarget` calls them. The model takes the constructor to be an empty list, and `Dequeue` to be `Remove`.
- `MinElement` is not shown in the source. `FindClosestPathway` takes the first minimum of each list and prefers the ring on a tie. On an empty list it is taken to give null, which the two-argument `MinElement` passes over, so a map with only rings or only passages answers the nearest of those.
- `ResetNodes` walks the passages in the order they were added. The map keeps them in a .NET `HashSet` from which nothing is removed, and such a set enumerates in insertion order.

## Findings

| source | as written | input that shows it | evidently intended | confidence | as-written member | corrected member |
|---|---|---|---|---|---|---|
| Assets/Scripts/Game/Ghosts/Pathfinder.cs:526-543 | the predecessor walk is a do-while that tests for the start only after a step back, so when the end node is the start node the path is [start, start]; `EdgeTo(start, start)` is then null and `.Pathway()` dereferences it | a ghost whose position and target are both within `MERGE_DIST` of the same existing node | a route of the single start node: no waypoints, no pathways, length 0 | not executed | Pathfinders.SetTargetAsWritten | Pathfinders.SetTarget |

=== FILE: circular_map.dfy ===
/** The circular map: concentric rings around a centre, joined by radial
    passageways. Rings are kept sorted by radius; passageways are kept in the
    order they were added, which stands for the iteration order of the
    original hash set. */
module CircularMaps {
  import opened Wrappers
  import opened Vectors
  import opened Utils
  import opened Sorting
  import opened Pathways

  /** Room left between a robot and the map borders or other robots. */
  const Margin: real := 1.0

  /** Above this distance from the map the player is taken to be cheating. */
  const CheatDetection: real := 0.37

  /** The point `FindClosestPoint` answers when no pathway beats `FloatMax`. */
  const FarAway: Vec2 := Vec2(999999.0, 99999.0)

  datatype CircularMap = CircularMap(center: Vec2, rings: seq<MapRing>, passages: seq<Passageway>)

  datatype MapError =
    | BadRing(ringError: PathwayError)
    | BadPassage(passageError: PathwayError)
    | AmbiguousTarget
    | NoRings
    | TooFewRings
    | NoPathways

  function Radius(ring: MapRing): real {
    ring.radius
  }

  /** What every map built from `NewMap` by `AddRing` and `AddPassage` satisfies. */
  predicate ValidMap(cm: CircularMap) {
    && Sorted(cm.rings, Radius)
    && forall i :: 0 <= i < |cm.rings| ==> ValidRing(cm.rings[i])
  }

  /** `new CircularMap(center)` */
  function NewMap(center: Vec2): (cm: CircularMap)
    ensures ValidMap(cm) && cm.center == center
    ensures cm.rings == [] && cm.passages == []
  {
    CircularMap(center, [], [])
  }

  /** `Rings()`: the rings ordered by radius. */
  function SortedRings(cm: CircularMap): (r: seq<MapRing>)
    ensures Sorted(r, Radius)
    ensures multiset(r) == multiset(cm.rings)
    ensures ValidMap(cm) ==> r == cm.rings
  {
    SortBySorted(cm.rings, Radius);
    if Sorted(cm.rings, Radius) then
      SortBySortedIsIdentity(cm.rings, Radius);
      SortBy(cm.rings, Radius)
    else SortBy(cm.rings, Radius)
  }

  // ----------------------------------------------------------------- rings

  /** `AddRing(radius)`: a ring of that radius around the cm centre, stably
      inserted among the rings by radius. */
  function AddRing(cm: CircularMap, radius: real): (r: Result<(CircularMap, MapRing), MapError>)
    ensures r.Success? <==> radius > 0.0
    ensures r.Failure? ==> r.error == BadRing(NonPositiveRadius)
    ensures r.Success? ==>
      var (cm', ring) := r.value;
      && ring == MapRing(radius, cm.center)
      && cm'.center == cm.center
      && cm'.passages == cm.passages
      && Sorted(cm'.rings, Radius)
      && multiset(cm'.rings) == multiset(cm.rings) + multiset{ring}
      && (Sorted(cm.rings, Radius) ==> cm'.rings == Insert(ring, cm.rings, Radius))
    ensures r.Success? && ValidMap(cm) ==> ValidMap(r.value.0)
  {
    match NewRing(radius, cm.center)
    case Failure(e) => Failure(BadRing(e))
    case Success(ring) =>
      var rings := SortBy(cm.rings + [ring], Radius);
      SortBySorted(cm.rings + [ring], Radius);
      SortBySnoc(cm.rings, ring, Radius);
      if Sorted(cm.rings, Radius) then
        SortBySortedIsIdentity(cm.rings, Radius);
        ValidRingsKept(cm.rings, ring, rings);
        Success((cm.(rings := rings), ring))
      else
        ValidRingsKept(cm.rings, ring, rings);
        Success((cm.(rings := rings), ring))
  }

  lemma ValidRingsKept(rings: seq<MapRing>, ring: MapRing, rings': seq<MapRing>)
    requires multiset(rings') == multiset(rings + [ring])
    ensures (forall i :: 0 <= i < |rings| ==> ValidRing(rings[i])) && ValidRing(ring) ==>
      forall i :: 0 <= i < |rings'| ==> ValidRing(rings'[i])
  {
    if (forall i :: 0 <= i < |rings| ==> ValidRing(rings[i])) && ValidRing(ring) {
      forall i | 0 <= i < |rings'|
        ensures ValidRing(rings'[i])
      {
        assert rings'[i] in multiset(rings');
        assert rings'[i] in rings + [ring];
      }
    }
  }

  /** `AddRing(position)`: the ring through `position`. */
  function AddRingThrough(m: Math, cm: CircularMap, position: Vec2): (r: Result<(CircularMap, MapRing), MapError>)
    ensures ValidMath(m) ==> (r.Success? <==> position != cm.center)
    ensures r.Success? ==> DistanceFromCenter(m, r.value.1, position) == r.value.1.radius
    ensures r.Success? ==> r.value.1.center == cm.center && r.value.0.passages == cm.passages
    ensures r.Success? ==> multiset(r.value.0.rings) == multiset(cm.rings) + multiset{r.value.1}
    ensures r.Success? && ValidMap(cm) ==> ValidMap(r.value.0)
  {
    ZeroDistanceMeansEqual(m, position, cm.center);
    DistanceFacts(m, position, cm.center);
    AddRing(cm, Magnitude(m, Minus(position, cm.center)))
  }

  // ------------------------------------------------------------ passageways

  /** The fold of `AddPassage` that asks every ring whether the target is on it. */
  function AnyRingOn(m: Math, rings: seq<MapRing>, target: Vec2): (b: bool)
    ensures b <==> exists i :: 0 <= i < |rings| && RingIsOn(m, rings[i], target)
  {
    if rings == [] then false
    else
      var rest := AnyRingOn(m, rings[..|rings| - 1], target);
      assert forall i :: 0 <= i < |rings| - 1 ==> rings[..|rings| - 1][i] == rings[i];
      rest || RingIsOn(m, rings[|rings| - 1], target)
  }

  /** Score of a ring in `ClosestRings`. */
  function RingScore(m: Math, position: Vec2): MapRing -> real {
    (ring: MapRing) => Abs(RingDistanceFromPath(m, ring, position))
  }

  /** The two rings nearest the position, for three rings or more. */
  function NearestTwo(m: Math, rings: seq<MapRing>, position: Vec2): (r: seq<MapRing>)
    requires |rings| > 2
    ensures |r| == 2
    ensures multiset(r) <= multiset(rings)
    ensures RingScore(m, position)(r[0]) <= RingScore(m, position)(r[1])
    ensures forall ring :: ring in multiset(rings) - multiset(r) ==>
      RingScore(m, position)(r[1]) <= RingScore(m, position)(ring)
  {
    var score := RingScore(m, position);
    var sorted := SortBy(rings, score);
    SortBySorted(rings, score);
    TwoSmallest(sorted, score);
    [sorted[0], sorted[1]]
  }

  /** The two rings of a two-ring map, smaller first. */
  function OrderedPair(rings: seq<MapRing>): (r: seq<MapRing>)
    requires |rings| == 2
    ensures |r| == 2
    ensures multiset(r) == multiset(rings)
    ensures r[0].radius <= r[1].radius
  {
    assert rings == [rings[0], rings[1]];
    if rings[0].radius < rings[1].radius then [rings[0], rings[1]] else [rings[1], rings[0]]
  }

  /** `ClosestRings(position)`: the only ring when there is one; both rings,
      smaller first, when there are two; otherwise the two rings nearest the
      position (a stable sort by distance keeps ties in list order). An empty
      map has no first ring to return. */
  function ClosestRings(m: Math, cm: CircularMap, position: Vec2): (r: Result<seq<MapRing>, MapError>)
    ensures r.Failure? <==> cm.rings == []
    ensures r.Failure? ==> r.error == NoRings
    ensures r.Success? ==> |r.value| == if |cm.rings| == 1 then 1 else 2
    ensures r.Success? ==> multiset(r.value) <= multiset(cm.rings)
    ensures r.Success? && |cm.rings| == 1 ==> r.value == cm.rings
    ensures r.Success? && |cm.rings| == 2 ==>
      r.value[0].radius <= r.value[1].radius && multiset(r.value) == multiset(cm.rings)
    ensures r.Success? && |cm.rings| > 2 ==>
      && RingScore(m, position)(r.value[0]) <= RingScore(m, position)(r.value[1])
      && forall ring :: ring in multiset(cm.rings) - multiset(r.value) ==>
           RingScore(m, position)(r.value[1]) <= RingScore(m, position)(ring)
  {
    if |cm.rings| == 0 then Failure(NoRings)
    else if |cm.rings| == 1 then Success([cm.rings[0]])
    else if |cm.rings| == 2 then Success(OrderedPair(cm.rings))
    else Success(NearestTwo(m, cm.rings, position))
  }

  /** The first two elements of a sorted list score no more than any other element. */
  lemma TwoSmallest<T>(s: seq<T>, key: T -> real)
    requires |s| >= 2 && Sorted(s, key)
    ensures multiset([s[0], s[1]]) <= multiset(s)
    ensures key(s[0]) <= key(s[1])
    ensures forall x :: x in multiset(s) - multiset([s[0], s[1]]) ==> key(s[1]) <= key(x)
  {
    assert s == [s[0], s[1]] + s[2..];
    assert multiset(s) == multiset([s[0], s[1]]) + multiset(s[2..]);
    forall x | x in multiset(s) - multiset([s[0], s[1]])
      ensures key(s[1]) <= key(x)
    {
      assert x in multiset(s[2..]);
      var k :| 0 <= k < |s[2..]| && s[2..][k] == x;
      assert s[k + 2] == x;
    }
  }

  /** The point `AddPassage(index, orientation)` aims at: halfway between the
      evenly spaced rings `index` and `index + 1`, in the given direction. */
  function PassageTarget(m: Math, cm: CircularMap, index: int, orientation: Vec2): (t: Vec2)
    ensures ValidMath(m) && Magnitude(m, orientation) > NormalizeEpsilon && -1 <= index ==>
      Distance(m, t, cm.center) == Margin + 2.0 * Margin * (index as real + 1.0)
  {
    var k := Margin + 2.0 * Margin * (index as real + 1.0);
    var t := Plus(cm.center, Scale(k, Normalized(m, orientation)));
    assert Minus(t, cm.center) == Scale(k, Normalized(m, orientation));
    if Magnitude(m, orientation) > NormalizeEpsilon then
      NormalizedIsUnitIf(m, orientation);
      t
    else t
  }

  lemma NormalizedIsUnitIf(m: Math, v: Vec2)
    requires Magnitude(m, v) > NormalizeEpsilon
    ensures ValidMath(m) ==> Magnitude(m, Normalized(m, v)) == 1.0
  {
    if ValidMath(m) {
      NormalizedIsUnit(m, v);
    }
  }

  /** The passage between two border rings through the target. */
  function JoinBorders(m: Math, borders: seq<MapRing>, target: Vec2): (r: Result<Passageway, MapError>)
    requires |borders| == 2
    requires !(Abs(Distance(m, target, borders[0].center) - borders[0].radius) < MapEpsilon)
    ensures r.Failure? ==> r.error == BadPassage(SameRings)
    ensures r.Failure? <==> RingEquals(m, borders[0], borders[1])
    ensures r.Success? ==>
      && multiset{r.value.smallRing, r.value.largeRing} == multiset(borders)
      && r.value.smallRing.radius <= r.value.largeRing.radius
  {
    assert borders == [borders[0], borders[1]];
    match NewPassageway(m, Some(borders[0]), Some(borders[1]), target)
    case Failure(e) => Failure(BadPassage(e))
    case Success(p) => Success(p)
  }

  /** `AddPassage(target)`: rejects a target on any ring; otherwise joins
      the two closest rings with a passage through the target. */
  function AddPassage(m: Math, cm: CircularMap, target: Vec2): (r: Result<(CircularMap, Passageway), MapError>)
    ensures r.Failure? && r.error == AmbiguousTarget <==>
      exists i :: 0 <= i < |cm.rings| && RingIsOn(m, cm.rings[i], target)
    ensures r.Failure? ==> r.error in {AmbiguousTarget, NoRings, TooFewRings, BadPassage(SameRings)}
    ensures |cm.rings| < 2 ==> r.Failure?
    ensures r.Failure? && r.error == NoRings <==> cm.rings == []
    ensures r.Failure? && r.error == TooFewRings <==> |cm.rings| == 1 && !AnyRingOn(m, cm.rings, target)
    ensures r.Success? <==>
      && !AnyRingOn(m, cm.rings, target)
      && |cm.rings| >= 2
      && !RingEquals(m, ClosestRings(m, cm, target).value[0], ClosestRings(m, cm, target).value[1])
    ensures r.Success? ==>
      var (cm', p) := r.value;
      && cm'.center == cm.center
      && cm'.rings == cm.rings
      && cm'.passages == cm.passages + [p]
      && multiset{p.smallRing, p.largeRing} == multiset(ClosestRings(m, cm, target).value)
      && p.smallRing.radius <= p.largeRing.radius
  {
    if AnyRingOn(m, cm.rings, target) then Failure(AmbiguousTarget)
    else if cm.rings == [] then Failure(NoRings)
    else
      var borders := ClosestRings(m, cm, target).value;
      if |borders| < 2 then Failure(TooFewRings)
      else
        FirstBorderNotOn(m, cm, target, borders);
        match JoinBorders(m, borders, target)
        case Failure(e) => Failure(e)
        case Success(p) => Success((cm.(passages := cm.passages + [p]), p))
  }

  /** A target on no ring is not within the passageway constructor's
      tolerance of any ring either, since `IsOn` accepts the bound and the
      constructor does not. */
  lemma FirstBorderNotOn(m: Math, cm: CircularMap, target: Vec2, borders: seq<MapRing>)
    requires !AnyRingOn(m, cm.rings, target)
    requires |borders| >= 1 && multiset(borders) <= multiset(cm.rings)
    ensures !(Abs(Distance(m, target, borders[0].center) - borders[0].radius) < MapEpsilon)
  {
    assert borders[0] in multiset(borders);
    assert borders[0] in cm.rings;
    var i :| 0 <= i < |cm.rings| && cm.rings[i] == borders[0];
    assert !RingIsOn(m, cm.rings[i], target);
  }

  /** The passage has an end point `p` on a ring equal to `ring`. */
  predicate PlacesOn(m: Math, passage: Passageway, ring: MapRing, p: Vec2) {
    || (RingEquals(m, passage.smallRing, ring) && p == passage.smallPoint)
    || (RingEquals(m, passage.largeRing, ring) && p == passage.largePoint)
  }

  /** `PassagesPointsOnRing(ring)`: the end points that the passages place on
      the ring. */
  function PassagesPointsOnRing(m: Math, passages: seq<Passageway>, ring: MapRing): (points: set<Vec2>)
    ensures forall p :: p in points <==> exists i :: 0 <= i < |passages| && PlacesOn(m, passages[i], ring, p)
  {
    if passages == [] then {}
    else
      var last := passages[|passages| - 1];
      var rest := PassagesPointsOnRing(m, passages[..|passages| - 1], ring);
      assert forall i :: 0 <= i < |passages| - 1 ==> passages[..|passages| - 1][i] == passages[i];
      rest
        + (if RingEquals(m, last.smallRing, ring) then {last.smallPoint} else {})
        + (if RingEquals(m, last.largeRing, ring) then {last.largePoint} else {})
  }

  // ------------------------------------------------------- closest pathway

  /** `Pathways()`: the rings, then the passageways. */
  function AllPathways(cm: CircularMap): (r: seq<Pathway>)
    ensures |r| == |cm.rings| + |cm.passages|
    ensures forall i :: 0 <= i < |cm.rings| ==> r[i] == RingPath(cm.rings[i])
    ensures forall i :: 0 <= i < |cm.passages| ==> r[|cm.rings| + i] == PassagePath(cm.passages[i])
  {
    seq(|cm.rings|, i requires 0 <= i < |cm.rings| => RingPath(cm.rings[i]))
      + seq(|cm.passages|, i requires 0 <= i < |cm.passages| => PassagePath(cm.passages[i]))
  }

  function PathDistances(m: Math, pathways: seq<Pathway>, target: Vec2): (ds: seq<real>)
    ensures |ds| == |pathways|
    ensures forall i :: 0 <= i < |ds| ==> ds[i] == PathwayDistanceFromPath(m, pathways[i], target)
  {
    seq(|pathways|, i requires 0 <= i < |pathways| => PathwayDistanceFromPath(m, pathways[i], target))
  }

  /** `i` is the first position of a minimum of `ds`. */
  ghost predicate FirstMinimum(ds: seq<real>, i: nat) {
    && i < |ds|
    && (forall j :: 0 <= j < i ==> ds[i] < ds[j])
    && (forall j :: i <= j < |ds| ==> ds[i] <= ds[j])
  }

  /** The left-to-right scan that keeps the first strictly smaller value. */
  function ScanMin(ds: seq<real>, k: nat, best: Option<nat>, bound: real): Option<nat>
    requires k <= |ds|
    decreases |ds| - k
  {
    if k == |ds| then best
    else if ds[k] < bound then ScanMin(ds, k + 1, Some(k), ds[k])
    else ScanMin(ds, k + 1, best, bound)
  }

  lemma {:induction false} ScanMinSpec(ds: seq<real>, k: nat, best: Option<nat>, bound: real, limit: real)
    requires k <= |ds|
    requires best.None? ==> bound == limit && forall j :: 0 <= j < k ==> ds[j] >= limit
    requires best.Some? ==>
      && best.value < k && bound == ds[best.value] && bound < limit
      && (forall j :: 0 <= j < best.value ==> ds[best.value] < ds[j])
      && (forall j :: best.value <= j < k ==> ds[best.value] <= ds[j])
    ensures var r := ScanMin(ds, k, best, bound);
      && (r.None? <==> forall j :: 0 <= j < |ds| ==> ds[j] >= limit)
      && (r.Some? ==> FirstMinimum(ds, r.value) && ds[r.value] < limit)
    decreases |ds| - k
  {
    if k < |ds| {
      if ds[k] < bound {
        ScanMinSpec(ds, k + 1, Some(k), ds[k], limit);
      } else {
        ScanMinSpec(ds, k + 1, best, bound, limit);
      }
    }
  }

  /** The position of the first value strictly below `limit` and below every
      earlier value, and no later value is smaller: the first minimum, if it
      is below the limit. */
  function FirstMinBelow(ds: seq<real>, limit: real): (r: Option<nat>)
    ensures r.None? <==> forall j :: 0 <= j < |ds| ==> ds[j] >= limit
    ensures r.Some? ==> FirstMinimum(ds, r.value) && ds[r.value] < limit
  {
    ScanMinSpec(ds, 0, None, limit, limit);
    ScanMin(ds, 0, None, limit)
  }

  /** `FindClosestPoint(target)`: the point of the pathway nearest the
      target, scanning the rings and then the passages and keeping the first
      of equally near ones. */
  function FindClosestPoint(m: Math, cm: CircularMap, target: Vec2): (p: Vec2)
    ensures var ds := PathDistances(m, AllPathways(cm), target);
      && ((forall j :: 0 <= j < |ds| ==> ds[j] >= FloatMax) ==> p == FarAway)
      && ((exists j :: 0 <= j < |ds| && ds[j] < FloatMax) ==>
            exists i: nat :: FirstMinimum(ds, i) && p == PathwayClosestTo(m, AllPathways(cm)[i], target))
  {
    var pathways := AllPathways(cm);
    match FirstMinBelow(PathDistances(m, pathways, target), FloatMax)
    case None => FarAway
    case Some(i) => PathwayClosestTo(m, pathways[i], target)
  }

  /** `IsCheating(position)` */
  predicate IsCheating(m: Math, cm: CircularMap, position: Vec2) {
    Distance(m, FindClosestPoint(m, cm, position), position) > CheatDetection
  }

  /** `MinElement` over a non-empty list: its first minimum. */
  function MinIndex(ds: seq<real>): (i: nat)
    requires |ds| > 0
    ensures FirstMinimum(ds, i)
  {
    var r := ScanMin(ds, 1, Some(0), ds[0]);
    ScanMinSpec(ds, 1, Some(0), ds[0], ds[0] + 1.0);
    r.value
  }

  /** `FindClosestPathway(target)`: the nearest ring and the nearest
      passage, and then the nearer of the two, the ring on a tie. */
  function FindClosestPathway(m: Math, cm: CircularMap, target: Vec2): (r: Result<Pathway, MapError>)
    ensures r.Failure? <==> cm.rings == [] && cm.passages == []
    ensures r.Success? ==> r.value in AllPathways(cm)
    ensures r.Success? ==> forall pw :: pw in AllPathways(cm) ==>
      PathwayDistanceFromPath(m, r.value, target) <= PathwayDistanceFromPath(m, pw, target)
  {
    var all := AllPathways(cm);
    var ringPaths := all[..|cm.rings|];
    var passagePaths := all[|cm.rings|..];
    assert all == ringPaths + passagePaths;
    var ringDs := PathDistances(m, ringPaths, target);
    var passageDs := PathDistances(m, passagePaths, target);
    if cm.rings == [] && cm.passages == [] then Failure(NoPathways)
    else if cm.passages == [] then
      var i := MinIndex(ringDs);
      Success(ringPaths[i])
    else if cm.rings == [] then
      var j := MinIndex(passageDs);
      Success(passagePaths[j])
    else
      var i := MinIndex(ringDs);
      var j := MinIndex(passageDs);
      if PathwayDistanceFromPath(m, passagePaths[j], target) < PathwayDistanceFromPath(m, ringPaths[i], target)
      then Success(passagePaths[j])
      else Success(ringPaths[i])
  }

  // --------------------------------------------------------- random choice

  /** The pathways in the order `RandomPosition` weighs them: passages first. */
  function WeighedPathways(cm: CircularMap): (r: seq<Pathway>)
    ensures |r| == |cm.passages| + |cm.rings|
    ensures forall i :: 0 <= i < |cm.passages| ==> r[i] == PassagePath(cm.passages[i])
    ensures forall i :: 0 <= i < |cm.rings| ==> r[|cm.passages| + i] == RingPath(cm.rings[i])
  {
    seq(|cm.passages|, i requires 0 <= i < |cm.passages| => PassagePath(cm.passages[i]))
      + seq(|cm.rings|, i requires 0 <= i < |cm.rings| => RingPath(cm.rings[i]))
  }

  /** A passage weighs its length, a ring its circumference. */
  function Weight(m: Math, pw: Pathway): (w: real)
    ensures ValidMath(m) && (pw.RingPath? ==> ValidRing(pw.ring)) ==> 0.0 <= w
  {
    match pw
    case PassagePath(p) => PassageLength(m, p)
    case RingPath(ring) => 2.0 * Pi * ring.radius
  }

  function Weights(m: Math, pathways: seq<Pathway>): (ws: seq<real>)
    ensures |ws| == |pathways|
    ensures forall i :: 0 <= i < |ws| ==> ws[i] == Weight(m, pathways[i])
  {
    seq(|pathways|, i requires 0 <= i < |pathways| => Weight(m, pathways[i]))
  }

  function Sum(ws: seq<real>): real {
    if ws == [] then 0.0 else Sum(ws[..|ws| - 1]) + ws[|ws| - 1]
  }

  /** The running totals of the weights (`endDistances`). */
  function CumulativeEnds(ws: seq<real>): (ends: seq<real>)
    ensures |ends| == |ws|
    ensures forall i :: 0 <= i < |ws| ==> ends[i] == Sum(ws[..i + 1])
  {
    seq(|ws|, i requires 0 <= i < |ws| => Sum(ws[..i + 1]))
  }

  /** Each running total adds one weight to the previous one. */
  lemma CumulativeStep(ws: seq<real>, i: nat)
    requires i < |ws|
    ensures CumulativeEnds(ws)[i] == (if i == 0 then 0.0 else CumulativeEnds(ws)[i - 1]) + ws[i]
  {
    var pre := ws[..i + 1];
    assert pre[..|pre| - 1] == ws[..i];
    assert pre[|pre| - 1] == ws[i];
    assert Sum(pre) == Sum(ws[..i]) + ws[i];
    if i == 0 {
      assert ws[..0] == [];
    } else {
      assert CumulativeEnds(ws)[i - 1] == Sum(ws[..i]);
    }
  }

  /** With non-negative weights the running totals never decrease. */
  lemma CumulativeNonDecreasing(ws: seq<real>)
    requires forall i :: 0 <= i < |ws| ==> 0.0 <= ws[i]
    ensures forall i, j :: 0 <= i <= j < |ws| ==> CumulativeEnds(ws)[i] <= CumulativeEnds(ws)[j]
  {
    var ends := CumulativeEnds(ws);
    forall i, j | 0 <= i <= j < |ws|
      ensures ends[i] <= ends[j]
    {
      var k := i;
      while k < j
        invariant i <= k <= j
        invariant ends[i] <= ends[k]
      {
        CumulativeStep(ws, k + 1);
        k := k + 1;
      }
    }
  }

  /** The first position whose running total reaches `number`, or the last. */
  function ChooseIndex(ends: seq<real>, number: real, k: nat): (i: nat)
    requires k < |ends|
    ensures k <= i < |ends|
    ensures ends[i] >= number || i == |ends| - 1
    ensures forall j :: k <= j < i ==> ends[j] < number
    decreases |ends| - k
  {
    if ends[k] >= number || k == |ends| - 1 then k else ChooseIndex(ends, number, k + 1)
  }

  /** The pathway `RandomPosition` picks for a draw `number` in [0, total
      length]; the position on it is random too and is not modelled. */
  function RandomPathway(m: Math, cm: CircularMap, number: real): (r: Result<Pathway, MapError>)
    ensures r.Failure? <==> cm.rings == [] && cm.passages == []
    ensures r.Success? ==>
      var pathways := WeighedPathways(cm);
      r.value == pathways[ChooseIndex(CumulativeEnds(Weights(m, pathways)), number, 0)]
  {
    var pathways := WeighedPathways(cm);
    if pathways == [] then Failure(NoPathways)
    else Success(pathways[ChooseIndex(CumulativeEnds(Weights(m, pathways)), number, 0)])
  }

  /** The choice is weighted by length: with non-negative weights, a draw
      between 0 and the total picks pathway `i` exactly when it falls in the
      interval that ends at `i`'s running total and is as long as `i`'s
      weight (the first interval also includes 0). */
  lemma ChoiceIsLengthWeighted(ws: seq<real>, number: real, i: nat)
    requires forall j :: 0 <= j < |ws| ==> 0.0 <= ws[j]
    requires i < |ws|
    requires 0.0 <= number <= Sum(ws)
    ensures var ends := CumulativeEnds(ws);
      var start := if i == 0 then 0.0 else ends[i - 1];
      && ends[i] - start == ws[i]
      && (ChooseIndex(ends, number, 0) == i <==> (start < number || (i == 0 && number == 0.0)) && number <= ends[i])
  {
    var ends := CumulativeEnds(ws);
    var start := if i == 0 then 0.0 else ends[i - 1];
    CumulativeStep(ws, i);
    CumulativeNonDecreasing(ws);
    assert ends[|ws| - 1] == Sum(ws) by {
      assert ws[..|ws|] == ws;
    }
    var c := ChooseIndex(ends, number, 0);
    assert ends[c] >= number;
    if c < i {
      assert ends[c] <= start;
    } else if c > i {
      assert ends[i] < number;
    } else if i > 0 {
      assert ends[i - 1] < number;
    }
  }

  /** In a valid map, the draw of `RandomPosition` falls on each pathway
      over an interval as long as the pathway (its length, or a ring's
      circumference), and every draw in that interval picks it. */
  lemma RandomPathwayWeighted(m: Math, cm: CircularMap, number: real, i: nat)
    requires ValidMath(m) && ValidMap(cm)
    requires i < |cm.passages| + |cm.rings|
    requires 0.0 <= number <= Sum(Weights(m, WeighedPathways(cm)))
    ensures var pathways := WeighedPathways(cm);
      var ends := CumulativeEnds(Weights(m, pathways));
      var start := if i == 0 then 0.0 else ends[i - 1];
      && ends[i] - start == Weight(m, pathways[i])
      && ((start < number || (i == 0 && number == 0.0)) && number <= ends[i] ==>
            RandomPathway(m, cm, number) == Success(pathways[i]))
  {
    var pathways := WeighedPathways(cm);
    var ws := Weights(m, pathways);
    forall j | 0 <= j < |ws|
      ensures 0.0 <= ws[j]
    {
      if j >= |cm.passages| {
        assert pathways[j] == RingPath(cm.rings[j - |cm.passages|]);
      }
    }
    ChoiceIsLengthWeighted(ws, number, i);
  }
}

=== FILE: graph.dfy ===
/** The routing graph: nodes at positions of the map, joined by undirected
    edges that each run along one pathway. A node is named by an id. Each
    node of the original keeps a neighbour set and an edge set that every
    operation updates together; here both are one map from (owner,
    neighbour) to the edge the owner keeps. */
module Graphs {
  import opened Wrappers
  import opened Vectors
  import opened Utils
  import opened Pathways

  /** Two nodes closer than this are the same junction. */
  const MergeDist: real := 0.2

  type NodeId = nat

  datatype Edge = Edge(length: real, pathway: Pathway)

  datatype Node = Node(position: Vec2, blocking: bool)

  /** `edges[(a, b)]` is the edge `a` keeps to its neighbour `b`. */
  datatype Graph = Graph(nodes: map<NodeId, Node>, edges: map<(NodeId, NodeId), Edge>, next: NodeId)

  datatype GraphError =
    | SelfConnection
    | NegativeLength
    | CoincidentNodes
    | NoNodeAt
    | MultipleNodesAt
    | TooFewNodesOnPathway
    | NotRemovable
    | MixedPathways

  /** Ids below `next`; edges join two distinct nodes that are not equal,
      have non-negative length and are kept by both ends with the same data. */
  ghost predicate Valid(m: Math, g: Graph) {
    && FreshNext(g)
    && (forall p {:trigger EdgeOk(m, g, p)} :: p in g.edges ==> EdgeOk(m, g, p))
  }

  /** Every id in use is below `next`, so `next` names a new node. */
  predicate FreshNext(g: Graph) {
    forall n :: n in g.nodes ==> n < g.next
  }

  ghost predicate EdgeOk(m: Math, g: Graph, p: (NodeId, NodeId))
    requires p in g.edges
  {
    && p.0 in g.nodes && p.1 in g.nodes
    && p.0 != p.1
    && 0.0 <= g.edges[p].length
    && (p.1, p.0) in g.edges
    && g.edges[(p.1, p.0)] == g.edges[p]
    && !AreSameVec(m, g.nodes[p.0].position, g.nodes[p.1].position)
  }

  function EmptyGraph(): (g: Graph)
    ensures forall m :: Valid(m, g)
    ensures g.nodes == map[]
  {
    Graph(map[], map[], 0)
  }

  predicate Adjacent(g: Graph, a: NodeId, b: NodeId) {
    (a, b) in g.edges
  }

  /** The neighbours of a node. */
  function Neighbors(g: Graph, a: NodeId): (r: set<NodeId>)
    ensures forall b :: b in r <==> Adjacent(g, a, b)
  {
    set p | p in g.edges && p.0 == a :: p.1
  }

  /** `Node.Equals`: the positions are the same up to the tolerance. */
  predicate NodeEquals(m: Math, g: Graph, a: NodeId, b: NodeId)
    requires a in g.nodes && b in g.nodes
  {
    AreSameVec(m, g.nodes[a].position, g.nodes[b].position)
  }

  /** Node equality is reflexive and symmetric, and holds exactly when the
      positions are closer than the float tolerance. */
  lemma NodeEqualsFacts(m: Math, g: Graph, a: NodeId, b: NodeId)
    requires ValidMath(m) && a in g.nodes && b in g.nodes
    ensures NodeEquals(m, g, a, a)
    ensures NodeEquals(m, g, a, b) <==> NodeEquals(m, g, b, a)
    ensures NodeEquals(m, g, a, b) <==> Distance(m, g.nodes[a].position, g.nodes[b].position) < Epsilon
  {
    AreSameVecReflexiveSymmetric(m, g.nodes[a].position, g.nodes[b].position);
    AreSameVecIff(m, g.nodes[a].position, g.nodes[b].position);
  }

  /** Under `Valid` neighbours are distinct nodes at different places. */
  lemma AdjacentNodesDiffer(m: Math, g: Graph, a: NodeId, b: NodeId)
    requires Valid(m, g) && a in g.nodes && b in g.nodes
    ensures Adjacent(g, a, b) ==> a != b && !NodeEquals(m, g, a, b)
  {
    assert Adjacent(g, a, b) ==> EdgeOk(m, g, (a, b));
  }

  /** `EdgeTo(node)`: the edge to a neighbour, none for any other node. */
  function EdgeTo(g: Graph, a: NodeId, b: NodeId): (r: Option<Edge>)
    ensures r.Some? <==> Adjacent(g, a, b)
    ensures r.Some? ==> r.value == g.edges[(a, b)]
  {
    if (a, b) in g.edges then Some(g.edges[(a, b)]) else None
  }

  /** Under `Valid` the edge between two nodes is the same seen from either end. */
  lemma EdgeToSymmetric(m: Math, g: Graph, a: NodeId, b: NodeId)
    requires Valid(m, g)
    ensures EdgeTo(g, a, b) == EdgeTo(g, b, a)
  {
    if (a, b) in g.edges {
      assert EdgeOk(m, g, (a, b));
    }
    if (b, a) in g.edges {
      assert EdgeOk(m, g, (b, a));
    }
  }

  /** Adds a fresh, unconnected node (`new Node(position, blocking)`). */
  function AddNode(g: Graph, position: Vec2, blocking: bool): (r: (Graph, NodeId))
    requires FreshNext(g)
    ensures r.1 == g.next && r.1 !in g.nodes
    ensures r.0.nodes == g.nodes[r.1 := Node(position, blocking)]
    ensures r.0.edges == g.edges
    ensures r.0.next == g.next + 1
    ensures FreshNext(r.0)
    ensures forall m :: Valid(m, g) ==> Valid(m, r.0)
  {
    var r := Graph(g.nodes[g.next := Node(position, blocking)], g.edges, g.next + 1);
    AddNodeKeepsValid(g, r);
    (r, g.next)
  }

  lemma AddNodeKeepsValid(g: Graph, r: Graph)
    requires FreshNext(g) && r.edges == g.edges && r.next == g.next + 1
    requires g.nodes.Keys <= r.nodes.Keys
    requires forall n :: n in g.nodes ==> r.nodes[n] == g.nodes[n]
    requires forall n :: n in r.nodes ==> n in g.nodes || n == g.next
    ensures forall m :: Valid(m, g) ==> Valid(m, r)
  {
    forall m | Valid(m, g)
      ensures Valid(m, r)
    {
      forall p | p in r.edges
        ensures EdgeOk(m, r, p)
      {
        assert EdgeOk(m, g, p);
      }
    }
  }

  /** `Connect(other, length, path)`: rejects a self-connection, a negative
      length and a node at the same position; each end that has no edge to
      the other gets one, so connecting connected nodes keeps the edge already
      there. */
  function Connect(m: Math, g: Graph, a: NodeId, b: NodeId, length: real, pathway: Pathway): (r: Result<Graph, GraphError>)
    requires a in g.nodes && b in g.nodes
    ensures r.Failure? && r.error == SelfConnection <==> a == b
    ensures r.Failure? && r.error == NegativeLength <==> a != b && length < 0.0
    ensures r.Failure? && r.error == CoincidentNodes <==> a != b && 0.0 <= length && NodeEquals(m, g, a, b)
    ensures r.Success? ==>
      && r.value.nodes == g.nodes && r.value.next == g.next
      && Adjacent(r.value, a, b) && Adjacent(r.value, b, a)
      && r.value.edges.Keys == g.edges.Keys + {(a, b), (b, a)}
      && (forall p :: p in g.edges ==> r.value.edges[p] == g.edges[p])
    ensures r.Success? && !Adjacent(g, a, b) ==> r.value.edges[(a, b)] == Edge(length, pathway)
    ensures r.Success? && !Adjacent(g, b, a) ==> r.value.edges[(b, a)] == Edge(length, pathway)
    ensures r.Success? && Valid(m, g) ==> Valid(m, r.value)
    ensures r.Success? && Valid(m, g) && Adjacent(g, a, b) ==> r.value == g
  {
    if a == b then Failure(SelfConnection)
    else if length < 0.0 then Failure(NegativeLength)
    else if NodeEquals(m, g, a, b) then Failure(CoincidentNodes)
    else
      var e := Edge(length, pathway);
      var edges1 := if (a, b) in g.edges then g.edges else g.edges[(a, b) := e];
      var edges2 := if (b, a) in edges1 then edges1 else edges1[(b, a) := e];
      var r := Graph(g.nodes, edges2, g.next);
      ConnectKeepsValid(m, g, a, b, e, r);
      Success(r)
  }

  lemma ConnectKeepsValid(m: Math, g: Graph, a: NodeId, b: NodeId, e: Edge, r: Graph)
    requires a in g.nodes && b in g.nodes && a != b && 0.0 <= e.length
    requires !NodeEquals(m, g, a, b)
    requires r.nodes == g.nodes && r.next == g.next
    requires r.edges.Keys == g.edges.Keys + {(a, b), (b, a)}
    requires forall p :: p in g.edges ==> r.edges[p] == g.edges[p]
    requires (a, b) !in g.edges ==> r.edges[(a, b)] == e
    requires (b, a) !in g.edges ==> r.edges[(b, a)] == e
    ensures Valid(m, g) ==> Valid(m, r)
    ensures Valid(m, g) && Adjacent(g, a, b) ==> r == g
  {
    if Valid(m, g) {
      EdgeToSymmetric(m, g, a, b);
      DistanceFacts(m, g.nodes[a].position, g.nodes[b].position);
      if Adjacent(g, a, b) {
        assert r.edges == g.edges;
      } else {
        forall p | p in r.edges
          ensures EdgeOk(m, r, p)
        {
          if p != (a, b) && p != (b, a) {
            assert EdgeOk(m, g, p);
          }
        }
      }
    }
  }

  /** `Disconnect(node)`: removes the edge on both sides. */
  function Disconnect(g: Graph, a: NodeId, b: NodeId): (r: Graph)
    ensures r.nodes == g.nodes && r.next == g.next
    ensures r.edges.Keys == g.edges.Keys - {(a, b), (b, a)}
    ensures forall p :: p in r.edges ==> r.edges[p] == g.edges[p]
    ensures forall m :: Valid(m, g) ==> Valid(m, r)
  {
    var r := Graph(g.nodes, g.edges - {(a, b), (b, a)}, g.next);
    DisconnectKeepsValid(g, a, b, r);
    r
  }

  lemma DisconnectKeepsValid(g: Graph, a: NodeId, b: NodeId, r: Graph)
    requires r.nodes == g.nodes && r.next == g.next
    requires r.edges == g.edges - {(a, b), (b, a)}
    ensures forall m :: Valid(m, g) ==> Valid(m, r)
  {
    forall m | Valid(m, g)
      ensures Valid(m, r)
    {
      forall p | p in r.edges
        ensures EdgeOk(m, r, p)
      {
        assert EdgeOk(m, g, p);
      }
    }
  }

  /** A second `Connect` with any length and pathway changes nothing. */
  lemma ConnectIdempotent(m: Math, g: Graph, a: NodeId, b: NodeId, length: real, pathway: Pathway,
                          length': real, pathway': Pathway)
    requires Valid(m, g) && a in g.nodes && b in g.nodes
    requires Connect(m, g, a, b, length, pathway).Success?
    requires 0.0 <= length'
    ensures var g' := Connect(m, g, a, b, length, pathway).value;
      Connect(m, g', a, b, length', pathway') == Success(g')
  {
  }

  /** `Disconnect` undoes a `Connect` of two nodes that were not neighbours. */
  lemma DisconnectUndoesConnect(m: Math, g: Graph, a: NodeId, b: NodeId, length: real, pathway: Pathway)
    requires Valid(m, g) && a in g.nodes && b in g.nodes && !Adjacent(g, a, b)
    requires Connect(m, g, a, b, length, pathway).Success?
    ensures Disconnect(Connect(m, g, a, b, length, pathway).value, a, b) == g
  {
    EdgeToSymmetric(m, g, a, b);
    var r := Disconnect(Connect(m, g, a, b, length, pathway).value, a, b);
    assert r.edges == g.edges;
  }

  // ----------------------------------------------------------- merging

  function NodeDistance(m: Math, g: Graph, position: Vec2, n: NodeId): real
    requires n in g.nodes
  {
    Distance(m, position, g.nodes[n].position)
  }

  /** The node is closer to `position` than both `minDistance` and `FloatMax`. */
  predicate CloseEnough(m: Math, g: Graph, position: Vec2, minDistance: real, n: NodeId)
    requires n in g.nodes
  {
    NodeDistance(m, g, position, n) < minDistance && NodeDistance(m, g, position, n) < FloatMax
  }

  /** `FindExistingNode(toFind, null, minDistance, nodes)`: among the nodes
      strictly closer than `minDistance`, one closest to the position; none
      when there is no such node. The candidates are visited in no particular
      order, as the original iterates a hash set. */
  method FindExistingNode(m: Math, g: Graph, position: Vec2, minDistance: real, candidates: set<NodeId>)
    returns (found: Option<NodeId>)
    requires candidates <= g.nodes.Keys
    ensures found.None? <==> forall n :: n in candidates ==> !CloseEnough(m, g, position, minDistance, n)
    ensures found.Some? ==>
      && found.value in candidates
      && CloseEnough(m, g, position, minDistance, found.value)
      && forall n :: n in candidates && CloseEnough(m, g, position, minDistance, n) ==>
           NodeDistance(m, g, position, found.value) <= NodeDistance(m, g, position, n)
  {
    var smallest := FloatMax;
    found := None;
    var remaining := candidates;
    while remaining != {}
      invariant remaining <= candidates
      invariant found.None? ==>
        && smallest == FloatMax
        && forall n :: n in candidates - remaining ==> !CloseEnough(m, g, position, minDistance, n)
      invariant found.Some? ==>
        && found.value in candidates - remaining
        && smallest == NodeDistance(m, g, position, found.value)
        && CloseEnough(m, g, position, minDistance, found.value)
        && forall n :: n in candidates - remaining && CloseEnough(m, g, position, minDistance, n) ==>
             smallest <= NodeDistance(m, g, position, n)
      decreases remaining
    {
      var n :| n in remaining;
      var current := NodeDistance(m, g, position, n);
      if current < smallest && current < minDistance {
        smallest := current;
        found := Some(n);
      }
      remaining := remaining - {n};
    }
  }

  /** The nodes within `MergeDist` of the position. */
  function NodesNear(m: Math, g: Graph, position: Vec2, candidates: set<NodeId>): (r: set<NodeId>)
    requires candidates <= g.nodes.Keys
    ensures r <= candidates
    ensures forall n :: n in r <==> n in candidates && NodeDistance(m, g, position, n) < MergeDist
  {
    set n | n in candidates && NodeDistance(m, g, position, n) < MergeDist
  }

  /** `GetExistingNode(position, nodes)`: the node at the position, which
      must be the only one within `MergeDist`. It is then also the closest
      of all nodes, which is the one the original takes from its list sorted
      by distance. */
  function GetExistingNode(m: Math, g: Graph, position: Vec2, candidates: set<NodeId>): (r: Result<NodeId, GraphError>)
    requires candidates <= g.nodes.Keys
    ensures r.Failure? && r.error == NoNodeAt <==> NodesNear(m, g, position, candidates) == {}
    ensures r.Failure? && r.error == MultipleNodesAt <==> |NodesNear(m, g, position, candidates)| > 1
    ensures r.Success? ==> NodesNear(m, g, position, candidates) == {r.value}
    ensures r.Success? ==> forall n :: n in candidates ==>
      NodeDistance(m, g, position, r.value) <= NodeDistance(m, g, position, n)
  {
    var near := NodesNear(m, g, position, candidates);
    if |near| == 0 then Failure(NoNodeAt)
    else if |near| > 1 then Failure(MultipleNodesAt)
    else
      var n := TheElement(near);
      Success(n)
  }

  /** The element of a singleton set. */
  function TheElement<T>(s: set<T>): (x: T)
    requires |s| == 1
    ensures s == {x}
  {
    var x :| x in s;
    var rest := s - {x};
    assert |rest| == 0;
    assert s == rest + {x};
    x
  }

  /** An edge of the node runs along a pathway equal to `path`. */
  predicate OnPathway(m: Math, g: Graph, n: NodeId, path: Pathway) {
    exists p :: p in g.edges && p.0 == n && PathwayEquals(m, g.edges[p].pathway, path)
  }

  /** `FindNodesOn(path, nodes)`: the nodes with an edge along the pathway;
      fewer than two is an error. */
  function FindNodesOn(m: Math, g: Graph, path: Pathway, candidates: set<NodeId>): (r: Result<set<NodeId>, GraphError>)
    requires candidates <= g.nodes.Keys
    ensures r.Success? ==> forall n :: n in r.value <==> n in candidates && OnPathway(m, g, n, path)
    ensures r.Success? ==> |r.value| >= 2
    ensures r.Failure? ==>
      && r.error == TooFewNodesOnPathway
      && |set n | n in candidates && OnPathway(m, g, n, path)| < 2
  {
    var on := set n | n in candidates && OnPathway(m, g, n, path);
    if |on| < 2 then Failure(TooFewNodesOnPathway) else Success(on)
  }
}

=== FILE: graph_edits.dfy ===
/** Temporary nodes: the start, end and obstacle nodes that a search splices
    into an edge of the routing graph and takes out again afterwards. */
module GraphEdits {
  import opened Wrappers
  import opened Vectors
  import opened Utils
  import opened Sorting
  import opened Pathways
  import opened Graphs

  // ------------------------------------------------------------ helpers

  /** Lists the elements of a set once each, in no particular order (the
      enumeration order of a hash set). */
  method Enumerate<T>(s: set<T>) returns (r: seq<T>)
    ensures multiset(r) == multiset(s)
    ensures |r| == |s|
  {
    r := [];
    var left := s;
    while left != {}
      invariant left <= s
      invariant multiset(r) == multiset(s - left)
      invariant |r| == |s - left|
      decreases left
    {
      var x :| x in left;
      ListedOneMore(s, left, x);
      r := r + [x];
      left := left - {x};
    }
    assert s - left == s;
  }

  /** Moving `x` out of the elements left to list lists one element more. */
  lemma ListedOneMore<T>(s: set<T>, left: set<T>, x: T)
    requires x in left && left <= s
    ensures multiset(s - (left - {x})) == multiset(s - left) + multiset{x}
    ensures |s - (left - {x})| == |s - left| + 1
  {
    assert s - (left - {x}) == (s - left) + {x};
    assert x !in s - left;
  }

  /** The first element occurs once more when it is also the last. */
  lemma EndsCount<T>(s: seq<T>)
    requires |s| >= 2
    ensures multiset(s)[s[0]] >= 1 + (if s[0] == s[|s| - 1] then 1 else 0)
  {
    assert s == [s[0]] + s[1..];
    assert s[|s| - 1] == s[1..][|s| - 2];
  }

  /** The smallest element of a non-empty set of ids. */
  function MinOf(s: set<NodeId>): (x: NodeId)
    requires s != {}
    ensures x in s && forall y :: y in s ==> x <= y
  {
    MinExists(s);
    var x :| x in s && forall y :: y in s ==> x <= y;
    x
  }

  lemma MinExists(s: set<NodeId>)
    requires s != {}
    ensures exists x :: x in s && forall y :: y in s ==> x <= y
  {
    var x := Least(s);
  }

  /** A least element, found by taking any element out and comparing it
      with the least of the rest. */
  ghost function Least(s: set<NodeId>): (x: NodeId)
    requires s != {}
    ensures x in s && forall y :: y in s ==> x <= y
    decreases |s|
  {
    var a :| a in s;
    if s == {a} then a
    else
      var y := Least(s - {a});
      assert forall z :: z in s ==> z == a || z in s - {a};
      if a < y then a else y
  }

  function Position(g: Graph, n: NodeId): Vec2 {
    if n in g.nodes then g.nodes[n].position else Zero
  }

  /** The key `FindBoundingNodesOn` sorts by: the angle, seen from the map
      centre, between the position and the node. */
  function AngleKey(m: Math, g: Graph, center: Vec2, position: Vec2): NodeId -> real {
    (n: NodeId) => m.angleBetween(Minus(position, center), Minus(Position(g, n), center))
  }

  // ---------------------------------------------------------- bounding

  /** `FindBoundingNodesOn(path, position, nodes)`: of the nodes on the path,
      the two at the extremes of the angle seen from the map centre, the one
      nearer to the position along the path first (the farther first on a tie). */
  method FindBoundingNodesOn(m: Math, g: Graph, path: Pathway, position: Vec2, center: Vec2, candidates: set<NodeId>)
    returns (r: Result<(NodeId, NodeId), GraphError>)
    requires candidates <= g.nodes.Keys
    ensures r.Failure? <==> FindNodesOn(m, g, path, candidates).Failure?
    ensures r.Failure? ==> r.error == TooFewNodesOnPathway
    ensures r.Success? ==>
      Bounding(m, g, path, position, center, FindNodesOn(m, g, path, candidates).value, r.value.0, r.value.1)
  {
    var found := FindNodesOn(m, g, path, candidates);
    if found.Failure? {
      return Failure(found.error);
    }
    var on := found.value;
    var key := AngleKey(m, g, center, position);
    var listed := Enumerate(on);
    var nodes := SortBy(listed, key);
    SortBySorted(listed, key);
    var node1, node2 := nodes[0], nodes[|nodes| - 1];
    SortedEnds(on, nodes, key);
    var d1 := PathwayDistanceBetween(m, path, position, Position(g, node1));
    var d2 := PathwayDistanceBetween(m, path, position, Position(g, node2));
    if d1 < d2 {
      r := Success((node1, node2));
    } else {
      r := Success((node2, node1));
    }
  }

  /** The ends of a sorted listing of a set (of two or more elements) are two
      different members with the least and the greatest key. */
  lemma SortedEnds(on: set<NodeId>, nodes: seq<NodeId>, key: NodeId -> real)
    requires multiset(nodes) == multiset(on) && Sorted(nodes, key) && |nodes| >= 2
    ensures Brackets(on, key, nodes[0], nodes[|nodes| - 1])
    ensures nodes[0] != nodes[|nodes| - 1]
  {
    var node1, node2 := nodes[0], nodes[|nodes| - 1];
    forall n | n in on
      ensures key(node1) <= key(n) <= key(node2)
    {
      assert n in multiset(nodes);
      var i :| 0 <= i < |nodes| && nodes[i] == n;
    }
    assert node1 in multiset(nodes) && node2 in multiset(nodes);
    EndsCount(nodes);
    assert multiset(nodes)[node1] <= 1;
  }

  /** `b0`, `b1` bound `position` among the nodes `on` the path: two distinct
      nodes at the two extremes of the angle seen from the map centre, the one
      nearer to the position along the path first. */
  predicate Bounding(m: Math, g: Graph, path: Pathway, position: Vec2, center: Vec2, on: set<NodeId>, b0: NodeId, b1: NodeId) {
    var key := AngleKey(m, g, center, position);
    && b0 in on && b1 in on
    && b0 != b1
    && PathwayDistanceBetween(m, path, position, Position(g, b0))
       <= PathwayDistanceBetween(m, path, position, Position(g, b1))
    && (Brackets(on, key, b0, b1) || Brackets(on, key, b1, b0))
  }

  /** `lo` and `hi` are members with the least and the greatest key. */
  predicate Brackets(on: set<NodeId>, key: NodeId -> real, lo: NodeId, hi: NodeId) {
    && lo in on && hi in on
    && forall n :: n in on ==> key(lo) <= key(n) <= key(hi)
  }

  // --------------------------------------------------------- insertion

  /** No edge of a valid graph touches the next free id. */
  lemma EdgesAvoidNext(m: Math, g: Graph)
    requires Valid(m, g)
    ensures forall p :: p in g.edges ==> p.0 != g.next && p.1 != g.next
  {
    forall p | p in g.edges
      ensures p.0 != g.next && p.1 != g.next
    {
      assert EdgeOk(m, g, p);
    }
  }

  /** The pathway of the edge that a new node between `b0` and `b1` splits:
      the existing edge's, or `path` when the two were not connected. */
  function SplitPathway(g: Graph, b0: NodeId, b1: NodeId, path: Pathway): Pathway {
    if (b0, b1) in g.edges then g.edges[(b0, b1)].pathway else path
  }

  /** The graph after `InsertNode` splits the edge `b0`-`b1` with a new node
      at `position`. */
  ghost predicate Spliced(m: Math, g: Graph, path: Pathway, b0: NodeId, b1: NodeId, position: Vec2, blocking: bool,
                          g': Graph, id: NodeId)
    requires b0 in g.nodes && b1 in g.nodes
  {
    var pw := SplitPathway(g, b0, b1, path);
    && id == g.next && id !in g.nodes && g'.next == g.next + 1
    && g'.nodes == g.nodes[id := Node(position, blocking)]
    && Neighbors(g', id) == {b0, b1}
    && !Adjacent(g', b0, b1) && !Adjacent(g', b1, b0)
    && g'.edges[(id, b0)] == Edge(PathwayDistanceBetween(m, path, g.nodes[b0].position, position), pw)
    && g'.edges[(id, b1)] == Edge(PathwayDistanceBetween(m, path, g.nodes[b1].position, position), pw)
    && (forall p :: p in g.edges && p != (b0, b1) && p != (b1, b0) ==> p in g'.edges && g'.edges[p] == g.edges[p])
    && (forall p :: p in g'.edges && p.0 != id && p.1 != id ==> p in g.edges)
  }

  /** The edges once the edge `b0`-`b1` is cut and the new node `id` is
      joined to both ends. */
  function SpliceEdges(edges: map<(NodeId, NodeId), Edge>, b0: NodeId, b1: NodeId, id: NodeId, e0: Edge, e1: Edge)
    : map<(NodeId, NodeId), Edge>
  {
    (edges - {(b0, b1), (b1, b0)})[(id, b0) := e0][(b0, id) := e0][(id, b1) := e1][(b1, id) := e1]
  }

  /** First half of `InsertNode`: `b0` must keep an edge to `b1`; when one
      of the two lacks it they are connected along `path`. */
  function Joined(m: Math, g: Graph, path: Pathway, b0: NodeId, b1: NodeId): (r: Result<Graph, GraphError>)
    requires b0 in g.nodes && b1 in g.nodes
    ensures r.Success? ==> Adjacent(r.value, b0, b1) && Adjacent(r.value, b1, b0)
    ensures r.Success? ==> r.value.nodes == g.nodes && r.value.next == g.next
    ensures r.Success? && Valid(m, g) ==> Valid(m, r.value)
    ensures r.Success? && Valid(m, g) ==>
      r.value.edges == g.edges[(b0, b1) := r.value.edges[(b0, b1)]][(b1, b0) := r.value.edges[(b0, b1)]]
    ensures r.Success? && Valid(m, g) ==> r.value.edges[(b0, b1)].pathway == SplitPathway(g, b0, b1, path)
    ensures Valid(m, g) && b0 == b1 ==> r == Failure(SelfConnection)
    ensures r.Failure? ==> r.error in {SelfConnection, NegativeLength, CoincidentNodes}
  {
    if Adjacent(g, b0, b1) && Adjacent(g, b1, b0) then
      JoinedAlready(m, g, b0, b1);
      Success(g)
    else
      var r := Connect(m, g, b0, b1, PathwayDistanceBetween(m, path, g.nodes[b0].position, g.nodes[b1].position), path);
      JoinedNow(m, g, b0, b1, r);
      r
  }

  lemma JoinedAlready(m: Math, g: Graph, b0: NodeId, b1: NodeId)
    requires Adjacent(g, b0, b1) && Adjacent(g, b1, b0)
    ensures Valid(m, g) ==> g.edges == g.edges[(b0, b1) := g.edges[(b0, b1)]][(b1, b0) := g.edges[(b0, b1)]]
    ensures Valid(m, g) ==> b0 != b1
  {
    if Valid(m, g) {
      assert EdgeOk(m, g, (b0, b1));
    }
  }

  lemma JoinedNow(m: Math, g: Graph, b0: NodeId, b1: NodeId, r: Result<Graph, GraphError>)
    requires b0 in g.nodes && b1 in g.nodes && !(Adjacent(g, b0, b1) && Adjacent(g, b1, b0))
    requires r.Success? ==> r.value.edges.Keys == g.edges.Keys + {(b0, b1), (b1, b0)}
    requires r.Success? ==> forall p :: p in g.edges ==> r.value.edges[p] == g.edges[p]
    requires r.Success? ==> r.value.edges[(b0, b1)] == r.value.edges[(b1, b0)] || Adjacent(g, b0, b1) || Adjacent(g, b1, b0)
    ensures r.Success? && Valid(m, g) ==>
      r.value.edges == g.edges[(b0, b1) := r.value.edges[(b0, b1)]][(b1, b0) := r.value.edges[(b0, b1)]]
  {
    if r.Success? && Valid(m, g) {
      EdgeToSymmetric(m, g, b0, b1);
    }
  }

  /** Second half of `InsertNode`: cut the edge `b0`-`b1` and join a new
      node to both ends with the given lengths along `pathway`. */
  function Splice(m: Math, g: Graph, b0: NodeId, b1: NodeId, position: Vec2, blocking: bool,
                  len0: real, len1: real, pathway: Pathway): (r: Result<(Graph, NodeId), GraphError>)
    requires b0 in g.nodes && b1 in g.nodes && FreshNext(g)
    ensures r.Success? ==> r.value.1 == g.next && r.value.0.next == g.next + 1
    ensures r.Success? ==> r.value.0.nodes == g.nodes[g.next := Node(position, blocking)]
    ensures r.Success? && Valid(m, g) ==> Valid(m, r.value.0)
    ensures r.Success? && Valid(m, g) && b0 != b1 ==>
      r.value.0.edges == SpliceEdges(g.edges, b0, b1, g.next, Edge(len0, pathway), Edge(len1, pathway))
    ensures r.Failure? ==> r.error in {NegativeLength, CoincidentNodes}
  {
    var (g2, id) := AddNode(g, position, blocking);
    var g3 := Disconnect(g2, b0, b1);
    var c0 := Connect(m, g3, id, b0, len0, pathway);
    if c0.Failure? then Failure(c0.error)
    else
      var c1 := Connect(m, c0.value, id, b1, len1, pathway);
      if c1.Failure? then Failure(c1.error)
      else
        SpliceEdgesExact(m, g, b0, b1, Edge(len0, pathway), Edge(len1, pathway), g3, c0.value, c1.value);
        Success((c1.value, id))
  }

  lemma SpliceEdgesExact(m: Math, g: Graph, b0: NodeId, b1: NodeId, e0: Edge, e1: Edge, g3: Graph, g4: Graph, g5: Graph)
    requires g3.edges == g.edges - {(b0, b1), (b1, b0)}
    requires g4.edges.Keys == g3.edges.Keys + {(g.next, b0), (b0, g.next)}
    requires forall p :: p in g3.edges ==> g4.edges[p] == g3.edges[p]
    requires (g.next, b0) !in g3.edges ==> g4.edges[(g.next, b0)] == e0
    requires (b0, g.next) !in g3.edges ==> g4.edges[(b0, g.next)] == e0
    requires g5.edges.Keys == g4.edges.Keys + {(g.next, b1), (b1, g.next)}
    requires forall p :: p in g4.edges ==> g5.edges[p] == g4.edges[p]
    requires (g.next, b1) !in g4.edges ==> g5.edges[(g.next, b1)] == e1
    requires (b1, g.next) !in g4.edges ==> g5.edges[(b1, g.next)] == e1
    requires b0 != g.next && b1 != g.next
    ensures Valid(m, g) && b0 != b1 ==> g5.edges == SpliceEdges(g.edges, b0, b1, g.next, e0, e1)
  {
    if Valid(m, g) && b0 != b1 {
      EdgesAvoidNext(m, g);
    }
  }

  /** The splice of `InsertNode` once the bounding nodes are known: make
      sure `b0` keeps an edge to `b1`, cut that edge, and join a new node to
      both ends along its pathway, each with its distance along `path`. */
  function InsertBetween(m: Math, g: Graph, path: Pathway, b0: NodeId, b1: NodeId, position: Vec2, blocking: bool)
    : (r: Result<(Graph, NodeId), GraphError>)
    requires b0 in g.nodes && b1 in g.nodes && FreshNext(g)
    ensures Valid(m, g) && r.Success? ==> Spliced(m, g, path, b0, b1, position, blocking, r.value.0, r.value.1)
    ensures Valid(m, g) && r.Success? ==> Valid(m, r.value.0)
    ensures Valid(m, g) && b0 == b1 ==> r == Failure(SelfConnection)
    ensures r.Failure? ==> r.error in {SelfConnection, NegativeLength, CoincidentNodes}
  {
    var joined := Joined(m, g, path, b0, b1);
    if joined.Failure? then Failure(joined.error)
    else
      var g1 := joined.value;
      var pw := g1.edges[(b0, b1)].pathway;
      var len0 := PathwayDistanceBetween(m, path, g.nodes[b0].position, position);
      var len1 := PathwayDistanceBetween(m, path, g.nodes[b1].position, position);
      var r := Splice(m, g1, b0, b1, position, blocking, len0, len1, pw);
      if r.Success? then
        SplicedFromEdges(m, g, path, b0, b1, position, blocking, g1, r.value.0, Edge(len0, pw), Edge(len1, pw));
        r
      else r
  }

  lemma SplicedFromEdges(m: Math, g: Graph, path: Pathway, b0: NodeId, b1: NodeId, position: Vec2, blocking: bool,
                         g1: Graph, g': Graph, e0: Edge, e1: Edge)
    requires b0 in g.nodes && b1 in g.nodes && (b0, b1) in g1.edges
    requires g1.nodes == g.nodes && g1.next == g.next
    requires Valid(m, g) ==> b0 != b1 && Valid(m, g1)
    requires Valid(m, g) ==> g1.edges == g.edges[(b0, b1) := g1.edges[(b0, b1)]][(b1, b0) := g1.edges[(b0, b1)]]
    requires Valid(m, g) ==> g1.edges[(b0, b1)].pathway == SplitPathway(g, b0, b1, path)
    requires e0 == Edge(PathwayDistanceBetween(m, path, g.nodes[b0].position, position), g1.edges[(b0, b1)].pathway)
    requires e1 == Edge(PathwayDistanceBetween(m, path, g.nodes[b1].position, position), g1.edges[(b0, b1)].pathway)
    requires FreshNext(g)
    requires g'.next == g.next + 1 && g'.nodes == g.nodes[g.next := Node(position, blocking)]
    requires Valid(m, g1) && b0 != b1 ==> g'.edges == SpliceEdges(g1.edges, b0, b1, g.next, e0, e1)
    ensures Valid(m, g) ==> Spliced(m, g, path, b0, b1, position, blocking, g', g.next)
  {
    if Valid(m, g) {
      SplicedFromEdgesValid(m, g, path, b0, b1, position, blocking, g1, g', e0, e1);
    }
  }

  lemma SplicedFromEdgesValid(m: Math, g: Graph, path: Pathway, b0: NodeId, b1: NodeId, position: Vec2, blocking: bool,
                              g1: Graph, g': Graph, e0: Edge, e1: Edge)
    requires Valid(m, g) && b0 in g.nodes && b1 in g.nodes && b0 != b1
    requires g1.nodes == g.nodes && g1.next == g.next && (b0, b1) in g1.edges
    requires g1.edges == g.edges[(b0, b1) := g1.edges[(b0, b1)]][(b1, b0) := g1.edges[(b0, b1)]]
    requires g1.edges[(b0, b1)].pathway == SplitPathway(g, b0, b1, path)
    requires e0 == Edge(PathwayDistanceBetween(m, path, g.nodes[b0].position, position), SplitPathway(g, b0, b1, path))
    requires e1 == Edge(PathwayDistanceBetween(m, path, g.nodes[b1].position, position), SplitPathway(g, b0, b1, path))
    requires g'.next == g.next + 1 && g'.nodes == g.nodes[g.next := Node(position, blocking)]
    requires g'.edges == SpliceEdges(g1.edges, b0, b1, g.next, e0, e1)
    ensures Spliced(m, g, path, b0, b1, position, blocking, g', g.next)
  {
    var id := g.next;
    EdgesAvoidNext(m, g);
    SpliceNeighbors(g1.edges, g', id, b0, b1, e0, e1);
    SpliceKeeps(g.edges, g1.edges, g'.edges, id, b0, b1, e0, e1);
    assert g'.edges[(id, b0)] == e0 && g'.edges[(id, b1)] == e1;
  }

  /** The splice keeps every edge but the cut one, and adds only edges at the new node. */
  lemma SpliceKeeps(edges: map<(NodeId, NodeId), Edge>, joined: map<(NodeId, NodeId), Edge>,
                    spliced: map<(NodeId, NodeId), Edge>, id: NodeId, b0: NodeId, b1: NodeId, e0: Edge, e1: Edge)
    requires (b0, b1) in joined && joined == edges[(b0, b1) := joined[(b0, b1)]][(b1, b0) := joined[(b0, b1)]]
    requires spliced == SpliceEdges(joined, b0, b1, id, e0, e1)
    requires forall p :: p in edges ==> p.0 != id && p.1 != id
    ensures forall p :: p in edges && p != (b0, b1) && p != (b1, b0) ==> p in spliced && spliced[p] == edges[p]
    ensures forall p :: p in spliced && p.0 != id && p.1 != id ==> p in edges
  {
  }

  /** The new node's only neighbours are the two ends of the cut edge, which
      are no longer neighbours of each other; the other edges were there
      before. */
  lemma SpliceNeighbors(edges: map<(NodeId, NodeId), Edge>, g': Graph, id: NodeId, b0: NodeId, b1: NodeId,
                        e0: Edge, e1: Edge)
    requires g'.edges == SpliceEdges(edges, b0, b1, id, e0, e1)
    requires forall p :: p in edges ==> p.0 != id && p.1 != id
    requires b0 != id && b1 != id
    ensures Neighbors(g', id) == {b0, b1}
    ensures !Adjacent(g', b0, b1) && !Adjacent(g', b1, b0)
    ensures forall p :: p in g'.edges && p.0 != id && p.1 != id ==> p in edges && g'.edges[p] == edges[p]
  {
    forall k
      ensures Adjacent(g', id, k) <==> k == b0 || k == b1
    {
      assert (id, k) in g'.edges <==> (id, k) in edges || k == b0 || k == b1;
    }
  }


  /** `InsertNode(path, position, isBlocking)`: splices a new node into the
      edge between the two nodes that bound the position on the path. */
  method InsertNode(m: Math, g: Graph, path: Pathway, position: Vec2, blocking: bool, center: Vec2)
    returns (r: Result<(Graph, NodeId), GraphError>)
    requires FreshNext(g)
    ensures FindNodesOn(m, g, path, g.nodes.Keys).Failure? ==> r == Failure(TooFewNodesOnPathway)
    ensures Valid(m, g) && r.Success? ==> Valid(m, r.value.0)
    ensures Valid(m, g) && r.Success? ==>
      && FindNodesOn(m, g, path, g.nodes.Keys).Success?
      && (exists b0, b1 :: b0 in g.nodes && b1 in g.nodes && b0 != b1
            && OnPathway(m, g, b0, path) && OnPathway(m, g, b1, path)
            && Bounding(m, g, path, position, center, FindNodesOn(m, g, path, g.nodes.Keys).value, b0, b1)
            && Spliced(m, g, path, b0, b1, position, blocking, r.value.0, r.value.1))
    ensures Valid(m, g) && r.Success? ==>
      && r.value.1 == g.next && r.value.0.next == g.next + 1
      && r.value.0.nodes == g.nodes[g.next := Node(position, blocking)]
  {
    var bounds := FindBoundingNodesOn(m, g, path, position, center, g.nodes.Keys);
    if bounds.Failure? {
      return Failure(bounds.error);
    }
    var (b0, b1) := bounds.value;
    r := InsertBetween(m, g, path, b0, b1, position, blocking);
  }

  // ----------------------------------------------------------- removal

  /** `RemoveNode(node)`: takes out a node that lies inside one pathway
      (exactly two edges, along equal pathways) and joins its two neighbours
      along that pathway. The original takes the neighbours in the
      enumeration order of a hash set; here the smaller id comes first. */
  function RemoveNode(m: Math, g: Graph, node: NodeId): (r: Result<Graph, GraphError>)
    requires Valid(m, g) && node in g.nodes
    ensures r.Failure? && r.error == NotRemovable <==> |Neighbors(g, node)| != 2
    ensures r.Failure? && r.error == MixedPathways ==>
      exists a, b :: Neighbors(g, node) == {a, b} && !PathwayEquals(m, g.edges[(node, a)].pathway, g.edges[(node, b)].pathway)
    ensures ValidMath(m) &&
      (exists a, b :: Neighbors(g, node) == {a, b} && !PathwayEquals(m, g.edges[(node, a)].pathway, g.edges[(node, b)].pathway))
      ==> r == Failure(MixedPathways)
    ensures r.Failure? ==> r.error in {NotRemovable, MixedPathways, NegativeLength, CoincidentNodes}
    ensures r.Success? ==>
      && Valid(m, r.value)
      && r.value.nodes == g.nodes - {node} && r.value.next == g.next
      && (forall p :: p in g.edges && p.0 != node && p.1 != node ==> p in r.value.edges && r.value.edges[p] == g.edges[p])
      && (forall p :: p in r.value.edges ==> p.0 != node && p.1 != node)
      && (exists a, b :: Neighbors(g, node) == {a, b} && Adjacent(r.value, a, b) && Adjacent(r.value, b, a))
    ensures r.Success? ==>
      && |Neighbors(g, node)| == 2
      && var (a, b) := Ends(Neighbors(g, node));
         var pathway := g.edges[(node, a)].pathway;
         && a in g.nodes && b in g.nodes
         && Adjacent(r.value, a, b) && Adjacent(r.value, b, a)
         && (forall p :: p in r.value.edges ==> p in g.edges || p == (a, b) || p == (b, a))
         && ((a, b) !in g.edges ==>
               && r.value.edges[(a, b)] == Edge(PathwayDistanceBetween(m, pathway, g.nodes[a].position, g.nodes[b].position), pathway)
               && r.value.edges[(b, a)] == r.value.edges[(a, b)])
  {
    var nbrs := Neighbors(g, node);
    if |nbrs| != 2 then Failure(NotRemovable)
    else
      var (n1, n2) := Ends(nbrs);
      var pathway := g.edges[(node, n1)].pathway;
      MixedEitherWay(m, g, node, n1, n2);
      assert EdgeOk(m, g, (node, n1)) && EdgeOk(m, g, (node, n2));
      RejoinEdges(m, g, node, n1, n2, pathway);
      if !PathwayEquals(m, pathway, g.edges[(node, n2)].pathway) then Failure(MixedPathways)
      else Rejoin(m, g, node, n1, n2, pathway)
  }

  /** Whichever way round the two neighbours are named, their edges' pathways
      are equal or not alike. */
  lemma MixedEitherWay(m: Math, g: Graph, node: NodeId, n1: NodeId, n2: NodeId)
    requires Neighbors(g, node) == {n1, n2}
    ensures ValidMath(m) &&
      (exists a, b :: Neighbors(g, node) == {a, b} && !PathwayEquals(m, g.edges[(node, a)].pathway, g.edges[(node, b)].pathway))
      ==> !PathwayEquals(m, g.edges[(node, n1)].pathway, g.edges[(node, n2)].pathway)
  {
    if ValidMath(m) &&
      (exists a, b :: Neighbors(g, node) == {a, b} && !PathwayEquals(m, g.edges[(node, a)].pathway, g.edges[(node, b)].pathway))
    {
      var a, b :| Neighbors(g, node) == {a, b} && !PathwayEquals(m, g.edges[(node, a)].pathway, g.edges[(node, b)].pathway);
      var p1, p2 := g.edges[(node, n1)].pathway, g.edges[(node, n2)].pathway;
      PathwayEqualsReflexiveSymmetric(m, p1, p2);
      PathwayEqualsReflexiveSymmetric(m, g.edges[(node, a)].pathway, g.edges[(node, a)].pathway);
      assert a in {n1, n2} && b in {n1, n2};
    }
  }

  /** The two elements of a pair set, the smaller first. */
  function Ends(s: set<NodeId>): (r: (NodeId, NodeId))
    requires |s| == 2
    ensures s == {r.0, r.1} && r.0 < r.1
  {
    var n1 := MinOf(s);
    assert |s - {n1}| == 1;
    var n2 := TheElement(s - {n1});
    assert s == (s - {n1}) + {n1};
    (n1, n2)
  }

  /** The second half of `RemoveNode`: cut both edges of the node, drop it,
      and connect its neighbours along `pathway`. */
  function Rejoin(m: Math, g: Graph, node: NodeId, n1: NodeId, n2: NodeId, pathway: Pathway): (r: Result<Graph, GraphError>)
    requires Valid(m, g) && node in g.nodes && Neighbors(g, node) == {n1, n2}
    ensures r.Failure? ==> r.error in {SelfConnection, NegativeLength, CoincidentNodes}
    ensures n1 != n2 ==> r.Failure? ==> r.error in {NegativeLength, CoincidentNodes}
    ensures r.Success? ==>
      && Valid(m, r.value)
      && r.value.nodes == g.nodes - {node} && r.value.next == g.next
      && (forall p :: p in g.edges && p.0 != node && p.1 != node ==> p in r.value.edges && r.value.edges[p] == g.edges[p])
      && (forall p :: p in r.value.edges ==> p.0 != node && p.1 != node)
      && Adjacent(r.value, n1, n2) && Adjacent(r.value, n2, n1)
  {
    var g2 := Detach(g, node, n1, n2);
    Detached(m, g, node, n1, n2, g2);
    Connect(m, g2, n1, n2, PathwayDistanceBetween(m, pathway, g.nodes[n1].position, g.nodes[n2].position), pathway)
  }

  /** `Rejoin` adds no edge but the one between the neighbours; when they were
      not joined before, that edge runs along `pathway` with the length the
      pathway gives between them. */
  lemma RejoinEdges(m: Math, g: Graph, node: NodeId, n1: NodeId, n2: NodeId, pathway: Pathway)
    requires Valid(m, g) && node in g.nodes && Neighbors(g, node) == {n1, n2}
    ensures var r := Rejoin(m, g, node, n1, n2, pathway);
      r.Success? ==> forall p :: p in r.value.edges ==> p in g.edges || p == (n1, n2) || p == (n2, n1)
    ensures var r := Rejoin(m, g, node, n1, n2, pathway);
      r.Success? && (n1, n2) !in g.edges ==>
        && n1 in g.nodes && n2 in g.nodes
        && (n1, n2) in r.value.edges && (n2, n1) in r.value.edges
        && r.value.edges[(n1, n2)] == Edge(PathwayDistanceBetween(m, pathway, g.nodes[n1].position, g.nodes[n2].position), pathway)
        && r.value.edges[(n2, n1)] == r.value.edges[(n1, n2)]
  {
    var g2 := Detach(g, node, n1, n2);
    Detached(m, g, node, n1, n2, g2);
    StillApart(m, g, g2, n1, n2);
  }

  /** Two nodes not joined in a valid graph are not joined either way round
      in any graph with fewer edges. */
  lemma StillApart(m: Math, g: Graph, g2: Graph, n1: NodeId, n2: NodeId)
    requires Valid(m, g) && g2.edges.Keys <= g.edges.Keys
    ensures !Adjacent(g, n1, n2) ==> !Adjacent(g2, n1, n2) && !Adjacent(g2, n2, n1)
  {
    assert (n2, n1) in g.edges ==> EdgeOk(m, g, (n2, n1));
  }

  /** Connecting two nodes gives the same graph whichever of them comes first. */
  lemma ConnectSwap(m: Math, g: Graph, a: NodeId, b: NodeId, length: real, pathway: Pathway)
    requires ValidMath(m) && Valid(m, g) && a in g.nodes && b in g.nodes
    ensures Connect(m, g, a, b, length, pathway) == Connect(m, g, b, a, length, pathway)
  {
    NodeEqualsFacts(m, g, a, b);
    var r1, r2 := Connect(m, g, a, b, length, pathway), Connect(m, g, b, a, length, pathway);
    if r1.Success? && r2.Success? {
      if Adjacent(g, a, b) {
        assert EdgeOk(m, g, (a, b));
      } else {
        assert r1.value.edges == r2.value.edges;
      }
    }
  }

  /** Rejoining the neighbours gives the same graph whichever of them comes
      first, as long as the pathway is the same. */
  lemma RejoinSwap(m: Math, g: Graph, node: NodeId, n1: NodeId, n2: NodeId, pathway: Pathway)
    requires ValidMath(m) && Valid(m, g) && node in g.nodes && Neighbors(g, node) == {n1, n2}
    ensures Rejoin(m, g, node, n1, n2, pathway) == Rejoin(m, g, node, n2, n1, pathway)
  {
    var g2 := Detach(g, node, n1, n2);
    Detached(m, g, node, n1, n2, g2);
    DetachEitherWay(g, node, n1, n2);
    PathwayDistanceSymmetric(m, pathway, g.nodes[n1].position, g.nodes[n2].position);
    ConnectSwap(m, g2, n1, n2, PathwayDistanceBetween(m, pathway, g.nodes[n1].position, g.nodes[n2].position), pathway);
  }

  /** When both edges of the node run along the same pathway, the order in
      which its two neighbours are taken makes no difference to `RemoveNode`:
      it rejoins them along that pathway either way round. */
  lemma RemoveNodeEitherWay(m: Math, g: Graph, node: NodeId, n1: NodeId, n2: NodeId)
    requires ValidMath(m) && Valid(m, g) && node in g.nodes
    requires Neighbors(g, node) == {n1, n2} && n1 != n2
    requires g.edges[(node, n1)].pathway == g.edges[(node, n2)].pathway
    ensures RemoveNode(m, g, node) == Rejoin(m, g, node, n1, n2, g.edges[(node, n1)].pathway)
    ensures RemoveNode(m, g, node) == Rejoin(m, g, node, n2, n1, g.edges[(node, n1)].pathway)
  {
    var pathway := g.edges[(node, n1)].pathway;
    assert |Neighbors(g, node)| == 2;
    var (e1, e2) := Ends(Neighbors(g, node));
    assert (e1, e2) == (n1, n2) || (e1, e2) == (n2, n1);
    RemoveSpliced(m, g, node, e1, e2, pathway);
    RejoinSwap(m, g, node, n1, n2, pathway);
  }

  /** The graph without the node and its edges to `n1` and `n2`. */
  function Detach(g: Graph, node: NodeId, n1: NodeId, n2: NodeId): Graph {
    var g1 := Disconnect(Disconnect(g, node, n1), node, n2);
    Graph(g1.nodes - {node}, g1.edges, g1.next)
  }

  /** Once both edges of a node with two neighbours are cut, no edge touches
      it and the graph without it is valid. */
  lemma Detached(m: Math, g: Graph, node: NodeId, n1: NodeId, n2: NodeId, g2: Graph)
    requires Valid(m, g) && node in g.nodes && Neighbors(g, node) == {n1, n2}
    requires g2 == Detach(g, node, n1, n2)
    ensures g2.nodes == g.nodes - {node} && g2.next == g.next
    ensures g2.edges == g.edges - {(node, n1), (n1, node), (node, n2), (n2, node)}
    ensures n1 in g2.nodes && n2 in g2.nodes
    ensures forall p :: p in g2.edges ==> p.0 != node && p.1 != node
    ensures Valid(m, g2)
  {
    assert EdgeOk(m, g, (node, n1)) && EdgeOk(m, g, (node, n2));
    forall p | p in g.edges && (p.0 == node || p.1 == node)
      ensures p in {(node, n1), (n1, node), (node, n2), (n2, node)}
    {
      assert EdgeOk(m, g, p);
      if p.0 == node {
        assert p.1 in Neighbors(g, node);
      } else {
        assert p.0 in Neighbors(g, node);
      }
    }
    forall p | p in g2.edges
      ensures EdgeOk(m, g2, p)
    {
      assert EdgeOk(m, g, p);
    }
  }

  /** Removing a node right after inserting it restores the graph, when the
      edge it split had the length the pathway gives between its ends. The
      ring edges `ResetNodes` builds are measured that way; a passage edge
      has the passage's full length, which differs from the distance between
      its end nodes when an end was merged into a node nearby. Only the id
      counter moves on. */
  lemma RemoveUndoesInsert(m: Math, g: Graph, path: Pathway, b0: NodeId, b1: NodeId, position: Vec2, blocking: bool)
    requires ValidMath(m) && Valid(m, g)
    requires b0 in g.nodes && b1 in g.nodes && Adjacent(g, b0, b1)
    requires g.edges[(b0, b1)].length
             == PathwayDistanceBetween(m, g.edges[(b0, b1)].pathway, g.nodes[b0].position, g.nodes[b1].position)
    requires InsertBetween(m, g, path, b0, b1, position, blocking).Success?
    ensures var (g', id) := InsertBetween(m, g, path, b0, b1, position, blocking).value;
      id in g'.nodes && RemoveNode(m, g', id) == Success(g.(next := g.next + 1))
  {
    var (g', id) := InsertBetween(m, g, path, b0, b1, position, blocking).value;
    RemoveUndoesSplice(m, g, path, b0, b1, position, blocking, g', id);
  }

  /** Removing the node a splice added restores the graph but for the id counter. */
  lemma RemoveUndoesSplice(m: Math, g: Graph, path: Pathway, b0: NodeId, b1: NodeId, position: Vec2, blocking: bool,
                           g': Graph, id: NodeId)
    requires ValidMath(m) && Valid(m, g) && Valid(m, g')
    requires b0 in g.nodes && b1 in g.nodes && Adjacent(g, b0, b1)
    requires g.edges[(b0, b1)].length
             == PathwayDistanceBetween(m, g.edges[(b0, b1)].pathway, g.nodes[b0].position, g.nodes[b1].position)
    requires Spliced(m, g, path, b0, b1, position, blocking, g', id)
    ensures id in g'.nodes && RemoveNode(m, g', id) == Success(g.(next := g.next + 1))
  {
    var e := g.edges[(b0, b1)];
    SplicedAround(m, g, path, b0, b1, position, blocking, g', id);
    var (n1, n2) := Ends(Neighbors(g', id));
    RemoveSpliced(m, g', id, n1, n2, e.pathway);
    DetachSplice(m, g, path, b0, b1, position, blocking, g', id);
    if n1 != b0 {
      DetachEitherWay(g', id, b0, b1);
    }
    PathwayDistanceSymmetric(m, e.pathway, g.nodes[b0].position, g.nodes[b1].position);
    ReconnectRestores(m, g, b0, b1, n1, n2, Detach(g', id, n1, n2));
  }

  /** What `RemoveNode` sees of a node just spliced into the edge `b0`-`b1`. */
  lemma SplicedAround(m: Math, g: Graph, path: Pathway, b0: NodeId, b1: NodeId, position: Vec2, blocking: bool,
                      g': Graph, id: NodeId)
    requires Valid(m, g) && b0 in g.nodes && b1 in g.nodes && Adjacent(g, b0, b1)
    requires Spliced(m, g, path, b0, b1, position, blocking, g', id)
    ensures id in g'.nodes && b0 != b1 && Neighbors(g', id) == {b0, b1}
    ensures g'.edges[(id, b0)].pathway == g.edges[(b0, b1)].pathway
    ensures g'.edges[(id, b1)].pathway == g.edges[(b0, b1)].pathway
  {
    assert EdgeOk(m, g, (b0, b1));
  }

  /** `RemoveNode` on a node whose two edges run along the same pathway
      rejoins its neighbours along it. */
  lemma RemoveSpliced(m: Math, g: Graph, id: NodeId, n1: NodeId, n2: NodeId, pathway: Pathway)
    requires ValidMath(m) && Valid(m, g) && id in g.nodes
    requires |Neighbors(g, id)| == 2 && (n1, n2) == Ends(Neighbors(g, id))
    requires g.edges[(id, n1)].pathway == pathway && g.edges[(id, n2)].pathway == pathway
    ensures RemoveNode(m, g, id) == Rejoin(m, g, id, n1, n2, pathway)
  {
    PathwayEqualsReflexiveSymmetric(m, pathway, pathway);
  }

  lemma DetachSplice(m: Math, g: Graph, path: Pathway, b0: NodeId, b1: NodeId, position: Vec2, blocking: bool,
                     g': Graph, id: NodeId)
    requires Valid(m, g) && b0 in g.nodes && b1 in g.nodes && b0 != b1
    requires Spliced(m, g, path, b0, b1, position, blocking, g', id) && Valid(m, g')
    ensures Detach(g', id, b0, b1) == g.(edges := g.edges - {(b0, b1), (b1, b0)}, next := g.next + 1)
  {
    var d := Detach(g', id, b0, b1);
    DetachEdges(g', id, b0, b1);
    SplicedEdgesKept(m, g, path, b0, b1, position, blocking, g', id);
    SplicedEdgesNew(m, g, path, b0, b1, position, blocking, g', id);
    CutAndRestored(d.edges, g'.edges, g.edges, {(id, b0), (b0, id), (id, b1), (b1, id)}, {(b0, b1), (b1, b0)});
    AddThenRemove(g.nodes, id, Node(position, blocking));
  }

  /** Adding a new key and taking it out again gives back the map. */
  lemma AddThenRemove<K, V>(mp: map<K, V>, k: K, v: V)
    requires k !in mp
    ensures mp[k := v] - {k} == mp
  {
  }

  /** Which of the two neighbours `Detach` cuts first makes no difference. */
  lemma DetachEitherWay(g: Graph, node: NodeId, n1: NodeId, n2: NodeId)
    ensures Detach(g, node, n1, n2) == Detach(g, node, n2, n1)
  {
    DetachEdges(g, node, n1, n2);
    DetachEdges(g, node, n2, n1);
    assert {(node, n1), (n1, node), (node, n2), (n2, node)} == {(node, n2), (n2, node), (node, n1), (n1, node)};
  }

  /** A map that, outside `added`, holds exactly the entries of `before`
      outside `cut`: taking `added` out of it gives `before` without `cut`. */
  lemma CutAndRestored<K, V>(d: map<K, V>, after: map<K, V>, before: map<K, V>, added: set<K>, cut: set<K>)
    requires d == after - added
    requires forall p :: p in before && p !in cut ==> p in after && p !in added && after[p] == before[p]
    requires forall p :: p in after && p !in added ==> p in before && p !in cut
    ensures d == before - cut
  {
    forall p
      ensures p in d <==> p in before - cut
    {
    }
  }

  /** What `Detach` leaves of the nodes and edges. */
  lemma DetachEdges(g: Graph, node: NodeId, n1: NodeId, n2: NodeId)
    ensures Detach(g, node, n1, n2).nodes == g.nodes - {node}
    ensures Detach(g, node, n1, n2).edges == g.edges - {(node, n1), (n1, node), (node, n2), (n2, node)}
    ensures Detach(g, node, n1, n2).next == g.next
  {
  }

  /** The edges of the graph before the splice, other than the cut one, are
      edges after it, away from the new node. */
  lemma SplicedEdgesKept(m: Math, g: Graph, path: Pathway, b0: NodeId, b1: NodeId, position: Vec2, blocking: bool,
                         g': Graph, id: NodeId)
    requires Valid(m, g) && b0 in g.nodes && b1 in g.nodes
    requires Spliced(m, g, path, b0, b1, position, blocking, g', id)
    ensures forall p :: p in g.edges && p !in {(b0, b1), (b1, b0)} ==>
      p in g'.edges && p !in {(id, b0), (b0, id), (id, b1), (b1, id)} && g'.edges[p] == g.edges[p]
  {
    EdgesAvoidNext(m, g);
  }

  /** After the splice, the edges away from the new node were there before,
      and the cut edge is gone. */
  lemma SplicedEdgesNew(m: Math, g: Graph, path: Pathway, b0: NodeId, b1: NodeId, position: Vec2, blocking: bool,
                        g': Graph, id: NodeId)
    requires Valid(m, g) && b0 in g.nodes && b1 in g.nodes && Valid(m, g')
    requires Spliced(m, g, path, b0, b1, position, blocking, g', id)
    ensures forall p :: p in g'.edges && p !in {(id, b0), (b0, id), (id, b1), (b1, id)} ==>
      p in g.edges && p !in {(b0, b1), (b1, b0)}
  {
    forall p | p in g'.edges && p !in {(id, b0), (b0, id), (id, b1), (b1, id)}
      ensures p in g.edges && p !in {(b0, b1), (b1, b0)}
    {
      assert EdgeOk(m, g', p);
      if p.0 == id {
        assert Adjacent(g', id, p.1);
      } else if p.1 == id {
        assert Adjacent(g', id, p.0);
      }
    }
  }

  lemma ReconnectRestores(m: Math, g: Graph, b0: NodeId, b1: NodeId, n1: NodeId, n2: NodeId, d: Graph)
    requires ValidMath(m) && Valid(m, g) && Adjacent(g, b0, b1) && b0 in g.nodes && b1 in g.nodes
    requires {n1, n2} == {b0, b1} && b0 != b1
    requires d == g.(edges := g.edges - {(b0, b1), (b1, b0)}, next := g.next + 1)
    requires g.edges[(b0, b1)].length
             == PathwayDistanceBetween(m, g.edges[(b0, b1)].pathway, g.nodes[b0].position, g.nodes[b1].position)
    requires PathwayDistanceBetween(m, g.edges[(b0, b1)].pathway, g.nodes[b0].position, g.nodes[b1].position)
             == PathwayDistanceBetween(m, g.edges[(b0, b1)].pathway, g.nodes[b1].position, g.nodes[b0].position)
    ensures n1 in d.nodes && n2 in d.nodes
    ensures var e := g.edges[(b0, b1)];
      Connect(m, d, n1, n2, PathwayDistanceBetween(m, e.pathway, g.nodes[n1].position, g.nodes[n2].position), e.pathway)
      == Success(g.(next := g.next + 1))
  {
    assert EdgeOk(m, g, (b0, b1));
    DistanceFacts(m, g.nodes[b0].position, g.nodes[b1].position);
    var e := g.edges[(b0, b1)];
    var r := Connect(m, d, n1, n2, PathwayDistanceBetween(m, e.pathway, g.nodes[n1].position, g.nodes[n2].position), e.pathway);
    assert r.Success?;
    assert r.value.edges == g.edges;
  }
}

=== FILE: map_graph.dfy ===
/** `ResetNodes`: the routing graph of a map, built from scratch. Each
    passageway end gets a node (ends closer than the merge distance share
    one) and the passageway becomes an edge; then the nodes on each ring are
    joined in order of their bearing from the ring's centre, closing the
    circle. */
module MapGraphs {
  import opened Wrappers
  import opened Vectors
  import opened Utils
  import opened Sorting
  import opened Pathways
  import opened CircularMaps
  import opened Graphs
  import opened GraphEdits

  /** The point is the node's position or within the merge distance of it. */
  predicate Near(m: Math, point: Vec2, position: Vec2) {
    point == position || Distance(m, point, position) < MergeDist
  }

  /** The two ends of the passageway are joined by an edge. */
  ghost predicate PassageJoined(m: Math, g: Graph, p: Passageway) {
    exists a, b :: a in g.nodes && b in g.nodes && Adjacent(g, a, b)
      && Near(m, p.smallPoint, g.nodes[a].position) && Near(m, p.largePoint, g.nodes[b].position)
  }

  /** The pathway is a passageway or a ring of the map. */
  predicate PathwayOfMap(cm: CircularMap, pathway: Pathway) {
    match pathway
    case PassagePath(passage) => passage in cm.passages
    case RingPath(ring) => ring in cm.rings
  }

  /** The edge runs along a passageway or a ring of the map. */
  ghost predicate EdgeAlongMap(g: Graph, cm: CircularMap, e: (NodeId, NodeId)) {
    e in g.edges && PathwayOfMap(cm, g.edges[e].pathway)
  }

  /** Every edge runs along a passageway or a ring of the map. */
  ghost predicate EdgesAlongMap(g: Graph, cm: CircularMap) {
    forall e {:trigger EdgeAlongMap(g, cm, e)} :: e in g.edges ==> EdgeAlongMap(g, cm, e)
  }

  predicate AtEndOf(position: Vec2, p: Passageway) {
    position == p.smallPoint || position == p.largePoint
  }

  /** The node is passable and sits at the end of a passageway. */
  ghost predicate NodeAtPassageEnd(g: Graph, cm: CircularMap, n: NodeId) {
    && n in g.nodes
    && !g.nodes[n].blocking
    && exists i :: 0 <= i < |cm.passages| && AtEndOf(g.nodes[n].position, cm.passages[i])
  }

  /** Every node is a passable node at the end of a passageway. */
  ghost predicate NodesAtPassageEnds(g: Graph, cm: CircularMap) {
    forall n {:trigger NodeAtPassageEnd(g, cm, n)} :: n in g.nodes ==> NodeAtPassageEnd(g, cm, n)
  }

  /** The ends of each of the first `upTo` passageways are joined. */
  ghost predicate PassagesJoined(m: Math, g: Graph, cm: CircularMap, upTo: nat) {
    forall i {:trigger PassageJoined(m, g, cm.passages[i])} :: 0 <= i < upTo && i < |cm.passages| ==>
      PassageJoined(m, g, cm.passages[i])
  }

  /** The graph a map yields: valid, made of passable nodes at passageway
      ends and of edges along the map's pathways, with every passageway's
      ends joined. */
  ghost predicate MapGraph(m: Math, g: Graph, cm: CircularMap) {
    && Valid(m, g)
    && NodesAtPassageEnds(g, cm)
    && EdgesAlongMap(g, cm)
    && PassagesJoined(m, g, cm, |cm.passages|)
  }

  /** The node for a passageway end: the closest one within the merge
      distance, or a new passable node there. */
  method NodeFor(m: Math, g: Graph, point: Vec2, found: Option<NodeId>) returns (g': Graph, n: NodeId)
    requires FreshNext(g)
    requires found.Some? ==> found.value in g.nodes && Near(m, point, g.nodes[found.value].position)
    ensures n in g'.nodes && Near(m, point, g'.nodes[n].position)
    ensures FreshNext(g') && g'.edges == g.edges
    ensures g.nodes.Keys <= g'.nodes.Keys
    ensures forall k :: k in g.nodes ==> g'.nodes[k] == g.nodes[k]
    ensures forall k :: k in g'.nodes && k !in g.nodes ==> k == n && g'.nodes[k] == Node(point, false)
    ensures forall m' :: Valid(m', g) ==> Valid(m', g')
  {
    if found.Some? {
      g', n := g, found.value;
    } else {
      var added := AddNode(g, point, false);
      g', n := added.0, added.1;
    }
  }

  /** The edge for one passageway (first loop of `ResetNodes`). */
  method AddPassageEdge(m: Math, g: Graph, cm: CircularMap, p: Passageway) returns (r: Result<Graph, GraphError>)
    requires FreshNext(g) && p in cm.passages
    ensures r.Success? ==> FreshNext(r.value)
    ensures r.Success? && Valid(m, g) ==> Valid(m, r.value)
    ensures r.Success? ==> g.nodes.Keys <= r.value.nodes.Keys && g.edges.Keys <= r.value.edges.Keys
    ensures r.Success? ==> forall k :: k in g.nodes ==> r.value.nodes[k] == g.nodes[k]
    ensures r.Success? ==> forall e :: e in g.edges ==> r.value.edges[e] == g.edges[e]
    ensures r.Success? && NodesAtPassageEnds(g, cm) ==> NodesAtPassageEnds(r.value, cm)
    ensures r.Success? ==> forall e :: e in r.value.edges && e !in g.edges ==> r.value.edges[e].pathway == PassagePath(p)
    ensures r.Success? ==> PassageJoined(m, r.value, p)
  {
    var found1 := FindExistingNode(m, g, p.smallPoint, MergeDist, g.nodes.Keys);
    var found2 := FindExistingNode(m, g, p.largePoint, MergeDist, g.nodes.Keys);
    var g1, n1 := NodeFor(m, g, p.smallPoint, found1);
    var g2, n2 := NodeFor(m, g1, p.largePoint, found2);
    var c := Connect(m, g2, n1, n2, PassageLength(m, p), PassagePath(p));
    if c.Failure? {
      return Failure(c.error);
    }
    r := c;
    assert Adjacent(r.value, n1, n2);
    NodesAtEndsKept(g, g2, cm, p);
    ConnectExtends(m, g2, n1, n2, PassageLength(m, p), PassagePath(p));
    NodesKept(g2, r.value, cm);
    assert g2.edges == g.edges;
  }

  lemma NodesAtEndsKept(g: Graph, g2: Graph, cm: CircularMap, p: Passageway)
    requires p in cm.passages
    requires forall k :: k in g2.nodes && k !in g.nodes ==> !g2.nodes[k].blocking && AtEndOf(g2.nodes[k].position, p)
    requires forall k :: k in g.nodes ==> k in g2.nodes && g2.nodes[k] == g.nodes[k]
    ensures NodesAtPassageEnds(g, cm) ==> NodesAtPassageEnds(g2, cm)
  {
    if NodesAtPassageEnds(g, cm) {
      var i :| 0 <= i < |cm.passages| && cm.passages[i] == p;
      forall k | k in g2.nodes
        ensures NodeAtPassageEnd(g2, cm, k)
      {
        if k in g.nodes {
          assert NodeAtPassageEnd(g, cm, k);
        } else {
          assert AtEndOf(g2.nodes[k].position, cm.passages[i]);
        }
      }
    }
  }

  /** Edges added along a pathway of the map keep every edge along the map. */
  lemma AlongMapKept(g: Graph, g': Graph, cm: CircularMap, pathway: Pathway)
    requires PathwayOfMap(cm, pathway)
    requires g.edges.Keys <= g'.edges.Keys
    requires forall e :: e in g.edges ==> g'.edges[e] == g.edges[e]
    requires forall e :: e in g'.edges && e !in g.edges ==> g'.edges[e].pathway == pathway
    ensures EdgesAlongMap(g, cm) ==> EdgesAlongMap(g', cm)
  {
    if EdgesAlongMap(g, cm) {
      forall e | e in g'.edges
        ensures EdgeAlongMap(g', cm, e)
      {
        if e in g.edges {
          assert EdgeAlongMap(g, cm, e);
        }
      }
    }
  }

  /** The key the passageway ends on a ring are sorted by: their bearing
      from the ring's centre. */
  function BearingKey(m: Math, ring: MapRing): Vec2 -> real {
    (v: Vec2) => m.bearing(Minus(v, ring.center))
  }

  /** `g'` has the nodes of `g` and its edges, and every edge it adds runs
      along `pathway`. */
  predicate Extends(g: Graph, g': Graph, pathway: Pathway) {
    && g'.nodes == g.nodes && g'.next == g.next
    && g.edges.Keys <= g'.edges.Keys
    && (forall e :: e in g.edges ==> g'.edges[e] == g.edges[e])
    && (forall e :: e in g'.edges && e !in g.edges ==> g'.edges[e].pathway == pathway)
  }

  lemma ExtendsTransitive(g1: Graph, g2: Graph, g3: Graph, pathway: Pathway)
    requires Extends(g1, g2, pathway) && Extends(g2, g3, pathway)
    ensures Extends(g1, g3, pathway)
  {
  }

  /** Connecting two nodes along `pathway` extends the graph. */
  lemma ConnectExtends(m: Math, g: Graph, a: NodeId, b: NodeId, length: real, pathway: Pathway)
    requires a in g.nodes && b in g.nodes
    requires Connect(m, g, a, b, length, pathway).Success?
    ensures Extends(g, Connect(m, g, a, b, length, pathway).value, pathway)
  {
  }

  /** Each listed node is the one `GetExistingNode` finds at the position
      listed at the same index. */
  predicate Located(m: Math, g: Graph, positions: seq<Vec2>, nodes: seq<NodeId>) {
    && |nodes| <= |positions|
    && (forall j :: 0 <= j < |nodes| ==> nodes[j] in g.nodes)
    && forall j {:trigger GetExistingNode(m, g, positions[j], g.nodes.Keys)} :: 0 <= j < |nodes| ==>
         GetExistingNode(m, g, positions[j], g.nodes.Keys) == Success(nodes[j])
  }

  /** `GetExistingNode` looks only at the nodes, so it finds the same node in
      two graphs that have the same nodes. */
  lemma LocatedSameNodes(m: Math, g: Graph, g': Graph, positions: seq<Vec2>, nodes: seq<NodeId>)
    requires g'.nodes == g.nodes
    ensures Located(m, g, positions, nodes) ==> Located(m, g', positions, nodes)
  {
    forall j | 0 <= j < |nodes| && j < |positions|
      ensures GetExistingNode(m, g, positions[j], g.nodes.Keys) == GetExistingNode(m, g', positions[j], g'.nodes.Keys)
    {
      assert NodesNear(m, g, positions[j], g.nodes.Keys) == NodesNear(m, g', positions[j], g'.nodes.Keys);
    }
  }

  /** The nodes found at `positions`, the passageway ends `points` on `ring`
      in bearing order, are joined in a closed chain in `g`: each to the next
      (unless they are the same node) and the last to the first. */
  ghost predicate ChainedAt(m: Math, g: Graph, ring: MapRing, points: set<Vec2>, positions: seq<Vec2>, nodes: seq<NodeId>) {
    && multiset(positions) == multiset(points)
    && Sorted(positions, BearingKey(m, ring))
    && 1 < |nodes| == |positions|
    && Located(m, g, positions, nodes)
    && (forall i :: 0 <= i < |nodes| - 1 ==> nodes[i] == nodes[i + 1] || Adjacent(g, nodes[i], nodes[i + 1]))
    && Adjacent(g, nodes[|nodes| - 1], nodes[0])
  }

  /** A ring with at least two passageway ends on it has them chained. */
  ghost predicate RingChained(m: Math, g: Graph, cm: CircularMap, ring: MapRing) {
    var points := PassagesPointsOnRing(m, cm.passages, ring);
    |points| > 1 ==> exists positions, nodes :: ChainedAt(m, g, ring, points, positions, nodes)
  }

  /** A chained ring stays chained when only edges are added. */
  lemma RingChainedKept(m: Math, g: Graph, g': Graph, cm: CircularMap, ring: MapRing)
    requires g'.nodes == g.nodes && g.edges.Keys <= g'.edges.Keys
    ensures RingChained(m, g, cm, ring) ==> RingChained(m, g', cm, ring)
  {
    var points := PassagesPointsOnRing(m, cm.passages, ring);
    if RingChained(m, g, cm, ring) && |points| > 1 {
      var positions, nodes :| ChainedAt(m, g, ring, points, positions, nodes);
      LocatedSameNodes(m, g, g', positions, nodes);
      assert ChainedAt(m, g', ring, points, positions, nodes);
    }
  }

  /** The rings chained so far stay chained when only edges are added. */
  lemma RingsChainedKept(m: Math, g: Graph, g': Graph, cm: CircularMap, rings: seq<MapRing>, k: nat)
    requires g'.nodes == g.nodes && g.edges.Keys <= g'.edges.Keys
    requires k <= |rings|
    requires forall j :: 0 <= j < k ==> RingChained(m, g, cm, rings[j])
    ensures forall j :: 0 <= j < k ==> RingChained(m, g', cm, rings[j])
  {
    forall j | 0 <= j < k
      ensures RingChained(m, g', cm, rings[j])
    {
      RingChainedKept(m, g, g', cm, rings[j]);
    }
  }

  /** One step along a ring: joins two consecutive nodes unless they are
      already joined or the same node. */
  function JoinPair(m: Math, g: Graph, ring: MapRing, a: NodeId, b: NodeId): (r: Result<Graph, GraphError>)
    requires a in g.nodes && b in g.nodes
    ensures r.Success? ==> Extends(g, r.value, RingPath(ring))
    ensures r.Success? ==> a == b || Adjacent(r.value, a, b)
    ensures r.Success? && Valid(m, g) ==> Valid(m, r.value)
    ensures r.Failure? ==> r.error == CoincidentNodes
  {
    if !Adjacent(g, a, b) && a != b then
      var length := RingDistanceBetween(m, ring, g.nodes[a].position, g.nodes[b].position, false);
      var c := Connect(m, g, a, b, length, RingPath(ring));
      if c.Success? then
        ConnectExtends(m, g, a, b, length, RingPath(ring));
        c
      else c
    else Success(g)
  }

  /** The closing step of a ring: the last node to the first. */
  function CloseRing(m: Math, g: Graph, ring: MapRing, last: NodeId, first: NodeId): (r: Result<Graph, GraphError>)
    requires last in g.nodes && first in g.nodes
    ensures r.Success? ==> Extends(g, r.value, RingPath(ring))
    ensures r.Success? ==> Adjacent(r.value, last, first)
    ensures r.Success? && Valid(m, g) ==> Valid(m, r.value)
    ensures r.Failure? ==> r.error in {SelfConnection, CoincidentNodes}
    ensures r.Failure? && r.error == SelfConnection <==> last == first
  {
    var length := RingDistanceBetween(m, ring, g.nodes[last].position, g.nodes[first].position, false);
    var c := Connect(m, g, last, first, length, RingPath(ring));
    if c.Success? then
      ConnectExtends(m, g, last, first, length, RingPath(ring));
      c
    else c
  }

  /** One turn of the ring loop: finds the node at the next position and
      joins the previous node to it. */
  method ChainStep(m: Math, g: Graph, cur: Graph, ring: MapRing, positions: seq<Vec2>, nodes: seq<NodeId>)
    returns (r: Result<Graph, GraphError>, nodes': seq<NodeId>)
    requires 0 < |nodes| < |positions|
    requires Extends(g, cur, RingPath(ring)) && Located(m, g, positions, nodes)
    ensures r.Success? ==>
      && |nodes'| == |nodes| + 1 && nodes'[..|nodes|] == nodes
      && Located(m, g, positions, nodes')
      && Extends(cur, r.value, RingPath(ring))
      && (nodes'[|nodes| - 1] == nodes'[|nodes|] || Adjacent(r.value, nodes'[|nodes| - 1], nodes'[|nodes|]))
    ensures r.Success? && Valid(m, cur) ==> Valid(m, r.value)
    ensures r.Failure? ==> r.error in {NoNodeAt, MultipleNodesAt, CoincidentNodes}
  {
    nodes' := nodes;
    var found := GetExistingNode(m, g, positions[|nodes|], g.nodes.Keys);
    if found.Failure? {
      return Failure(found.error), nodes';
    }
    r := JoinPair(m, cur, ring, nodes[|nodes| - 1], found.value);
    nodes' := nodes + [found.value];
    assert nodes'[..|nodes|] == nodes;
  }

  /** The nodes at the ring's passageway ends, listed in bearing order, are
      joined in a closed chain. */
  method ChainRing(m: Math, g: Graph, ring: MapRing, positions: seq<Vec2>)
    returns (r: Result<Graph, GraphError>, nodes: seq<NodeId>)
    requires |positions| > 1
    ensures r.Success? ==> Extends(g, r.value, RingPath(ring))
    ensures r.Success? && Valid(m, g) ==> Valid(m, r.value)
    ensures r.Success? || r.error == SelfConnection ==> |nodes| == |positions| && Located(m, g, positions, nodes)
    ensures r.Success? ==>
      && (forall i :: 0 <= i < |nodes| - 1 ==> nodes[i] == nodes[i + 1] || Adjacent(r.value, nodes[i], nodes[i + 1]))
      && Adjacent(r.value, nodes[|nodes| - 1], nodes[0])
    ensures r.Failure? ==> r.error in {NoNodeAt, MultipleNodesAt, SelfConnection, CoincidentNodes}
    ensures r.Failure? && r.error == SelfConnection ==> nodes[|nodes| - 1] == nodes[0]
  {
    nodes := [];
    var firstFound := GetExistingNode(m, g, positions[0], g.nodes.Keys);
    if firstFound.Failure? {
      return Failure(firstFound.error), nodes;
    }
    nodes := [firstFound.value];
    var cur := g;
    var i := 0;
    while i < |positions| - 1
      invariant 0 <= i <= |positions| - 1
      invariant |nodes| == i + 1
      invariant Extends(g, cur, RingPath(ring))
      invariant Valid(m, g) ==> Valid(m, cur)
      invariant Located(m, g, positions, nodes)
      invariant forall j :: 0 <= j < i ==> nodes[j] == nodes[j + 1] || Adjacent(cur, nodes[j], nodes[j + 1])
    {
      var step, nodes' := ChainStep(m, g, cur, ring, positions, nodes);
      if step.Failure? {
        return step, nodes;
      }
      ExtendsTransitive(g, cur, step.value, RingPath(ring));
      cur, nodes := step.value, nodes';
      i := i + 1;
    }
    var closing := CloseRing(m, cur, ring, nodes[|nodes| - 1], nodes[0]);
    if closing.Failure? {
      return Failure(closing.error), nodes;
    }
    ExtendsTransitive(g, cur, closing.value, RingPath(ring));
    r := closing;
  }

  /** The ring part of `ResetNodes` for one ring: its passageway ends are
      sorted by bearing and, when there are at least two, chained. */
  method JoinRing(m: Math, g: Graph, ring: MapRing, points: set<Vec2>)
    returns (r: Result<Graph, GraphError>, positions: seq<Vec2>, nodes: seq<NodeId>)
    ensures multiset(positions) == multiset(points) && |positions| == |points|
    ensures Sorted(positions, BearingKey(m, ring))
    ensures r.Success? ==> Extends(g, r.value, RingPath(ring))
    ensures r.Success? && Valid(m, g) ==> Valid(m, r.value)
    ensures |positions| <= 1 ==> r == Success(g)
    ensures |positions| > 1 && r.Success? ==>
      && |nodes| == |positions| && Located(m, g, positions, nodes)
      && (forall i :: 0 <= i < |nodes| - 1 ==> nodes[i] == nodes[i + 1] || Adjacent(r.value, nodes[i], nodes[i + 1]))
      && Adjacent(r.value, nodes[|nodes| - 1], nodes[0])
    ensures r.Failure? ==> r.error in {NoNodeAt, MultipleNodesAt, SelfConnection, CoincidentNodes}
  {
    var listed := Enumerate(points);
    positions := SortBy(listed, BearingKey(m, ring));
    SortBySorted(listed, BearingKey(m, ring));
    nodes := [];
    if |positions| <= 1 {
      return Success(g), positions, nodes;
    }
    r, nodes := ChainRing(m, g, ring, positions);
  }

  /** Joined passageway ends stay joined when nodes and edges are only added. */
  lemma JoinedKept(m: Math, g: Graph, g': Graph, cm: CircularMap, upTo: nat)
    requires forall k :: k in g.nodes ==> k in g'.nodes && g'.nodes[k] == g.nodes[k]
    requires g.edges.Keys <= g'.edges.Keys
    ensures PassagesJoined(m, g, cm, upTo) ==> PassagesJoined(m, g', cm, upTo)
  {
    if PassagesJoined(m, g, cm, upTo) {
      forall j | 0 <= j < upTo && j < |cm.passages|
        ensures PassageJoined(m, g', cm.passages[j])
      {
        var p := cm.passages[j];
        assert PassageJoined(m, g, p);
        var a, b :| a in g.nodes && b in g.nodes && Adjacent(g, a, b)
          && Near(m, p.smallPoint, g.nodes[a].position) && Near(m, p.largePoint, g.nodes[b].position);
        assert Adjacent(g', a, b);
      }
    }
  }

  /** The passable nodes at passageway ends stay so when only edges are added. */
  lemma NodesKept(g: Graph, g': Graph, cm: CircularMap)
    requires g'.nodes == g.nodes
    ensures NodesAtPassageEnds(g, cm) ==> NodesAtPassageEnds(g', cm)
  {
    if NodesAtPassageEnds(g, cm) {
      forall n | n in g'.nodes
        ensures NodeAtPassageEnd(g', cm, n)
      {
        assert NodeAtPassageEnd(g, cm, n);
      }
    }
  }

  /** `ResetNodes()`: the graph of the map, or the error that interrupts
      building it. */
  method ResetNodes(m: Math, cm: CircularMap) returns (r: Result<Graph, GraphError>)
    ensures r.Success? ==> MapGraph(m, r.value, cm) && FreshNext(r.value)
    ensures r.Success? ==> forall ring :: ring in cm.rings ==> RingChained(m, r.value, cm, ring)
  {
    var g := EmptyGraph();
    var i := 0;
    while i < |cm.passages|
      invariant i <= |cm.passages|
      invariant FreshNext(g) && Valid(m, g) && NodesAtPassageEnds(g, cm) && EdgesAlongMap(g, cm)
      invariant PassagesJoined(m, g, cm, i)
    {
      var step := AddPassageEdge(m, g, cm, cm.passages[i]);
      if step.Failure? {
        return step;
      }
      JoinedKept(m, g, step.value, cm, i);
      AlongMapKept(g, step.value, cm, PassagePath(cm.passages[i]));
      g := step.value;
      i := i + 1;
    }
    var rings := SortedRings(cm);
    var k := 0;
    while k < |rings|
      invariant k <= |rings|
      invariant FreshNext(g) && MapGraph(m, g, cm)
      invariant forall j :: 0 <= j < k ==> RingChained(m, g, cm, rings[j])
    {
      assert rings[k] in multiset(cm.rings);
      var joined := JoinMapRing(m, g, cm, rings, k);
      if joined.Failure? {
        return joined;
      }
      g := joined.value;
      k := k + 1;
    }
    forall ring | ring in cm.rings
      ensures RingChained(m, g, cm, ring)
    {
      assert ring in multiset(rings);
      var j :| 0 <= j < |rings| && rings[j] == ring;
    }
    r := Success(g);
  }

  /** One turn of the ring loop of `ResetNodes`: chains the `k`th ring and
      keeps the map graph and the rings chained before it. */
  method JoinMapRing(m: Math, g: Graph, cm: CircularMap, rings: seq<MapRing>, k: nat) returns (r: Result<Graph, GraphError>)
    requires k < |rings| && rings[k] in cm.rings
    requires FreshNext(g) && MapGraph(m, g, cm)
    requires forall j :: 0 <= j < k ==> RingChained(m, g, cm, rings[j])
    ensures r.Success? ==> FreshNext(r.value) && MapGraph(m, r.value, cm)
    ensures r.Success? ==> forall j :: 0 <= j <= k ==> RingChained(m, r.value, cm, rings[j])
  {
    var ring := rings[k];
    var points := PassagesPointsOnRing(m, cm.passages, ring);
    var joined, positions, nodes := JoinRing(m, g, ring, points);
    if joined.Failure? {
      return joined;
    }
    JoinedKept(m, g, joined.value, cm, |cm.passages|);
    NodesKept(g, joined.value, cm);
    AlongMapKept(g, joined.value, cm, RingPath(ring));
    RingsChainedKept(m, g, joined.value, cm, rings, k);
    if |points| > 1 {
      LocatedSameNodes(m, g, joined.value, positions, nodes);
      assert ChainedAt(m, joined.value, ring, points, positions, nodes);
    }
    r := joined;
  }
}

=== FILE: pathfinder.dfy ===
/** The pathfinder a ghost steers by. `SetTarget` places nodes for the
    ghost, its target and the obstacles on the routing graph, searches the
    graph, keeps the route found as waypoints and pathways, and takes the
    added nodes out again; `Orientation` turns the first waypoint into a
    direction, unless the ghost is frozen or waits for another ghost. */
module Pathfinders {
  import opened Wrappers
  import opened Vectors
  import opened Utils
  import opened Pathways
  import opened CircularMaps
  import opened Graphs
  import opened GraphEdits
  import opened MapGraphs
  import opened Search

  /** Closer than this to another ghost, a ghost may stop and wait. */
  const ObstacleClearance: real := 1.35 * Margin

  /** Whether the node placed at a ghost blocks the search. */
  const GhostIsBlocking: bool := true

  /** A fleeing target must be at least this far along the graph. */
  const FleeingMinDistance: real := 7.0

  /** A game object the pathfinder steers around: another cellulo or the
      player. Equal values stand for the same object. */
  datatype Body = Body(id: nat, position: Vec2)

  /** What another ghost shows of itself to `Orientation`. */
  datatype GhostView = GhostView(position: Vec2, waiting: bool, distanceToTarget: real)

  /** The pathfinder's state. The queues of waypoints and pathways are
      sequences whose first element is the queue's head. */
  datatype Pathfinder = Pathfinder(
    circularMap: CircularMap,
    graph: Graph,
    obstacles: seq<Body>,
    frozen: bool,
    waiting: bool,
    endNode: Option<Node>,
    finalNodes: seq<Node>,
    finalPath: seq<Pathway>,
    distanceToTarget: real)

  datatype PathfinderError =
    | MapFailure(mapError: MapError)
    | GraphFailure(graphError: GraphError)
    | MissingEdge
    | NoWaypoint

  /** The graph is one the pathfinder can edit and search. */
  ghost predicate Ready(m: Math, pf: Pathfinder) {
    Valid(m, pf.graph)
  }

  /** A pathfinder for a map: the map's graph, the obstacles given, and no
      route yet. */
  method NewPathfinder(m: Math, cm: CircularMap, obstacles: seq<Body>) returns (r: Result<Pathfinder, PathfinderError>)
    ensures r.Success? ==> Ready(m, r.value) && MapGraph(m, r.value.graph, cm)
    ensures r.Success? ==> r.value.obstacles == obstacles && r.value.circularMap == cm
    ensures r.Success? ==> !IsFrozen(r.value) && r.value.finalNodes == [] && r.value.finalPath == []
  {
    var g := ResetNodes(m, cm);
    if g.Failure? {
      return Failure(GraphFailure(g.error));
    }
    return Success(Pathfinder(cm, g.value, obstacles, false, false, None, [], [], 0.0));
  }

  /** `IsFrozen`. */
  predicate IsFrozen(pf: Pathfinder) {
    pf.frozen
  }

  /** `Freeze`: the ghost stays where it is until the next `SetTarget`. */
  function Freeze(pf: Pathfinder): (r: Pathfinder)
    ensures IsFrozen(r)
    ensures r.(frozen := pf.frozen) == pf
  {
    pf.(frozen := true)
  }

  // ----------------------------------------------------------- obstacles

  /** `List.Remove`: drops the first occurrence of `x`, if there is one. */
  function RemoveFirst<T(==)>(s: seq<T>, x: T): (r: seq<T>)
    ensures x in s ==> multiset(r) == multiset(s) - multiset{x}
    ensures x !in s ==> r == s
  {
    if s == [] then []
    else if s[0] == x then
      assert s == [s[0]] + s[1..];
      s[1..]
    else
      assert s == [s[0]] + s[1..];
      [s[0]] + RemoveFirst(s[1..], x)
  }

  /** Adding an object to the obstacles and removing it again leaves the
      same obstacles, in the same order when it was not there before. */
  lemma AddThenRemoveFirst<T>(s: seq<T>, x: T)
    ensures multiset(RemoveFirst(s + [x], x)) == multiset(s)
    ensures x !in s ==> RemoveFirst(s + [x], x) == s
  {
    assert x in s + [x];
    assert multiset(s + [x]) == multiset(s) + multiset{x};
    if x !in s {
      AppendedRemoved(s, x);
    }
  }

  lemma {:induction false} AppendedRemoved<T>(s: seq<T>, x: T)
    requires x !in s
    ensures RemoveFirst(s + [x], x) == s
    decreases |s|
  {
    if s != [] {
      assert (s + [x])[0] == s[0] && (s + [x])[1..] == s[1..] + [x];
      AppendedRemoved(s[1..], x);
      assert s == [s[0]] + s[1..];
    }
  }

  /** The obstacles during a search: the player joins them when the ghost
      avoids it. */
  function Avoiding(obstacles: seq<Body>, avoidPlayer: bool, player: Body): seq<Body> {
    if avoidPlayer then obstacles + [player] else obstacles
  }

  // ----------------------------------------------------------- placing nodes

  /** Every node of `g` is in `g'` with the same data. */
  predicate KeepsNodes(g: Graph, g': Graph) {
    forall k :: k in g.nodes ==> k in g'.nodes && g'.nodes[k] == g.nodes[k]
  }

  /** `g'` is `g` with the distinct new nodes `added` and no other change
      to the nodes. */
  ghost predicate Grown(g: Graph, g': Graph, added: seq<NodeId>) {
    && KeepsNodes(g, g')
    && g.next <= g'.next
    && (forall i :: 0 <= i < |added| ==> added[i] in g'.nodes && added[i] !in g.nodes)
    && (forall i, j :: 0 <= i < j < |added| ==> added[i] != added[j])
    && (forall k :: k in g'.nodes ==> k in g.nodes || k in added)
  }

  lemma GrownStep(g: Graph, g1: Graph, added: seq<NodeId>, g2: Graph, id: NodeId, node: Node)
    requires FreshNext(g) && FreshNext(g1) && Grown(g, g1, added)
    requires id == g1.next && g2.next == g1.next + 1 && g2.nodes == g1.nodes[id := node]
    ensures Grown(g, g2, added + [id]) && KeepsNodes(g1, g2)
  {
    var added' := added + [id];
    forall i | 0 <= i < |added'|
      ensures added'[i] in g2.nodes && added'[i] !in g.nodes
    {
      if i < |added| {
        assert added'[i] == added[i];
      }
    }
    forall i, j | 0 <= i < j < |added'|
      ensures added'[i] != added'[j]
    {
      assert added'[i] == added[i] && added[i] in g1.nodes;
    }
    forall k | k in g2.nodes
      ensures k in g.nodes || k in added'
    {
      if k != id {
        assert k in g1.nodes;
      }
    }
  }

  /** A node that is new in `g'`, at `position` and with `blocking`. */
  ghost predicate AddedNode(m: Math, g: Graph, g': Graph, id: NodeId, position: Vec2, blocking: bool) {
    && Valid(m, g')
    && id == g.next && g'.next == g.next + 1
    && g'.nodes == g.nodes[id := Node(position, blocking)]
  }

  /** A node for `position` on the pathway of the map closest to it. */
  method PlaceNode(m: Math, cm: CircularMap, g: Graph, position: Vec2, blocking: bool)
    returns (r: Result<(Graph, NodeId), PathfinderError>, ghost pathway: Pathway)
    requires Valid(m, g)
    ensures cm.rings == [] && cm.passages == [] ==> r == Failure(MapFailure(NoPathways))
    ensures !(cm.rings == [] && cm.passages == []) ==> NearestPathway(m, cm, position, pathway)
    ensures !(cm.rings == [] && cm.passages == []) && FindNodesOn(m, g, pathway, g.nodes.Keys).Failure?
            ==> r == Failure(GraphFailure(TooFewNodesOnPathway))
    ensures r.Failure? ==> Propagated(r.error)
    ensures r.Success? ==>
      && FindNodesOn(m, g, pathway, g.nodes.Keys).Success?
      && AddedNode(m, g, r.value.0, r.value.1, position, blocking)
  {
    var closest := FindClosestPathway(m, cm, position);
    if closest.Failure? {
      return Failure(MapFailure(closest.error)), RingPath(MapRing(0.0, Zero));
    }
    pathway := closest.value;
    var inserted := InsertNode(m, g, closest.value, position, blocking, cm.center);
    if inserted.Failure? {
      return Failure(GraphFailure(inserted.error)), pathway;
    }
    return Success(inserted.value), pathway;
  }

  /** `pathway` is a pathway of the map no farther from `position` than any
      other, as `FindClosestPathway` answers. */
  ghost predicate NearestPathway(m: Math, cm: CircularMap, position: Vec2, pathway: Pathway) {
    && pathway in AllPathways(cm)
    && forall pw :: pw in AllPathways(cm) ==>
         PathwayDistanceFromPath(m, pathway, position) <= PathwayDistanceFromPath(m, pw, position)
  }

  /** The start and end nodes of a search, the nodes added for it, and
      among them the nodes at obstacles. */
  datatype Placement = Placement(graph: Graph, start: NodeId, end: NodeId, added: seq<NodeId>, obstacleNodes: seq<NodeId>)

  /** Some node is within the merge distance of `position`. */
  ghost predicate NodeNear(m: Math, g: Graph, position: Vec2) {
    exists n :: n in g.nodes && CloseEnough(m, g, position, MergeDist, n)
  }

  /** Each obstacle up to `upTo` has a node within the merge distance. */
  ghost predicate Covered(m: Math, g: Graph, obstacles: seq<Body>, upTo: nat)
    requires upTo <= |obstacles|
  {
    forall j :: 0 <= j < upTo ==> NodeNear(m, g, obstacles[j].position)
  }

  lemma CoveredKept(m: Math, g: Graph, g': Graph, obstacles: seq<Body>, upTo: nat)
    requires upTo <= |obstacles| && Covered(m, g, obstacles, upTo) && KeepsNodes(g, g')
    ensures Covered(m, g', obstacles, upTo)
  {
    forall j | 0 <= j < upTo
      ensures NodeNear(m, g', obstacles[j].position)
    {
      assert NodeNear(m, g, obstacles[j].position);
      var n :| n in g.nodes && CloseEnough(m, g, obstacles[j].position, MergeDist, n);
      assert CloseEnough(m, g', obstacles[j].position, MergeDist, n);
    }
  }

  lemma CoveredOneMore(m: Math, g: Graph, obstacles: seq<Body>, i: nat)
    requires i < |obstacles| && Covered(m, g, obstacles, i) && NodeNear(m, g, obstacles[i].position)
    ensures Covered(m, g, obstacles, i + 1)
  {
  }

  /** An error passed on from the map or the graph. */
  predicate Propagated(e: PathfinderError) {
    e.MapFailure? || e.GraphFailure?
  }

  /** A node for `position` that is found within the merge distance, or
      else the new node placed there. */
  ghost predicate Merged(m: Math, g: Graph, g': Graph, position: Vec2, blocking: bool, n: NodeId)
    requires n in g'.nodes
  {
    && (n in g.nodes ==> CloseEnough(m, g, position, MergeDist, n))
    && (n !in g.nodes ==>
          && g'.nodes[n] == Node(position, blocking)
          && forall k :: k in g.nodes ==> !CloseEnough(m, g, position, MergeDist, k))
  }

  lemma MergedKept(m: Math, g: Graph, g1: Graph, g2: Graph, position: Vec2, blocking: bool, n: NodeId)
    requires n in g1.nodes && Merged(m, g, g1, position, blocking, n) && KeepsNodes(g1, g2)
    ensures n in g2.nodes && Merged(m, g, g2, position, blocking, n)
  {
  }

  /** What placing the nodes for a search yields. */
  ghost predicate Placed(m: Math, g: Graph, p: Placement, currentPos: Vec2, target: Vec2, obstacles: seq<Body>) {
    && EndsPlaced(m, g, p, currentPos, target)
    && p.added == EndsAdded(g, p) + p.obstacleNodes
    && (forall i :: 0 <= i < |p.obstacleNodes| ==> p.obstacleNodes[i] in p.graph.nodes && p.graph.nodes[p.obstacleNodes[i]].blocking)
    && Covered(m, p.graph, obstacles, |obstacles|)
  }

  /** The start and end nodes of a placement. */
  ghost predicate EndsPlaced(m: Math, g: Graph, p: Placement, currentPos: Vec2, target: Vec2) {
    && Valid(m, p.graph) && Grown(g, p.graph, p.added)
    && p.start in p.graph.nodes && p.end in p.graph.nodes
    && Merged(m, g, p.graph, currentPos, GhostIsBlocking, p.start)
    && Merged(m, g, p.graph, target, false, p.end)
  }

  /** The new start and end nodes, in the order the source removes them. */
  function EndsAdded(g: Graph, p: Placement): seq<NodeId> {
    (if p.start in g.nodes then [] else [p.start]) + (if p.end in g.nodes then [] else [p.end])
  }

  /** The node for an end of the search: the one found, or a new one. */
  method EndNode(m: Math, cm: CircularMap, g: Graph, cur: Graph, added: seq<NodeId>,
                 position: Vec2, blocking: bool, found: Option<NodeId>)
    returns (r: Result<(Graph, NodeId, seq<NodeId>), PathfinderError>)
    requires Valid(m, cur) && FreshNext(g) && Grown(g, cur, added)
    requires found.None? <==> forall k :: k in g.nodes ==> !CloseEnough(m, g, position, MergeDist, k)
    requires found.Some? ==> found.value in g.nodes && CloseEnough(m, g, position, MergeDist, found.value)
    ensures r.Failure? ==> Propagated(r.error)
    ensures r.Success? ==>
      && Valid(m, r.value.0) && Grown(g, r.value.0, r.value.2) && KeepsNodes(cur, r.value.0)
      && r.value.1 in r.value.0.nodes && Merged(m, g, r.value.0, position, blocking, r.value.1)
      && (found.None? <==> r.value.1 !in g.nodes)
      && r.value.2 == added + (if found.None? then [r.value.1] else [])
  {
    if found.Some? {
      return Success((cur, found.value, added));
    }
    var placed, _ := PlaceNode(m, cm, cur, position, blocking);
    if placed.Failure? {
      return Failure(placed.error);
    }
    var (g', id) := placed.value;
    GrownStep(g, cur, added, g', id, Node(position, blocking));
    return Success((g', id, added + [id]));
  }

  /** Which way `ObstacleNode` goes: an obstacle near a node changes nothing;
      otherwise a node is placed on the nearest `pathway`, and the
      placement's failures for a map without pathways or a nearest pathway
      with too few nodes come back. */
  ghost predicate ObstacleOutcome(m: Math, cm: CircularMap, cur: Graph, position: Vec2,
                                  r: Result<(Graph, Option<NodeId>), PathfinderError>, pathway: Pathway) {
    && (NodeNear(m, cur, position) ==> r == Success((cur, None)))
    && (!NodeNear(m, cur, position) && r.Success? ==> r.value.1.Some?)
    && (!NodeNear(m, cur, position) && cm.rings == [] && cm.passages == [] ==> r == Failure(MapFailure(NoPathways)))
    && (!NodeNear(m, cur, position) && !(cm.rings == [] && cm.passages == []) ==>
          && NearestPathway(m, cm, position, pathway)
          && (FindNodesOn(m, cur, pathway, cur.nodes.Keys).Failure? ==> r == Failure(GraphFailure(TooFewNodesOnPathway))))
  }

  /** The node at one obstacle: the closest node within the merge
      distance, or else a new blocking node there. */
  method ObstacleNode(m: Math, cm: CircularMap, cur: Graph, position: Vec2)
    returns (r: Result<(Graph, Option<NodeId>), PathfinderError>, ghost pathway: Pathway)
    requires ValidMath(m) && Valid(m, cur)
    ensures r.Failure? ==> Propagated(r.error)
    ensures r.Success? ==> Valid(m, r.value.0) && NodeNear(m, r.value.0, position)
    ensures r.Success? && r.value.1.None? ==> r.value.0 == cur
    ensures r.Success? && r.value.1.Some? ==> AddedNode(m, cur, r.value.0, r.value.1.value, position, true)
    ensures ObstacleOutcome(m, cm, cur, position, r, pathway)
  {
    var found := FindExistingNode(m, cur, position, MergeDist, cur.nodes.Keys);
    if found.Some? {
      return Success((cur, None)), RingPath(MapRing(0.0, Zero));
    }
    var placed;
    placed, pathway := PlaceNode(m, cm, cur, position, true);
    if placed.Failure? {
      return Failure(placed.error), pathway;
    }
    var (g', id) := placed.value;
    DistanceToSelf(m, position);
    assert CloseEnough(m, g', position, MergeDist, id);
    return Success((g', Some(id))), pathway;
  }

  lemma GrownJoin(g0: Graph, g1: Graph, g2: Graph, a1: seq<NodeId>, a2: seq<NodeId>)
    requires Grown(g0, g1, a1) && Grown(g1, g2, a2)
    ensures Grown(g0, g2, a1 + a2)
  {
    var a := a1 + a2;
    forall i | 0 <= i < |a|
      ensures a[i] in g2.nodes && a[i] !in g0.nodes
    {
      if i >= |a1| {
        assert a[i] == a2[i - |a1|];
      }
    }
    forall i, j | 0 <= i < j < |a|
      ensures a[i] != a[j]
    {
      if j >= |a1| {
        assert a[j] == a2[j - |a1|] && a[j] !in g1.nodes;
        if i >= |a1| {
          assert a[i] == a2[i - |a1|];
        }
      }
    }
    forall k | k in g2.nodes
      ensures k in g0.nodes || k in a
    {
    }
  }

  /** The nodes at the obstacles: an obstacle far from every node gets a
      new blocking node, which later obstacles may merge with. */
  method ObstacleNodes(m: Math, cm: CircularMap, cur: Graph, obstacles: seq<Body>)
    returns (r: Result<(Graph, seq<NodeId>), PathfinderError>)
    requires ValidMath(m) && Valid(m, cur)
    ensures r.Failure? ==> Propagated(r.error)
    ensures r.Success? ==>
      && Valid(m, r.value.0) && Grown(cur, r.value.0, r.value.1)
      && (forall i :: 0 <= i < |r.value.1| ==> r.value.1[i] in r.value.0.nodes && r.value.0.nodes[r.value.1[i]].blocking)
      && Covered(m, r.value.0, obstacles, |obstacles|)
  {
    var g' := cur;
    var extra: seq<NodeId> := [];
    var i := 0;
    while i < |obstacles|
      invariant i <= |obstacles|
      invariant Valid(m, g') && Grown(cur, g', extra)
      invariant forall j :: 0 <= j < |extra| ==> extra[j] in g'.nodes && g'.nodes[extra[j]].blocking
      invariant Covered(m, g', obstacles, i)
    {
      var step, _ := ObstacleNode(m, cm, g', obstacles[i].position);
      if step.Failure? {
        return Failure(step.error);
      }
      var (g2, id) := step.value;
      if id.Some? {
        GrownStep(cur, g', extra, g2, id.value, Node(obstacles[i].position, true));
        CoveredKept(m, g', g2, obstacles, i);
        extra := extra + [id.value];
      }
      CoveredOneMore(m, g2, obstacles, i);
      g' := g2;
      i := i + 1;
    }
    return Success((g', extra));
  }

  /** The nodes of a search: the start and end nodes are looked up before
      either is placed, then the obstacles' nodes are placed. */
  method Place(m: Math, cm: CircularMap, g: Graph, currentPos: Vec2, target: Vec2, obstacles: seq<Body>)
    returns (r: Result<Placement, PathfinderError>)
    requires ValidMath(m) && Valid(m, g)
    ensures r.Failure? ==> Propagated(r.error)
    ensures r.Success? ==> Placed(m, g, r.value, currentPos, target, obstacles)
  {
    var ends := PlaceEnds(m, cm, g, currentPos, target);
    if ends.Failure? {
      return Failure(ends.error);
    }
    var p := ends.value;
    var rest := ObstacleNodes(m, cm, p.graph, obstacles);
    if rest.Failure? {
      return Failure(rest.error);
    }
    var (g', extra) := rest.value;
    ObstaclesPlaced(m, g, p, g', extra, currentPos, target, obstacles);
    return Success(Placement(g', p.start, p.end, p.added + extra, extra));
  }

  /** The start and end nodes: both are looked up before either is placed. */
  method PlaceEnds(m: Math, cm: CircularMap, g: Graph, currentPos: Vec2, target: Vec2)
    returns (r: Result<Placement, PathfinderError>)
    requires ValidMath(m) && Valid(m, g)
    ensures r.Failure? ==> Propagated(r.error)
    ensures r.Success? ==> EndsPlaced(m, g, r.value, currentPos, target) && r.value.added == EndsAdded(g, r.value)
  {
    var startFound := FindExistingNode(m, g, currentPos, MergeDist, g.nodes.Keys);
    var endFound := FindExistingNode(m, g, target, MergeDist, g.nodes.Keys);
    var first := EndNode(m, cm, g, g, [], currentPos, GhostIsBlocking, startFound);
    if first.Failure? {
      return Failure(first.error);
    }
    var (g1, start, added1) := first.value;
    var second := EndNode(m, cm, g, g1, added1, target, false, endFound);
    if second.Failure? {
      return Failure(second.error);
    }
    var (g2, end, added2) := second.value;
    MergedKept(m, g, g1, g2, currentPos, GhostIsBlocking, start);
    var startAdded: seq<NodeId> := if start in g.nodes then [] else [start];
    var endAdded: seq<NodeId> := if end in g.nodes then [] else [end];
    assert [] + startAdded == startAdded;
    assert added2 == startAdded + endAdded;
    var p := Placement(g2, start, end, added2, []);
    assert EndsAdded(g, p) == startAdded + endAdded;
    return Success(p);
  }

  lemma ObstaclesPlaced(m: Math, g: Graph, p: Placement, g': Graph, extra: seq<NodeId>,
                        currentPos: Vec2, target: Vec2, obstacles: seq<Body>)
    requires EndsPlaced(m, g, p, currentPos, target) && p.added == EndsAdded(g, p)
    requires Valid(m, g') && Grown(p.graph, g', extra)
    requires forall i :: 0 <= i < |extra| ==> extra[i] in g'.nodes && g'.nodes[extra[i]].blocking
    requires Covered(m, g', obstacles, |obstacles|)
    ensures Placed(m, g, Placement(g', p.start, p.end, p.added + extra, extra), currentPos, target, obstacles)
  {
    GrownJoin(g, p.graph, g', p.added, extra);
  }

  // ----------------------------------------------------------- removing nodes

  /** `RemoveNode` on one node: on success the node is gone and the graph
      is still valid. */
  method RemoveOne(m: Math, g: Graph, id: NodeId) returns (r: Result<Graph, PathfinderError>)
    requires Valid(m, g) && id in g.nodes
    ensures r.Failure? ==> r.error.GraphFailure?
    ensures r.Success? ==> Valid(m, r.value) && r.value.nodes == g.nodes - {id}
  {
    var step := RemoveNode(m, g, id);
    if step.Failure? {
      return Failure(GraphFailure(step.error));
    }
    return Success(step.value);
  }

  /** `RemoveNode` for each of `ids` in turn. */
  method RemoveAll(m: Math, g: Graph, ids: seq<NodeId>) returns (r: Result<Graph, PathfinderError>)
    requires Valid(m, g)
    requires forall i :: 0 <= i < |ids| ==> ids[i] in g.nodes
    requires forall i, j :: 0 <= i < j < |ids| ==> ids[i] != ids[j]
    ensures r.Failure? ==> r.error.GraphFailure?
    ensures r.Success? ==> Valid(m, r.value)
    ensures r.Success? ==> forall k :: k in r.value.nodes <==> k in g.nodes && k !in ids
    ensures r.Success? ==> KeepsNodes(r.value, g)
  {
    var cur := g;
    var i := 0;
    while i < |ids|
      invariant i <= |ids| && Valid(m, cur)
      invariant forall k :: k in cur.nodes <==> k in g.nodes && k !in ids[..i]
      invariant KeepsNodes(cur, g)
    {
      assert ids[i] !in ids[..i];
      var step := RemoveOne(m, cur, ids[i]);
      if step.Failure? {
        return step;
      }
      assert ids[..i + 1] == ids[..i] + [ids[i]];
      cur := step.value;
      i := i + 1;
    }
    assert ids[..i] == ids;
    return Success(cur);
  }

  /** Taking out again the nodes added for a search leaves the nodes the
      graph had before. */
  lemma RemovedAgain(g0: Graph, g1: Graph, added: seq<NodeId>, g2: Graph)
    requires Grown(g0, g1, added)
    requires forall k :: k in g2.nodes <==> k in g1.nodes && k !in added
    requires KeepsNodes(g2, g1)
    ensures g2.nodes == g0.nodes
  {
    forall k
      ensures k in g2.nodes <==> k in g0.nodes
    {
      if k in added {
        var i :| 0 <= i < |added| && added[i] == k;
      }
    }
  }

  // ----------------------------------------------------------- the route

  /** The nodes of a path. */
  function Waypoints(g: Graph, path: seq<NodeId>): (ns: seq<Node>)
    requires forall i :: 0 <= i < |path| ==> path[i] in g.nodes
    ensures |ns| == |path|
    ensures forall i :: 0 <= i < |path| ==> ns[i] == g.nodes[path[i]]
  {
    seq(|path|, i requires 0 <= i < |path| => g.nodes[path[i]])
  }

  /** The length `SetTarget` reports for a walk. */
  function RouteLength(m: Math, g: Graph, route: seq<NodeId>): real
    requires IsWalk(g, route)
  {
    PathLength(m, Positions(g, route), PathwaysAlong(g, route).value)
  }

  /** The waypoints, pathways, length and end node kept for a route. */
  ghost predicate Followed(m: Math, pf: Pathfinder, length: real, g: Graph, end: NodeId, route: seq<NodeId>) {
    && IsWalk(g, route) && end in g.nodes
    && PathwaysAlong(g, route) == Some(pf.finalPath)
    && pf.finalNodes == Waypoints(g, route)[1..]
    && length == RouteLength(m, g, route)
    && pf.distanceToTarget == length
    && pf.endNode == Some(g.nodes[end])
  }

  /** The state after a search that reached the end node along `path`: the
      waypoints after the start and the pathways along the path, its
      length, and the graph without the nodes the search added. */
  method Follow(m: Math, pf: Pathfinder, p: Placement, obstacles: seq<Body>, avoidPlayer: bool, player: Body,
                path: seq<NodeId>)
    returns (r: Result<(Pathfinder, real), PathfinderError>)
    requires Valid(m, p.graph) && p.end in p.graph.nodes
    requires forall i :: 0 <= i < |p.added| ==> p.added[i] in p.graph.nodes
    requires forall i, j :: 0 <= i < j < |p.added| ==> p.added[i] != p.added[j]
    requires IsWalk(p.graph, path) || path == [p.start, p.start]
    requires p.start in p.graph.nodes
    ensures PathwaysAlong(p.graph, path).None? <==> r == Failure(MissingEdge)
    ensures ValidMath(m) && r.Success? ==> 0.0 <= r.value.1
    ensures r.Success? ==>
      && Followed(m, r.value.0, r.value.1, p.graph, p.end, path)
      && Valid(m, r.value.0.graph) && KeepsNodes(r.value.0.graph, p.graph)
      && (forall k :: k in r.value.0.graph.nodes <==> k in p.graph.nodes && k !in p.added)
      && r.value.0.obstacles == (if avoidPlayer then RemoveFirst(obstacles, player) else obstacles)
      && r.value.0 == pf.(graph := r.value.0.graph, obstacles := r.value.0.obstacles, frozen := false,
                          endNode := r.value.0.endNode, finalNodes := r.value.0.finalNodes,
                          finalPath := r.value.0.finalPath, distanceToTarget := r.value.1)
  {
    var pathways := PathwaysAlong(p.graph, path);
    if pathways.None? {
      return Failure(MissingEdge);
    }
    var positions := Positions(p.graph, path);
    var waypoints := Waypoints(p.graph, path);
    var endNode := p.graph.nodes[p.end];
    var g := RemoveAll(m, p.graph, p.added);
    if g.Failure? {
      return Failure(g.error);
    }
    var length := PathLength(m, positions, pathways.value);
    var kept := if avoidPlayer then RemoveFirst(obstacles, player) else obstacles;
    var pf' := pf.(graph := g.value, obstacles := kept, frozen := false, endNode := Some(endNode),
                   finalNodes := waypoints[1..], finalPath := pathways.value, distanceToTarget := length);
    return Success((pf', length));
  }

  /** The state after a search that did not reach the end node: the start
      node as the only waypoint, the pathway closest to the ghost, a graph
      rebuilt from the map, and the reported length 0. The end node, the
      distance to the target and the obstacles stay as they are, so an
      avoided player stays among the obstacles. */
  method GiveUp(m: Math, pf: Pathfinder, currentPos: Vec2, obstacles: seq<Body>, startNode: Node)
    returns (r: Result<(Pathfinder, real), PathfinderError>)
    ensures r.Failure? ==> Propagated(r.error)
    ensures r.Success? ==>
      && r.value.1 == 0.0
      && MapGraph(m, r.value.0.graph, pf.circularMap)
      && r.value.0.finalNodes == [startNode]
      && |r.value.0.finalPath| == 1
      && FindClosestPathway(m, pf.circularMap, currentPos) == Success(r.value.0.finalPath[0])
      && r.value.0 == pf.(graph := r.value.0.graph, obstacles := obstacles, frozen := false,
                          finalNodes := [startNode], finalPath := r.value.0.finalPath)
  {
    var pathway := FindClosestPathway(m, pf.circularMap, currentPos);
    if pathway.Failure? {
      return Failure(MapFailure(pathway.error));
    }
    var g := ResetNodes(m, pf.circularMap);
    if g.Failure? {
      return Failure(GraphFailure(g.error));
    }
    var pf' := pf.(graph := g.value, obstacles := obstacles, frozen := false,
                   finalNodes := [startNode], finalPath := [pathway.value]);
    return Success((pf', 0.0));
  }

  // ----------------------------------------------------------- SetTarget

  /** `SetTarget(currentPos, target, avoidPlayer)` with the path read back
      so that it ends at the start node. It answers the new state and the
      length of the route, and reports whether the end node was reached.
      The ghost outputs name the searched graph, its start and end nodes and
      the route; `settled` is false only when the search stopped at another
      node equal to the end node, whose cost then need not be final. */
  method SetTarget(m: Math, pf: Pathfinder, currentPos: Vec2, target: Vec2, avoidPlayer: bool, player: Body)
    returns (r: Result<(Pathfinder, real), PathfinderError>, reached: bool,
             ghost searched: Graph, ghost start: NodeId, ghost end: NodeId, ghost route: seq<NodeId>,
             ghost settled: bool)
    requires ValidMath(m) && Ready(m, pf)
    ensures r.Failure? ==> r.error != MissingEdge
    ensures r.Success? ==> Ready(m, r.value.0) && !IsFrozen(r.value.0)
    ensures r.Success? ==> 0.0 <= r.value.1
    ensures r.Success? ==> r.value.0.waiting == pf.waiting && r.value.0.circularMap == pf.circularMap
    ensures r.Success? ==>
      && KeepsNodes(pf.graph, searched) && start in searched.nodes && end in searched.nodes
      && Merged(m, pf.graph, searched, currentPos, GhostIsBlocking, start)
      && Merged(m, pf.graph, searched, target, false, end)
      && Covered(m, searched, Avoiding(pf.obstacles, avoidPlayer, player), |Avoiding(pf.obstacles, avoidPlayer, player)|)
    ensures r.Success? && reached ==>
      && RouteTo(searched, start, end, route)
      && Followed(m, r.value.0, r.value.1, searched, end, route)
      && r.value.0.graph.nodes == pf.graph.nodes
      && multiset(r.value.0.obstacles) == multiset(pf.obstacles)
      && (player !in pf.obstacles ==> r.value.0.obstacles == pf.obstacles)
    ensures r.Success? && reached && settled ==>
      forall w :: RouteTo(searched, start, end, w) ==> WalkLength(searched, route) <= WalkLength(searched, w)
    ensures r.Success? && reached && start == end ==>
      r.value.0.finalNodes == [] && r.value.0.finalPath == [] && r.value.1 == 0.0
    ensures r.Success? && !reached && settled ==> forall w :: !RouteTo(searched, start, end, w)
    ensures r.Success? && !reached ==>
      && r.value.1 == 0.0
      && MapGraph(m, r.value.0.graph, pf.circularMap)
      && r.value.0.finalNodes == [searched.nodes[start]] && |r.value.0.finalPath| == 1
      && r.value.0.obstacles == Avoiding(pf.obstacles, avoidPlayer, player)
      && r.value.0.endNode == pf.endNode && r.value.0.distanceToTarget == pf.distanceToTarget
    ensures !settled ==> end in searched.nodes && exists n :: n in searched.nodes && n != end && NodeEquals(m, searched, n, end)
  {
    searched, start, end, route, settled, reached := pf.graph, 0, 0, [], true, false;
    var obstacles := Avoiding(pf.obstacles, avoidPlayer, player);
    var placed := Place(m, pf.circularMap, pf.graph, currentPos, target, obstacles);
    if placed.Failure? {
      return Failure(placed.error), false, searched, start, end, route, settled;
    }
    var p := placed.value;
    searched, start, end := p.graph, p.start, p.end;
    var st, stop, rank := Search.Search(m, p.graph, p.start, p.end);
    settled := stop.None? || stop == Some(p.end);
    if !settled {
      assert stop.value in searched.nodes && stop.value != end && NodeEquals(m, searched, stop.value, end);
    }
    reached := p.end in st.cameFrom;
    if !reached {
      r := GiveUp(m, pf, currentPos, obstacles, p.graph.nodes[p.start]);
      return;
    }
    r, route := Reach(m, pf, p, st, rank, avoidPlayer, player, currentPos, target);
  }

  /** The state after a search that reached the end node: the route read
      back from the end node's predecessors, then followed. */
  method Reach(m: Math, pf: Pathfinder, p: Placement, st: SearchState, ghost rank: map<NodeId, nat>,
               avoidPlayer: bool, player: Body, ghost currentPos: Vec2, ghost target: Vec2)
    returns (r: Result<(Pathfinder, real), PathfinderError>, ghost route: seq<NodeId>)
    requires ValidMath(m) && Ready(m, pf)
    requires Placed(m, pf.graph, p, currentPos, target, Avoiding(pf.obstacles, avoidPlayer, player))
    requires st.cost.Keys == st.cameFrom.Keys && st.cameFrom.Keys <= p.graph.nodes.Keys
    requires p.start in st.cameFrom && st.cameFrom[p.start] == p.start && st.cost[p.start] == 0.0
    requires p.start in rank && Tree(p.graph, p.start, st.cost, st.cameFrom, rank) && p.end in st.cameFrom
    ensures RouteTo(p.graph, p.start, p.end, route) && WalkLength(p.graph, route) == st.cost[p.end]
    ensures r.Failure? ==> r.error != MissingEdge
    ensures r.Success? ==>
      && Ready(m, r.value.0) && !IsFrozen(r.value.0)
      && r.value.0.waiting == pf.waiting && r.value.0.circularMap == pf.circularMap
      && Followed(m, r.value.0, r.value.1, p.graph, p.end, route)
      && r.value.0.graph.nodes == pf.graph.nodes
      && multiset(r.value.0.obstacles) == multiset(pf.obstacles)
      && (player !in pf.obstacles ==> r.value.0.obstacles == pf.obstacles)
    ensures r.Success? && p.start == p.end ==>
      r.value.0.finalNodes == [] && r.value.0.finalPath == [] && r.value.1 == 0.0
  {
    var path := TracePath(m, p.graph, p.start, st, rank, p.end);
    route := path;
    r := Follow(m, pf, p, Avoiding(pf.obstacles, avoidPlayer, player), avoidPlayer, player, path);
    if r.Success? {
      RemovedAgain(pf.graph, p.graph, p.added, r.value.0.graph);
      AddThenRemoveFirst(pf.obstacles, player);
      if p.start == p.end {
        assert |route| == 1;
      }
    }
  }

  /** `SetTarget` with the path read back as the source writes it, testing
      for the start only after a step back. When the ghost and its target
      merge into the same existing node the path holds that node twice,
      no edge joins a node to itself, and the call fails. */
  method SetTargetAsWritten(m: Math, pf: Pathfinder, currentPos: Vec2, target: Vec2, avoidPlayer: bool, player: Body)
    returns (r: Result<(Pathfinder, real), PathfinderError>, reached: bool, ghost start: NodeId, ghost end: NodeId)
    requires ValidMath(m) && Ready(m, pf)
    ensures r.Success? ==> Ready(m, r.value.0) && !IsFrozen(r.value.0)
    ensures reached && start == end ==>
      && start in pf.graph.nodes
      && CloseEnough(m, pf.graph, currentPos, MergeDist, start)
      && CloseEnough(m, pf.graph, target, MergeDist, start)
      && r == Failure(MissingEdge)
  {
    start, end, reached := 0, 1, false;
    var obstacles := Avoiding(pf.obstacles, avoidPlayer, player);
    var placed := Place(m, pf.circularMap, pf.graph, currentPos, target, obstacles);
    if placed.Failure? {
      return Failure(placed.error), false, start, end;
    }
    var p := placed.value;
    start, end := p.start, p.end;
    var st, stop, rank := Search.Search(m, p.graph, p.start, p.end);
    reached := p.end in st.cameFrom;
    if !reached {
      r := GiveUp(m, pf, currentPos, obstacles, p.graph.nodes[p.start]);
      return;
    }
    var path := TracePathAsWritten(m, p.graph, p.start, st, rank, p.end);
    if start == end {
      assert p.added[..0] == [];
      RepeatedNodeHasNoPathway(m, p.graph, start);
    }
    r := Follow(m, pf, p, obstacles, avoidPlayer, player, path);
  }

  /** `DistanceBetween(current, target, avoidPlayer)`: the length
      `SetTarget` reports, with the waypoints, the pathways and the distance
      to the target put back afterwards. The rest of what `SetTarget`
      changes stays changed: the ghost is no longer frozen, a reached end
      node replaces the previous one, and when no route is found the graph
      is rebuilt and an avoided player stays among the obstacles. */
  method DistanceBetween(m: Math, pf: Pathfinder, current: Vec2, target: Vec2, avoidPlayer: bool, player: Body)
    returns (r: Result<(Pathfinder, real), PathfinderError>, reached: bool,
             ghost searched: Graph, ghost end: NodeId, ghost route: seq<NodeId>)
    requires ValidMath(m) && Ready(m, pf)
    ensures r.Success? ==> Ready(m, r.value.0) && !IsFrozen(r.value.0)
    ensures r.Success? ==> 0.0 <= r.value.1
    ensures r.Success? ==>
      && r.value.0.finalNodes == pf.finalNodes
      && r.value.0.finalPath == pf.finalPath
      && r.value.0.distanceToTarget == pf.distanceToTarget
    ensures r.Success? && reached ==>
      && IsWalk(searched, route) && end in searched.nodes
      && r.value.1 == RouteLength(m, searched, route)
      && r.value.0.endNode == Some(searched.nodes[end])
      && r.value.0.graph.nodes == pf.graph.nodes
    ensures r.Success? && !reached ==>
      && r.value.1 == 0.0
      && r.value.0.endNode == pf.endNode
      && r.value.0.obstacles == Avoiding(pf.obstacles, avoidPlayer, player)
  {
    ghost var start, settled;
    r, reached, searched, start, end, route, settled := SetTarget(m, pf, current, target, avoidPlayer, player);
    if r.Success? {
      var pf' := r.value.0.(finalNodes := pf.finalNodes, finalPath := pf.finalPath, distanceToTarget := pf.distanceToTarget);
      r := Success((pf', r.value.1));
    }
  }

  // ----------------------------------------------------------- Orientation

  /** What a ghost shows of itself to another. */
  function View(pf: Pathfinder, position: Vec2): GhostView {
    GhostView(position, pf.waiting, pf.distanceToTarget)
  }

  /** The waiting rule: near the closest other ghost, when that ghost is not
      waiting, a fleeing ghost waits, and a chasing ghost waits when it is
      farther from its target than the other ghost is from its own. */
  function Waits(m: Math, pf: Pathfinder, currentPos: Vec2, isFleeing: bool, other: GhostView): bool {
    var closeToGhost := Distance(m, other.position, currentPos) < ObstacleClearance;
    if closeToGhost && !other.waiting then
      if isFleeing then !other.waiting else pf.distanceToTarget > other.distanceToTarget
    else false
  }

  /** `Orientation(currentPos, isFleeing)`, with the closest other ghost as
      a parameter: the state with the waiting flag updated, and the
      direction. A frozen or waiting ghost stands still; otherwise it heads
      along the first pathway towards the first waypoint, and without one
      the call fails. */
  function Orientation(m: Math, pf: Pathfinder, currentPos: Vec2, isFleeing: bool, other: GhostView)
    : (r: (Pathfinder, Result<Vec2, PathfinderError>))
    ensures r.0 == pf.(waiting := r.0.waiting)
    ensures r.0.waiting <==>
      && Distance(m, other.position, currentPos) < ObstacleClearance
      && !other.waiting
      && (isFleeing || pf.distanceToTarget > other.distanceToTarget)
    ensures IsFrozen(pf) || r.0.waiting ==> r.1 == Success(Zero)
    ensures r.1.Failure? <==> !IsFrozen(pf) && !r.0.waiting && (pf.finalNodes == [] || pf.finalPath == [])
    ensures r.1.Failure? ==> r.1.error == NoWaypoint
    ensures !IsFrozen(pf) && !r.0.waiting && pf.finalNodes != [] && pf.finalPath != [] ==>
      r.1 == Success(PathwayOrientate(m, pf.finalPath[0], currentPos, pf.finalNodes[0].position))
  {
    var waiting := Waits(m, pf, currentPos, isFleeing, other);
    var pf' := pf.(waiting := waiting);
    if pf.frozen || waiting then (pf', Success(Zero))
    else if pf.finalNodes == [] || pf.finalPath == [] then (pf', Failure(NoWaypoint))
    else (pf', Success(PathwayOrientate(m, pf.finalPath[0], currentPos, pf.finalNodes[0].position)))
  }

  /** A frozen ghost stands still whatever the other ghosts do. */
  lemma FrozenStandsStill(m: Math, pf: Pathfinder, currentPos: Vec2, isFleeing: bool, other: GhostView)
    ensures Orientation(m, Freeze(pf), currentPos, isFleeing, other).1 == Success(Zero)
  {
  }

  /** When one ghost updates after another has, seeing its new state, the
      two never both wait. */
  lemma NeverBothWait(m: Math, a: Pathfinder, aPos: Vec2, aFleeing: bool, b: Pathfinder, bPos: Vec2, bFleeing: bool)
    ensures var a' := Orientation(m, a, aPos, aFleeing, View(b, bPos)).0;
            var b' := Orientation(m, b, bPos, bFleeing, View(a', aPos)).0;
            !(a'.waiting && b'.waiting)
  {
  }

  /** Two chasing ghosts close to each other, the second not waiting: after
      both update, exactly the one farther from its target waits, and
      neither does when their distances are equal. */
  lemma FartherChaserWaits(m: Math, a: Pathfinder, aPos: Vec2, b: Pathfinder, bPos: Vec2)
    requires Distance(m, aPos, bPos) < ObstacleClearance && !b.waiting
    ensures var a' := Orientation(m, a, aPos, false, View(b, bPos)).0;
            var b' := Orientation(m, b, bPos, false, View(a', aPos)).0;
            && (a'.waiting <==> a.distanceToTarget > b.distanceToTarget)
            && (b'.waiting <==> b.distanceToTarget > a.distanceToTarget)
  {
    DistanceFacts(m, aPos, bPos);
  }

  /** After a route of at least one step has been kept, a ghost that is
      neither frozen nor waiting gets a direction: there is a first
      waypoint and a first pathway. */
  lemma RouteGivesDirection(m: Math, pf: Pathfinder, length: real, g: Graph, end: NodeId, route: seq<NodeId>,
                            currentPos: Vec2, isFleeing: bool, other: GhostView)
    requires Followed(m, pf, length, g, end, route) && |route| >= 2
    ensures Orientation(m, pf, currentPos, isFleeing, other).1.Success?
  {
    assert |pf.finalNodes| == |route| - 1;
  }

  // ----------------------------------------------------------- fleeing

  /** The test that ends `GenerateFleeingTarget`'s loop: the drawn position
      is exactly none of the occupied positions, and the route to it is at
      least `FleeingMinDistance` long. */
  predicate FleeingAccepted(position: Vec2, occupied: seq<Vec2>, length: real) {
    position !in occupied && FleeingMinDistance <= length
  }

  /** The draw `GenerateFleeingTarget` settles on among `draws`, each a
      drawn position with the length `DistanceBetween` gives for it: the
      first one accepted, if any. */
  function FirstAccepted(draws: seq<(Vec2, real)>, occupied: seq<Vec2>): (r: Option<nat>)
    ensures r.Some? ==> r.value < |draws| && FleeingAccepted(draws[r.value].0, occupied, draws[r.value].1)
    ensures r.Some? ==> forall j :: 0 <= j < r.value ==> !FleeingAccepted(draws[j].0, occupied, draws[j].1)
    ensures r.None? ==> forall j :: 0 <= j < |draws| ==> !FleeingAccepted(draws[j].0, occupied, draws[j].1)
    decreases |draws|
  {
    if draws == [] then None
    else if FleeingAccepted(draws[0].0, occupied, draws[0].1) then Some(0)
    else
      match FirstAccepted(draws[1..], occupied)
      case None => None
      case Some(i) => Some(i + 1)
  }
}

=== FILE: pathways.dfy ===
/** The two kinds of pathway of the circular map: rings (circles around the
    map centre) and passageways (straight spokes joining a smaller ring to a
    larger one), and the operations common to both. */
module Pathways {
  import opened Wrappers
  import opened Vectors
  import opened Utils

  /** Tolerance of the map's geometric tests. */
  const MapEpsilon: real := 0.0001

  /** `Mathf.PI` as a single-precision float. */
  const Pi: real := 3.14159274

  datatype MapRing = MapRing(radius: real, center: Vec2)

  datatype Passageway = Passageway(smallRing: MapRing, largeRing: MapRing, smallPoint: Vec2, largePoint: Vec2)

  datatype Pathway = RingPath(ring: MapRing) | PassagePath(passage: Passageway)

  datatype PathwayError = NonPositiveRadius | NullRing | SameRings | TooCloseToRing

  /** Every ring built through `NewRing` has a positive radius. */
  predicate ValidRing(ring: MapRing) {
    ring.radius > 0.0
  }

  // ---------------------------------------------------------------- rings

  /** `new MapRing(radius, center)` */
  function NewRing(radius: real, center: Vec2): (r: Result<MapRing, PathwayError>)
    ensures r.Success? <==> radius > 0.0
    ensures r.Failure? ==> r.error == NonPositiveRadius
    ensures r.Success? ==> r.value.radius == radius && r.value.center == center && ValidRing(r.value)
  {
    if radius <= 0.0 then Failure(NonPositiveRadius) else Success(MapRing(radius, center))
  }

  /** `MapRing.Equals`: same centre and same radius, each up to the tolerance. */
  predicate RingEquals(m: Math, a: MapRing, b: MapRing) {
    AreSameVec(m, a.center, b.center) && AreSame(a.radius, b.radius)
  }

  function DistanceFromCenter(m: Math, ring: MapRing, point: Vec2): real {
    Magnitude(m, Minus(point, ring.center))
  }

  /** `MapRing.PointAt`: the point of the ring at a bearing given in degrees. */
  function PointAt(m: Math, ring: MapRing, angle: real): (p: Vec2)
    ensures ValidMath(m) && ValidRing(ring) ==> DistanceFromCenter(m, ring, p) == ring.radius
  {
    var p := Vec2(ring.center.x + ring.radius * m.cosDeg(angle), ring.center.y + ring.radius * m.sinDeg(angle));
    assert Minus(p, ring.center) == Scale(ring.radius, Vec2(m.cosDeg(angle), m.sinDeg(angle)));
    p
  }

  /** `MapRing.IsOn`: within the tolerance of the circle, bound included. */
  predicate RingIsOn(m: Math, ring: MapRing, point: Vec2) {
    Abs(DistanceFromCenter(m, ring, point) - ring.radius) <= MapEpsilon
  }

  /** `MapRing.DistanceFromPath` */
  function RingDistanceFromPath(m: Math, ring: MapRing, target: Vec2): (d: real)
    ensures 0.0 <= d
    ensures RingIsOn(m, ring, target) <==> d <= MapEpsilon
    ensures d == 0.0 <==> DistanceFromCenter(m, ring, target) == ring.radius
  {
    Abs(DistanceFromCenter(m, ring, target) - ring.radius)
  }

  /** `MapRing.ClosestTo`: the point of the ring at the target's bearing. */
  function RingClosestTo(m: Math, ring: MapRing, target: Vec2): (p: Vec2)
    ensures ValidMath(m) && ValidRing(ring) ==> RingIsOn(m, ring, p) && RingDistanceFromPath(m, ring, p) == 0.0
  {
    PointAt(m, ring, m.bearing(Minus(target, ring.center)))
  }

  /** `MapRing.DistanceBetween`: the arc length between two points, the short
      way round (the angle between them) or, when `forceDetour` holds, the
      long way round (360 degrees minus that angle). */
  function RingDistanceBetween(m: Math, ring: MapRing, from: Vec2, to: Vec2, forceDetour: bool): (d: real)
    ensures 0.0 <= d
  {
    var angle := m.angle(Minus(from, ring.center), Minus(to, ring.center));
    var swept := if forceDetour then 360.0 - angle else angle;
    Abs(Pi * swept * ring.radius / 180.0)
  }

  lemma ProductNonNegative(a: real, b: real)
    requires 0.0 <= a && 0.0 <= b
    ensures 0.0 <= a * b
  {
  }

  /** The short and the long way round add up to the circumference, and the
      short way is never longer than half of it. */
  lemma ArcsMakeCircumference(m: Math, ring: MapRing, from: Vec2, to: Vec2)
    requires ValidMath(m) && ValidRing(ring)
    ensures RingDistanceBetween(m, ring, from, to, false) + RingDistanceBetween(m, ring, from, to, true)
      == 2.0 * Pi * ring.radius
    ensures RingDistanceBetween(m, ring, from, to, false) <= Pi * ring.radius
    ensures RingDistanceBetween(m, ring, from, to, false) <= RingDistanceBetween(m, ring, from, to, true)
  {
    var angle := m.angle(Minus(from, ring.center), Minus(to, ring.center));
    var r := ring.radius;
    assert 0.0 <= angle <= 180.0;
    ProductNonNegative(angle, r);
    ProductNonNegative(360.0 - angle, r);
    ProductNonNegative(180.0 - angle, r);
    assert Pi * angle * r / 180.0 == Pi * (angle * r) / 180.0;
    assert Pi * (360.0 - angle) * r / 180.0 == Pi * ((360.0 - angle) * r) / 180.0;
    assert (360.0 - angle) * r == 360.0 * r - angle * r;
    assert (180.0 - angle) * r == 180.0 * r - angle * r;
  }

  /** The arc length does not depend on the order of its end points. */
  lemma RingDistanceSymmetric(m: Math, ring: MapRing, a: Vec2, b: Vec2, forceDetour: bool)
    requires ValidMath(m)
    ensures RingDistanceBetween(m, ring, a, b, forceDetour) == RingDistanceBetween(m, ring, b, a, forceDetour)
  {
    assert m.angle(Minus(a, ring.center), Minus(b, ring.center)) == m.angle(Minus(b, ring.center), Minus(a, ring.center));
  }

  /** The scenario of the unit tests: on the ring of radius 5 around (2, 2),
      the points (2, 7) and (7, 2) are a quarter turn apart, so the short way
      is a quarter and the detour three quarters of the circumference, in
      either order. */
  lemma QuarterTurnScenario(m: Math)
    requires ValidMath(m)
    requires m.angle(Vec2(0.0, 5.0), Vec2(5.0, 0.0)) == 90.0
    ensures var ring := MapRing(5.0, Vec2(2.0, 2.0));
      && RingDistanceBetween(m, ring, Vec2(2.0, 7.0), Vec2(7.0, 2.0), false) == Pi * 5.0 / 2.0
      && RingDistanceBetween(m, ring, Vec2(2.0, 7.0), Vec2(7.0, 2.0), true) == 3.0 * Pi * 5.0 / 2.0
      && RingDistanceBetween(m, ring, Vec2(7.0, 2.0), Vec2(2.0, 7.0), false) == Pi * 5.0 / 2.0
      && RingDistanceBetween(m, ring, Vec2(7.0, 2.0), Vec2(2.0, 7.0), true) == 3.0 * Pi * 5.0 / 2.0
  {
    var ring := MapRing(5.0, Vec2(2.0, 2.0));
    assert Minus(Vec2(2.0, 7.0), ring.center) == Vec2(0.0, 5.0);
    assert Minus(Vec2(7.0, 2.0), ring.center) == Vec2(5.0, 0.0);
    RingDistanceSymmetric(m, ring, Vec2(2.0, 7.0), Vec2(7.0, 2.0), false);
    RingDistanceSymmetric(m, ring, Vec2(2.0, 7.0), Vec2(7.0, 2.0), true);
  }

  /** `MapRing.Direction`: the unit tangent at `position`, counter-clockwise
      unless `clockwise` holds. */
  function RingDirection(m: Math, ring: MapRing, position: Vec2, clockwise: bool): (d: Vec2)
    ensures Dot(d, Minus(position, ring.center)) == 0.0
    ensures ValidMath(m) ==> d == Zero || Magnitude(m, d) == 1.0
    ensures ValidMath(m) && clockwise ==> Dot(d, Perpendicular(Minus(position, ring.center))) <= 0.0
    ensures ValidMath(m) && !clockwise ==> Dot(d, Perpendicular(Minus(position, ring.center))) >= 0.0
  {
    DirectionFacts(m, Minus(position, ring.center), clockwise);
    Tangent(m, Minus(position, ring.center), clockwise)
  }

  function Tangent(m: Math, radial: Vec2, clockwise: bool): Vec2 {
    var unit := Normalized(m, Perpendicular(radial));
    if clockwise then Neg(unit) else unit
  }

  lemma DirectionFacts(m: Math, radial: Vec2, clockwise: bool)
    ensures Dot(Tangent(m, radial, clockwise), radial) == 0.0
    ensures ValidMath(m) ==> Tangent(m, radial, clockwise) == Zero || Magnitude(m, Tangent(m, radial, clockwise)) == 1.0
    ensures ValidMath(m) && clockwise ==> Dot(Tangent(m, radial, clockwise), Perpendicular(radial)) <= 0.0
    ensures ValidMath(m) && !clockwise ==> Dot(Tangent(m, radial, clockwise), Perpendicular(radial)) >= 0.0
  {
    var tangent := Perpendicular(radial);
    var unit := Normalized(m, tangent);
    TangentFacts(m, tangent, radial);
    if clockwise {
      assert Tangent(m, radial, clockwise) == Neg(unit);
      ReversedTangent(m, unit, radial, tangent);
    } else {
      assert Tangent(m, radial, clockwise) == unit;
    }
  }

  /** Reversing a unit tangent keeps it tangent and of unit length, and turns it around. */
  lemma ReversedTangent(m: Math, unit: Vec2, radial: Vec2, tangent: Vec2)
    requires Dot(unit, radial) == 0.0
    requires ValidMath(m) ==> unit == Zero || Magnitude(m, unit) == 1.0
    requires ValidMath(m) ==> Dot(unit, tangent) >= 0.0
    ensures Dot(Neg(unit), radial) == 0.0
    ensures ValidMath(m) ==> Neg(unit) == Zero || Magnitude(m, Neg(unit)) == 1.0
    ensures ValidMath(m) ==> Dot(Neg(unit), tangent) <= 0.0
  {
    NegFacts(unit, radial);
    NegFacts(unit, tangent);
    NegFacts(unit, unit);
    assert Magnitude(m, Neg(unit)) == Magnitude(m, unit);
  }

  lemma NegFacts(u: Vec2, w: Vec2)
    ensures Dot(Neg(u), w) == -Dot(u, w)
    ensures SqrMagnitude(Neg(u)) == SqrMagnitude(u)
    ensures Neg(u) == Zero <==> u == Zero
  {
  }

  lemma TangentFacts(m: Math, tangent: Vec2, radial: Vec2)
    requires tangent == Perpendicular(radial)
    ensures Dot(Normalized(m, tangent), radial) == 0.0
    ensures ValidMath(m) ==> Normalized(m, tangent) == Zero || Magnitude(m, Normalized(m, tangent)) == 1.0
    ensures ValidMath(m) ==> Dot(Normalized(m, tangent), tangent) >= 0.0
  {
    var mag := Magnitude(m, tangent);
    if mag > NormalizeEpsilon {
      var k := 1.0 / mag;
      assert Normalized(m, tangent) == Scale(k, tangent);
      assert Dot(Scale(k, tangent), radial) == k * (-radial.y * radial.x + radial.x * radial.y);
      assert Dot(Scale(k, tangent), tangent) == k * SqrMagnitude(tangent);
      assert 0.0 <= tangent.x * tangent.x && 0.0 <= tangent.y * tangent.y;
      ProductNonNegative(k, SqrMagnitude(tangent));
      if ValidMath(m) {
        NormalizedIsUnit(m, tangent);
      }
    }
  }

  /** `MapRing.Orientate`: travel clockwise exactly when the signed angle from
      the position to the target, seen from the centre, is negative. */
  function RingOrientate(m: Math, ring: MapRing, position: Vec2, target: Vec2): (d: Vec2)
    ensures Dot(d, Minus(position, ring.center)) == 0.0
    ensures ValidMath(m) ==> d == Zero || Magnitude(m, d) == 1.0
    ensures ValidMath(m) && m.signedAngle(Minus(position, ring.center), Minus(target, ring.center)) < 0.0 ==>
      Dot(d, Perpendicular(Minus(position, ring.center))) <= 0.0
    ensures ValidMath(m) && m.signedAngle(Minus(position, ring.center), Minus(target, ring.center)) >= 0.0 ==>
      Dot(d, Perpendicular(Minus(position, ring.center))) >= 0.0
  {
    var clockwise := m.signedAngle(Minus(position, ring.center), Minus(target, ring.center)) < 0.0;
    RingDirection(m, ring, position, clockwise)
  }

  // ----------------------------------------------------------- passageways

  /** `new Passageway(ring1, ring2, position)`: rejects a missing ring, two
      equal rings and a position on the first ring; orders the rings by radius
      and places the end points on both rings at the position's bearing. */
  function NewPassageway(m: Math, ring1: Option<MapRing>, ring2: Option<MapRing>, position: Vec2): (r: Result<Passageway, PathwayError>)
    ensures r.Failure? && r.error == NullRing <==> ring1.None? || ring2.None?
    ensures r.Failure? && r.error == SameRings <==>
      ring1.Some? && ring2.Some? && RingEquals(m, ring1.value, ring2.value)
    ensures r.Failure? && r.error == TooCloseToRing <==>
      ring1.Some? && ring2.Some? && !RingEquals(m, ring1.value, ring2.value) &&
      Abs(Distance(m, position, ring1.value.center) - ring1.value.radius) < MapEpsilon
    ensures r.Failure? ==> r.error != NonPositiveRadius
    ensures r.Success? ==>
      && multiset{r.value.smallRing, r.value.largeRing} == multiset{ring1.value, ring2.value}
      && r.value.smallRing.radius <= r.value.largeRing.radius
      && (ring1.value.radius != ring2.value.radius ==> r.value.smallRing.radius < r.value.largeRing.radius)
    ensures r.Success? && ValidMath(m) && ValidRing(ring1.value) && ValidRing(ring2.value) ==>
      RingIsOn(m, r.value.smallRing, r.value.smallPoint) && RingIsOn(m, r.value.largeRing, r.value.largePoint)
  {
    if ring1.None? || ring2.None? then Failure(NullRing)
    else if RingEquals(m, ring1.value, ring2.value) then Failure(SameRings)
    else if Abs(Distance(m, position, ring1.value.center) - ring1.value.radius) < MapEpsilon then Failure(TooCloseToRing)
    else
      var small := if ring1.value.radius < ring2.value.radius then ring1.value else ring2.value;
      var large := if ring1.value.radius < ring2.value.radius then ring2.value else ring1.value;
      var angle := m.signedAngle(Right, Minus(position, small.center));
      Success(Passageway(small, large, PointAt(m, small, angle), PointAt(m, large, angle)))
  }

  /** `Passageway.Equals`: equal rings and end points, up to the tolerance. */
  predicate PassageEquals(m: Math, a: Passageway, b: Passageway) {
    && RingEquals(m, a.smallRing, b.smallRing)
    && RingEquals(m, a.largeRing, b.largeRing)
    && AreSameVec(m, a.smallPoint, b.smallPoint)
    && AreSameVec(m, a.largePoint, b.largePoint)
  }

  /** `Passageway.Length` */
  function PassageLength(m: Math, p: Passageway): (len: real)
    ensures ValidMath(m) ==> 0.0 <= len
  {
    DistanceFacts(m, p.smallPoint, p.largePoint);
    Distance(m, p.smallPoint, p.largePoint)
  }

  /** `Passageway.IsOn`: the detour through the point is no longer than the
      passage, up to the tolerance. */
  predicate PassageIsOn(m: Math, p: Passageway, position: Vec2) {
    Abs(Distance(m, position, p.smallPoint) + Distance(m, position, p.largePoint) - PassageLength(m, p)) < MapEpsilon
  }

  lemma PassageEndsAreOn(m: Math, p: Passageway)
    ensures ValidMath(m) ==> PassageIsOn(m, p, p.smallPoint) && PassageIsOn(m, p, p.largePoint)
  {
    if ValidMath(m) {
      DistanceToSelf(m, p.smallPoint);
      DistanceToSelf(m, p.largePoint);
      DistanceFacts(m, p.smallPoint, p.largePoint);
    }
  }

  /** A point at distance zero from a point of the passage is on it. */
  lemma AtZeroDistanceIsOn(m: Math, p: Passageway, a: Vec2, b: Vec2)
    ensures ValidMath(m) && Distance(m, a, b) == 0.0 && PassageIsOn(m, p, b) ==> PassageIsOn(m, p, a)
  {
    if ValidMath(m) {
      ZeroDistanceMeansEqual(m, a, b);
    }
  }

  /** `Passageway.Projection`: the component of `vector` along `axis`. */
  function Projection(m: Math, vector: Vec2, axis: Vec2): Vec2 {
    var unit := Normalized(m, axis);
    Scale(Dot(unit, vector), unit)
  }

  /** `Passageway.ClosestTo`: the projection of the target on the passage
      when it lies on it, otherwise the end point nearer the projection. */
  function PassageClosestTo(m: Math, p: Passageway, target: Vec2): (q: Vec2)
    ensures ValidMath(m) ==> PassageIsOn(m, p, q)
    ensures q != p.smallPoint && q != p.largePoint ==>
      q == Plus(p.smallPoint, Projection(m, Minus(target, p.smallPoint), Minus(p.largePoint, p.smallPoint)))
  {
    var projected := Plus(p.smallPoint, Projection(m, Minus(target, p.smallPoint), Minus(p.largePoint, p.smallPoint)));
    if !PassageIsOn(m, p, projected) then
      PassageEndsAreOn(m, p);
      if Distance(m, projected, p.smallPoint) < Distance(m, projected, p.largePoint) then p.smallPoint else p.largePoint
    else projected
  }

  /** `Passageway.DistanceFromPath` */
  function PassageDistanceFromPath(m: Math, p: Passageway, target: Vec2): (d: real)
    ensures ValidMath(m) ==> 0.0 <= d
    ensures ValidMath(m) && d == 0.0 ==> PassageIsOn(m, p, target)
  {
    var q := PassageClosestTo(m, p, target);
    DistanceFacts(m, target, q);
    AtZeroDistanceIsOn(m, p, target, q);
    Distance(m, target, q)
  }

  /** `Passageway.DistanceBetween`: the straight distance between the
      points' projections on the passage. */
  function PassageDistanceBetween(m: Math, p: Passageway, a: Vec2, b: Vec2): (d: real)
    ensures ValidMath(m) ==> 0.0 <= d
  {
    DistanceFacts(m, PassageClosestTo(m, p, a), PassageClosestTo(m, p, b));
    Distance(m, PassageClosestTo(m, p, a), PassageClosestTo(m, p, b))
  }

  /** `Passageway.Orientate`: the unit direction of the passage, turned
      around when the target lies behind. */
  function PassageOrientate(m: Math, p: Passageway, position: Vec2, target: Vec2): (d: Vec2)
    ensures var axis := Normalized(m, Minus(p.largePoint, p.smallPoint)); d == axis || d == Neg(axis)
    ensures Dot(Minus(target, position), d) >= 0.0
    ensures Dot(Minus(target, position), d) == 0.0 ==>
      d == Neg(Normalized(m, Minus(p.largePoint, p.smallPoint)))
  {
    var axis := Normalized(m, Minus(p.largePoint, p.smallPoint));
    DotNeg(Minus(target, position), axis);
    if Dot(Minus(target, position), axis) > 0.0 then axis else Neg(axis)
  }

  // -------------------------------------------------------------- pathways

  function PathwayDistanceFromPath(m: Math, pw: Pathway, target: Vec2): (d: real)
    ensures ValidMath(m) ==> 0.0 <= d
  {
    match pw
    case RingPath(ring) => RingDistanceFromPath(m, ring, target)
    case PassagePath(p) => PassageDistanceFromPath(m, p, target)
  }

  predicate PathwayIsOn(m: Math, pw: Pathway, point: Vec2) {
    match pw
    case RingPath(ring) => RingIsOn(m, ring, point)
    case PassagePath(p) => PassageIsOn(m, p, point)
  }

  function PathwayClosestTo(m: Math, pw: Pathway, target: Vec2): (q: Vec2)
    ensures ValidMath(m) && (pw.RingPath? ==> ValidRing(pw.ring)) ==> PathwayIsOn(m, pw, q)
  {
    match pw
    case RingPath(ring) => RingClosestTo(m, ring, target)
    case PassagePath(p) => PassageClosestTo(m, p, target)
  }

  function PathwayDistanceBetween(m: Math, pw: Pathway, a: Vec2, b: Vec2): (d: real)
    ensures ValidMath(m) ==> 0.0 <= d
  {
    match pw
    case RingPath(ring) => RingDistanceBetween(m, ring, a, b, false)
    case PassagePath(p) => PassageDistanceBetween(m, p, a, b)
  }

  /** The distance along a pathway does not depend on the order of its end points. */
  lemma PathwayDistanceSymmetric(m: Math, pw: Pathway, a: Vec2, b: Vec2)
    requires ValidMath(m)
    ensures PathwayDistanceBetween(m, pw, a, b) == PathwayDistanceBetween(m, pw, b, a)
  {
    match pw {
      case RingPath(ring) =>
        RingDistanceSymmetric(m, ring, a, b, false);
      case PassagePath(p) =>
        DistanceFacts(m, PassageClosestTo(m, p, a), PassageClosestTo(m, p, b));
    }
  }

  function PathwayOrientate(m: Math, pw: Pathway, position: Vec2, target: Vec2): Vec2 {
    match pw
    case RingPath(ring) => RingOrientate(m, ring, position, target)
    case PassagePath(p) => PassageOrientate(m, p, position, target)
  }

  /** `Equals` on pathways: a ring never equals a passageway. */
  predicate PathwayEquals(m: Math, a: Pathway, b: Pathway) {
    match (a, b)
    case (RingPath(r1), RingPath(r2)) => RingEquals(m, r1, r2)
    case (PassagePath(p1), PassagePath(p2)) => PassageEquals(m, p1, p2)
    case _ => false
  }

  lemma PathwayEqualsReflexiveSymmetric(m: Math, a: Pathway, b: Pathway)
    requires ValidMath(m)
    ensures PathwayEquals(m, a, a)
    ensures PathwayEquals(m, a, b) <==> PathwayEquals(m, b, a)
  {
    match a {
      case RingPath(r) =>
        AreSameVecReflexiveSymmetric(m, r.center, r.center);
        if b.RingPath? {
          AreSameVecReflexiveSymmetric(m, r.center, b.ring.center);
        }
      case PassagePath(p) =>
        AreSameVecReflexiveSymmetric(m, p.smallRing.center, p.smallRing.center);
        AreSameVecReflexiveSymmetric(m, p.largeRing.center, p.largeRing.center);
        AreSameVecReflexiveSymmetric(m, p.smallPoint, p.smallPoint);
        AreSameVecReflexiveSymmetric(m, p.largePoint, p.largePoint);
        if b.PassagePath? {
          AreSameVecReflexiveSymmetric(m, p.smallRing.center, b.passage.smallRing.center);
          AreSameVecReflexiveSymmetric(m, p.largeRing.center, b.passage.largeRing.center);
          AreSameVecReflexiveSymmetric(m, p.smallPoint, b.passage.smallPoint);
          AreSameVecReflexiveSymmetric(m, p.largePoint, b.passage.largePoint);
        }
    }
  }
}

=== FILE: priority_list.dfy ===
/** The sorted list that serves as the search frontier: a list kept in
    ascending order of a caller-supplied score, re-sorted after every change.
    Elements are modelled as references: `None` stands for null. */
module PriorityLists {
  import opened Wrappers
  import opened Sorting

  datatype QueueError = EmptyQueue

  datatype PriorityList<!T> = PriorityList(elements: seq<T>, sorter: T -> real)

  function Lift<T>(s: seq<T>): (r: seq<Option<T>>)
    ensures |r| == |s|
    ensures NonNull(r) == s
  {
    if s == [] then []
    else
      assert Lift(s[1..]) == Lift(s[1..]);
      [Some(s[0])] + Lift(s[1..])
  }

  /** `SortQueue`: a stable sort by the sorter with the nulls removed. The
      original sorts first and removes nulls afterwards;
      `SortQueueMatchesSortThenRemove` shows the two orders agree. */
  function SortQueue<T>(elements: seq<Option<T>>, sorter: T -> real): seq<T> {
    SortBy(NonNull(elements), sorter)
  }

  lemma SortQueueMatchesSortThenRemove<T>(elements: seq<Option<T>>, sorter: T -> real, nullScore: real)
    ensures NonNull(SortBy(elements, NullableKey(sorter, nullScore))) == SortQueue(elements, sorter)
  {
    SortThenDropNulls(elements, sorter, nullScore);
  }

  lemma SortQueueFacts<T>(elements: seq<Option<T>>, sorter: T -> real)
    ensures Sorted(SortQueue(elements, sorter), sorter)
    ensures multiset(SortQueue(elements, sorter)) == multiset(NonNull(elements))
    ensures forall k :: WithKey(SortQueue(elements, sorter), sorter, k) == WithKey(NonNull(elements), sorter, k)
  {
    SortBySorted(NonNull(elements), sorter);
    forall k {
      SortByStable(NonNull(elements), sorter, k);
    }
  }

  /** `new PriorityList(collection, sorter)`: the non-null elements of the
      collection, sorted, with equal scores in collection order. */
  function Create<T>(collection: seq<Option<T>>, sorter: T -> real): (q: PriorityList<T>)
    ensures q.sorter == sorter
    ensures Sorted(q.elements, sorter)
    ensures multiset(q.elements) == multiset(NonNull(collection))
    ensures forall k :: WithKey(q.elements, sorter, k) == WithKey(NonNull(collection), sorter, k)
  {
    SortQueueFacts(collection, sorter);
    PriorityList(SortQueue(collection, sorter), sorter)
  }

  lemma AddToSorted<T>(s: seq<T>, element: Option<T>, sorter: T -> real)
    ensures Sorted(s, sorter) ==>
      SortQueue(Lift(s) + [element], sorter) == if element.Some? then Insert(element.value, s, sorter) else s
  {
    NonNullAppend(Lift(s), [element]);
    assert NonNull([element]) == if element.Some? then [element.value] else [];
    if Sorted(s, sorter) {
      SortBySortedIsIdentity(s, sorter);
      if element.Some? {
        SortBySnoc(s, element.value, sorter);
      } else {
        assert s + [] == s;
      }
    }
  }

  lemma TailOfSorted<T>(s: seq<T>, sorter: T -> real)
    requires s != []
    ensures Sorted(s, sorter) ==> SortQueue([None] + Lift(s[1..]), sorter) == s[1..]
  {
    var rest := s[1..];
    NonNullAppend([None], Lift(rest));
    assert NonNull<T>([None]) == [];
    assert NonNull([None] + Lift(rest)) == rest;
    if Sorted(s, sorter) {
      forall i, j | 0 <= i < j < |rest|
        ensures sorter(rest[i]) <= sorter(rest[j])
      {
        assert rest[i] == s[i + 1] && rest[j] == s[j + 1];
      }
      SortBySortedIsIdentity(rest, sorter);
    }
  }

  /** `Add(element)` */
  function Add<T>(q: PriorityList<T>, element: Option<T>): (r: PriorityList<T>)
    ensures r.sorter == q.sorter
    ensures Sorted(r.elements, q.sorter)
    ensures multiset(r.elements) ==
      multiset(q.elements) + if element.Some? then multiset{element.value} else multiset{}
    ensures element.Some? && Sorted(q.elements, q.sorter) ==>
      r.elements == Insert(element.value, q.elements, q.sorter)
    ensures element.None? && Sorted(q.elements, q.sorter) ==> r == q
  {
    var all := Lift(q.elements) + [element];
    NonNullAppend(Lift(q.elements), [element]);
    assert NonNull([element]) == if element.Some? then [element.value] else [];
    SortQueueFacts(all, q.sorter);
    AddToSorted(q.elements, element, q.sorter);
    PriorityList(SortQueue(all, q.sorter), q.sorter)
  }

  /** `Add(collection)` */
  function AddAll<T>(q: PriorityList<T>, collection: seq<Option<T>>): (r: PriorityList<T>)
    ensures r.sorter == q.sorter
    ensures Sorted(r.elements, q.sorter)
    ensures multiset(r.elements) == multiset(q.elements) + multiset(NonNull(collection))
  {
    var all := Lift(q.elements) + collection;
    NonNullAppend(Lift(q.elements), collection);
    SortQueueFacts(all, q.sorter);
    PriorityList(SortQueue(all, q.sorter), q.sorter)
  }

  /** `Peek()`: the first element; indexing an empty list fails. */
  function Peek<T>(q: PriorityList<T>): (r: Result<T, QueueError>)
    ensures r.Failure? <==> q.elements == []
    ensures r.Success? ==> r.value in q.elements
    ensures r.Success? && Sorted(q.elements, q.sorter) ==>
      forall i :: 0 <= i < |q.elements| ==> q.sorter(r.value) <= q.sorter(q.elements[i])
  {
    if q.elements == [] then Failure(EmptyQueue) else Success(q.elements[0])
  }

  /** `Remove()`: overwrites the head with null and re-sorts, which drops the
      head; on an empty list nothing happens. */
  function Remove<T>(q: PriorityList<T>): (r: PriorityList<T>)
    ensures q.elements == [] ==> r == q
    ensures r.sorter == q.sorter
    ensures Sorted(r.elements, q.sorter)
    ensures q.elements != [] ==> multiset(r.elements) == multiset(q.elements) - multiset{q.elements[0]}
    ensures q.elements != [] && Sorted(q.elements, q.sorter) ==> r.elements == q.elements[1..]
  {
    if q.elements == [] then q
    else
      RemoveHead(q.elements, q.sorter);
      PriorityList(SortQueue([None] + Lift(q.elements[1..]), q.sorter), q.sorter)
  }

  /** Nulling the head and re-sorting leaves the other elements, sorted; in
      their old order when they were sorted already. */
  lemma RemoveHead<T>(s: seq<T>, sorter: T -> real)
    requires s != []
    ensures var r := SortQueue([None] + Lift(s[1..]), sorter);
      && Sorted(r, sorter)
      && multiset(r) == multiset(s) - multiset{s[0]}
      && (Sorted(s, sorter) ==> r == s[1..])
  {
    var rest := s[1..];
    NonNullCons(None, Lift(rest));
    assert NonNull([None] + Lift(rest)) == rest;
    SortBySorted(rest, sorter);
    assert s == [s[0]] + rest;
    assert multiset(s) == multiset{s[0]} + multiset(rest);
    TailOfSorted(s, sorter);
  }

  /** `Count()` */
  function Count<T>(q: PriorityList<T>): nat {
    |q.elements|
  }

  /** The score of the unit tests: the absolute value. */
  function AbsScore(x: int): real {
    if x < 0 then (-x) as real else x as real
  }

  /** In a sorted sequence, an element whose key is smaller than every other
      element's comes first. */
  lemma UniqueMinimumFirst<T>(e: seq<T>, x: T, others: multiset<T>, key: T -> real)
    requires Sorted(e, key) && multiset(e) == multiset{x} + others
    requires forall y :: y in others ==> key(x) < key(y)
    ensures e != [] && e[0] == x
  {
    assert x in multiset(e);
    var k :| 0 <= k < |e| && e[k] == x;
    assert e[0] in multiset(e);
    assert key(e[0]) <= key(x) by {
      if k > 0 { assert key(e[0]) <= key(e[k]); }
    }
  }

  /** What follows the head of a sorted sequence is sorted and holds the
      other elements. */
  lemma RestAfterHead<T>(e: seq<T>, x: T, others: multiset<T>, key: T -> real)
    requires Sorted(e, key) && multiset(e) == multiset{x} + others
    requires e != [] && e[0] == x
    ensures Sorted(e[1..], key) && multiset(e[1..]) == others
  {
    SortedTail(e, key);
    assert e == [x] + e[1..];
    assert multiset(e[1..]) == multiset(e) - multiset{x};
    assert (multiset{x} + others) - multiset{x} == others;
  }

  /** Any sorted arrangement of 2, -3, 7 and larger values under the absolute
      value starts with 2, -3, 7. */
  lemma AbsoluteValueHeads(e: seq<int>, rest: multiset<int>)
    requires Sorted(e, AbsScore)
    requires multiset(e) == multiset{2} + (multiset{-3} + (multiset{7} + rest))
    requires forall y :: y in rest ==> AbsScore(y) > 7.0
    ensures |e| >= 3 && e[0] == 2 && e[1] == -3 && e[2] == 7
  {
    UniqueMinimumFirst(e, 2, multiset{-3} + (multiset{7} + rest), AbsScore);
    RestAfterHead(e, 2, multiset{-3} + (multiset{7} + rest), AbsScore);
    UniqueMinimumFirst(e[1..], -3, multiset{7} + rest, AbsScore);
    RestAfterHead(e[1..], -3, multiset{7} + rest, AbsScore);
    UniqueMinimumFirst(e[1..][1..], 7, rest, AbsScore);
  }

  /** Peeking and removing on a list whose elements are `s`, in that order. */
  lemma PeekRemoveSorted<T>(q: PriorityList<T>, s: seq<T>)
    requires q.elements == s && |s| >= 3 && Sorted(s, q.sorter)
    ensures && Peek(q) == Success(s[0])
            && Peek(Remove(q)) == Success(s[1])
            && Peek(Remove(Remove(q))) == Success(s[2])
  {
    var q1 := Remove(q);
    assert q1.elements == s[1..];
    assert q1.elements[0] == s[1];
  }

  /** The values of the unit tests' scenario, split into the three smallest
      by absolute value and the rest. */
  lemma ScenarioValues(values: seq<int>) returns (rest: multiset<int>)
    requires values == [2, 7, -3, 9, 11, -15]
    ensures multiset(values) == multiset{2} + (multiset{-3} + (multiset{7} + rest))
    ensures forall y :: y in rest ==> AbsScore(y) > 7.0
  {
    var larger := values[3..];
    rest := multiset(larger);
    assert values == [2] + ([7] + ([-3] + larger));
    assert multiset{7} + (multiset{-3} + rest) == multiset{-3} + (multiset{7} + rest);
    forall y | y in rest
      ensures AbsScore(y) > 7.0
    {
      assert y in larger;
    }
  }

  /** The scenario of the unit tests: with the absolute value as score, the
      list built from 2, 7, -3, 9, 11, -15 yields 2, then -3, then 7. */
  lemma AbsoluteValueScenario(values: seq<int>, q: PriorityList<int>)
    requires values == [2, 7, -3, 9, 11, -15]
    requires q == Create(Lift(values), AbsScore)
    ensures && Peek(q) == Success(2)
            && Peek(Remove(q)) == Success(-3)
            && Peek(Remove(Remove(q))) == Success(7)
  {
    var rest := ScenarioValues(values);
    AbsoluteValueHeads(q.elements, rest);
    PeekRemoveSorted(q, q.elements);
  }
}

=== FILE: search.dfy ===
/** The search behind `SetTarget`: a uniform-cost search over the routing
    graph from the start node. The frontier is a priority list ordered by
    the cost so far of its nodes; blocking nodes are never entered; the
    search stops once it takes a node equal to the end node off the
    frontier. Then the route is read back along the recorded predecessors. */
module Search {
  import opened Wrappers
  import opened Vectors
  import opened Utils
  import opened Sorting
  import opened PriorityLists
  import opened Pathways
  import opened Graphs
  import opened GraphEdits

  /** A walk through the graph: consecutive nodes are adjacent. */
  predicate IsWalk(g: Graph, w: seq<NodeId>) {
    && |w| >= 1
    && (forall i :: 0 <= i < |w| ==> w[i] in g.nodes)
    && (forall i :: 0 <= i < |w| - 1 ==> Adjacent(g, w[i], w[i + 1]))
  }

  /** The walk enters no blocking node; the node it starts from does not count. */
  predicate Passable(g: Graph, w: seq<NodeId>)
    requires IsWalk(g, w)
  {
    forall i :: 1 <= i < |w| ==> !g.nodes[w[i]].blocking
  }

  /** The sum of the lengths of the edges along the walk. */
  function WalkLength(g: Graph, w: seq<NodeId>): real
    requires IsWalk(g, w)
    decreases |w|
  {
    if |w| == 1 then 0.0
    else
      assert IsWalk(g, w[1..]) by {
        forall i | 0 <= i < |w[1..]| - 1
          ensures Adjacent(g, w[1..][i], w[1..][i + 1])
        {
          assert w[1..][i] == w[i + 1] && w[1..][i + 1] == w[i + 2];
        }
      }
      g.edges[(w[0], w[1])].length + WalkLength(g, w[1..])
  }

  /** `w` is a route the search may take from `start` to `t`. */
  ghost predicate RouteTo(g: Graph, start: NodeId, t: NodeId, w: seq<NodeId>) {
    IsWalk(g, w) && Passable(g, w) && w[0] == start && w[|w| - 1] == t
  }

  /** The cost of `t` is no larger than the length of any route to it. */
  ghost predicate Shortest(g: Graph, start: NodeId, cost: map<NodeId, real>, t: NodeId) {
    t in cost && forall w :: RouteTo(g, start, t, w) ==> cost[t] <= WalkLength(g, w)
  }

  lemma {:induction false} WalkLengthNonNegative(m: Math, g: Graph, w: seq<NodeId>)
    requires Valid(m, g) && IsWalk(g, w)
    ensures 0.0 <= WalkLength(g, w)
    decreases |w|
  {
    if |w| > 1 {
      assert EdgeOk(m, g, (w[0], w[1]));
      WalkLengthNonNegative(m, g, w[1..]);
    }
  }

  /** Extending a walk by one edge adds that edge's length. */
  lemma {:induction false} WalkLengthSnoc(g: Graph, w: seq<NodeId>, v: NodeId)
    requires IsWalk(g, w) && v in g.nodes && Adjacent(g, w[|w| - 1], v)
    ensures IsWalk(g, w + [v])
    ensures WalkLength(g, w + [v]) == WalkLength(g, w) + g.edges[(w[|w| - 1], v)].length
    decreases |w|
  {
    var w' := w + [v];
    forall i | 0 <= i < |w'| - 1
      ensures Adjacent(g, w'[i], w'[i + 1])
    {
      if i < |w| - 1 {
        assert w'[i] == w[i] && w'[i + 1] == w[i + 1];
      }
    }
    if |w| > 1 {
      assert w'[1..] == w[1..] + [v];
      WalkLengthSnoc(g, w[1..], v);
    }
  }

  /** The search's bookkeeping: the cost so far and the predecessor of every
      reached node, and the frontier. */
  datatype SearchState = SearchState(cost: map<NodeId, real>, cameFrom: map<NodeId, NodeId>, frontier: seq<NodeId>)

  /** The frontier's sorter: the cost so far, or 0 for a node without one. */
  function CostOf(cost: map<NodeId, real>): NodeId -> real {
    n => if n in cost then cost[n] else 0.0
  }

  /** Going through `current` is a better way to reach `neighbor`: it is
      passable and was not reached yet or only at a higher cost. */
  predicate Improves(g: Graph, st: SearchState, current: NodeId, neighbor: NodeId)
    requires current in st.cost && (current, neighbor) in g.edges && neighbor in g.nodes
  {
    && !g.nodes[neighbor].blocking
    && (neighbor !in st.cameFrom
        || st.cost[current] + g.edges[(current, neighbor)].length < CostOf(st.cost)(neighbor))
  }

  /** `r` is `st` after one relaxation of the edge from `current` to
      `neighbor`: unchanged unless that edge improves the neighbour, which
      then gets the new cost, `current` as its predecessor and a place on
      the frontier, kept sorted by cost. */
  ghost predicate Relaxation(g: Graph, st: SearchState, current: NodeId, neighbor: NodeId, r: SearchState) {
    && current in st.cost && (current, neighbor) in g.edges && neighbor in g.nodes
    && (!Improves(g, st, current, neighbor) ==> r == st)
    && (Improves(g, st, current, neighbor) ==>
          && r.cost == st.cost[neighbor := st.cost[current] + g.edges[(current, neighbor)].length]
          && r.cameFrom == st.cameFrom[neighbor := current]
          && multiset(r.frontier) == multiset(st.frontier) + multiset{neighbor}
          && Sorted(r.frontier, CostOf(r.cost)))
  }

  /** One turn of the inner loop of the search. */
  function Relax(g: Graph, st: SearchState, current: NodeId, neighbor: NodeId): (r: SearchState)
    requires current in st.cost && (current, neighbor) in g.edges && neighbor in g.nodes
    ensures !Improves(g, st, current, neighbor) ==> r == st
    ensures Improves(g, st, current, neighbor) ==>
      && r.cost == st.cost[neighbor := st.cost[current] + g.edges[(current, neighbor)].length]
      && r.cameFrom == st.cameFrom[neighbor := current]
      && multiset(r.frontier) == multiset(st.frontier) + multiset{neighbor}
      && Sorted(r.frontier, CostOf(r.cost))
  {
    if Improves(g, st, current, neighbor) then
      var cost := st.cost[neighbor := st.cost[current] + g.edges[(current, neighbor)].length];
      var frontier := Add(PriorityList(st.frontier, CostOf(cost)), Some(neighbor));
      SearchState(cost, st.cameFrom[neighbor := current], frontier.elements)
    else
      st
  }

  /** The entries kept for the reached nodes. */
  ghost predicate Bookkept(m: Math, g: Graph, start: NodeId, st: SearchState) {
    && Valid(m, g) && start in g.nodes
    && st.cost.Keys == st.cameFrom.Keys && st.cameFrom.Keys <= g.nodes.Keys
    && (forall i :: 0 <= i < |st.frontier| ==> st.frontier[i] in st.cameFrom)
    && Sorted(st.frontier, CostOf(st.cost))
    && start in st.cameFrom && st.cameFrom[start] == start && st.cost[start] == 0.0
    && (forall v :: v in st.cost ==> 0.0 <= st.cost[v])
  }

  /** Every reached node not taken off the frontier yet waits on it. */
  ghost predicate Pending(st: SearchState, taken: set<NodeId>) {
    forall v :: v in st.cameFrom && v !in taken ==> v in st.frontier
  }

  /** The taken nodes cost no more than `level`, the waiting ones no less. */
  ghost predicate Levels(st: SearchState, taken: set<NodeId>, level: real) {
    && (forall s :: s in taken ==> s in st.cost && st.cost[s] <= level)
    && (forall i :: 0 <= i < |st.frontier| ==> st.frontier[i] in st.cost && level <= st.cost[st.frontier[i]])
  }

  ghost predicate AllShortest(g: Graph, start: NodeId, cost: map<NodeId, real>, taken: set<NodeId>) {
    forall s {:trigger Shortest(g, start, cost, s)} :: s in taken ==> Shortest(g, start, cost, s)
  }

  /** The nodes already taken off the frontier are the keys of `rank`; each
      of them has its shortest cost. */
  ghost predicate Progress(g: Graph, start: NodeId, st: SearchState, rank: map<NodeId, nat>, level: real) {
    && rank.Keys <= st.cameFrom.Keys
    && Pending(st, rank.Keys)
    && (start !in rank ==> rank == map[] && st.frontier == [start])
    && Levels(st, rank.Keys, level)
    && AllShortest(g, start, st.cost, rank.Keys)
  }

  /** `v`, unless it is the start, was reached from a taken node along an
      edge into it, at that node's cost plus the edge's length, and if `v`
      was taken, it was taken after its predecessor. */
  ghost predicate TreeEdge(g: Graph, start: NodeId, cost: map<NodeId, real>, cameFrom: map<NodeId, NodeId>,
                           rank: map<NodeId, nat>, v: NodeId) {
    v in cameFrom && v != start ==>
      && cameFrom[v] in rank && cameFrom[v] in cost && v in cost
      && (cameFrom[v], v) in g.edges && v in g.nodes && !g.nodes[v].blocking
      && cost[v] == cost[cameFrom[v]] + g.edges[(cameFrom[v], v)].length
      && (v in rank ==> rank[cameFrom[v]] < rank[v])
  }

  /** The predecessors form a tree rooted at the start. */
  ghost predicate Tree(g: Graph, start: NodeId, cost: map<NodeId, real>, cameFrom: map<NodeId, NodeId>,
                       rank: map<NodeId, nat>) {
    && (forall s :: s in rank ==> rank[s] < |rank|)
    && forall v {:trigger TreeEdge(g, start, cost, cameFrom, rank, v)} :: TreeEdge(g, start, cost, cameFrom, rank, v)
  }

  /** The edge from `s` to `v` cannot improve the cost of `v` any more. */
  ghost predicate RelaxedEdge(g: Graph, cost: map<NodeId, real>, s: NodeId, v: NodeId) {
    s in cost && (s, v) in g.edges && v in g.nodes && !g.nodes[v].blocking ==>
      v in cost && cost[v] <= cost[s] + g.edges[(s, v)].length
  }

  ghost predicate AllRelaxed(g: Graph, cost: map<NodeId, real>, done: set<NodeId>) {
    forall s, v {:trigger RelaxedEdge(g, cost, s, v)} :: s in done ==> RelaxedEdge(g, cost, s, v)
  }

  /** The state while the neighbours of `x`, just taken off the frontier, are relaxed. */
  ghost predicate Relaxing(m: Math, g: Graph, start: NodeId, st: SearchState, rank: map<NodeId, nat>, x: NodeId) {
    && x in rank && x in st.cost
    && Bookkept(m, g, start, st)
    && Progress(g, start, st, rank, st.cost[x])
    && Tree(g, start, st.cost, st.cameFrom, rank)
    && AllRelaxed(g, st.cost, rank.Keys - {x})
  }

  /** A route from the start ends at a taken node within the route's length,
      or the frontier holds a node whose cost is within it. */
  lemma {:induction false} ReachBound(m: Math, g: Graph, start: NodeId, st: SearchState, rank: map<NodeId, nat>,
                                      level: real, w: seq<NodeId>)
    requires Bookkept(m, g, start, st) && Progress(g, start, st, rank, level)
    requires AllRelaxed(g, st.cost, rank.Keys) && start in rank
    requires IsWalk(g, w) && Passable(g, w) && w[0] == start
    ensures w[|w| - 1] in rank ==> st.cost[w[|w| - 1]] <= WalkLength(g, w)
    ensures w[|w| - 1] !in rank ==>
      exists i :: 0 <= i < |st.frontier| && st.cost[st.frontier[i]] <= WalkLength(g, w)
    decreases |w|
  {
    var v := w[|w| - 1];
    if v in rank {
      assert Shortest(g, start, st.cost, v);
      assert RouteTo(g, start, v, w);
    } else if |w| > 1 {
      var w' := w[..|w| - 1];
      var p := w'[|w'| - 1];
      assert w == w' + [v];
      assert Adjacent(g, p, v) by {
        assert p == w[|w| - 2];
      }
      WalkLengthSnoc(g, w', v);
      assert EdgeOk(m, g, (p, v));
      assert Passable(g, w') by {
        forall i | 1 <= i < |w'|
          ensures !g.nodes[w'[i]].blocking
        {
          assert w'[i] == w[i];
        }
      }
      ReachBound(m, g, start, st, rank, level, w');
      if p in rank {
        assert RelaxedEdge(g, st.cost, p, v);
        assert v in st.frontier;
        var i :| 0 <= i < |st.frontier| && st.frontier[i] == v;
        assert st.cost[st.frontier[i]] <= WalkLength(g, w);
      }
    }
  }

  /** The node at the head of the frontier has its shortest cost. */
  lemma PopShortest(m: Math, g: Graph, start: NodeId, st: SearchState, rank: map<NodeId, nat>, level: real)
    requires Bookkept(m, g, start, st) && Progress(g, start, st, rank, level)
    requires AllRelaxed(g, st.cost, rank.Keys) && st.frontier != []
    ensures Shortest(g, start, st.cost, st.frontier[0])
  {
    var x := st.frontier[0];
    if x in rank {
      assert Shortest(g, start, st.cost, x);
    } else {
      forall w | RouteTo(g, start, x, w)
        ensures st.cost[x] <= WalkLength(g, w)
      {
        if start in rank {
          ReachBound(m, g, start, st, rank, level, w);
          var i :| 0 <= i < |st.frontier| && st.cost[st.frontier[i]] <= WalkLength(g, w);
          assert CostOf(st.cost)(st.frontier[0]) <= CostOf(st.cost)(st.frontier[i]);
        } else {
          WalkLengthNonNegative(m, g, w);
        }
      }
    }
  }

  /** The bookkeeping survives taking the head off the frontier. */
  lemma SettleBookkept(m: Math, g: Graph, start: NodeId, st: SearchState)
    requires Bookkept(m, g, start, st) && st.frontier != []
    ensures Bookkept(m, g, start, st.(frontier := st.frontier[1..]))
  {
    SortedTail(st.frontier, CostOf(st.cost));
  }

  /** Taking the head `x` off the frontier makes it taken, at the level of its cost. */
  lemma SettleProgress(m: Math, g: Graph, start: NodeId, st: SearchState, rank: map<NodeId, nat>, level: real)
    requires Bookkept(m, g, start, st) && Progress(g, start, st, rank, level)
    requires AllRelaxed(g, st.cost, rank.Keys) && st.frontier != []
    ensures var x := st.frontier[0];
      Progress(g, start, st.(frontier := st.frontier[1..]), if x in rank then rank else rank[x := |rank|], st.cost[x])
  {
    var x := st.frontier[0];
    PopShortest(m, g, start, st, rank, level);
    SettlePending(st, rank);
    SortedTail(st.frontier, CostOf(st.cost));
    SettleLevels(st, rank, level);
    SettleShortest(g, start, st.cost, rank, x);
  }

  /** The nodes still waiting stay on the frontier after its head is taken. */
  lemma SettlePending(st: SearchState, rank: map<NodeId, nat>)
    requires Pending(st, rank.Keys) && st.frontier != []
    ensures var x := st.frontier[0];
      Pending(st.(frontier := st.frontier[1..]), (if x in rank then rank else rank[x := |rank|]).Keys)
  {
    var x := st.frontier[0];
    var st1 := st.(frontier := st.frontier[1..]);
    var rank1 := if x in rank then rank else rank[x := |rank|];
    forall v | v in st.cameFrom && v !in rank1
      ensures v in st1.frontier
    {
      var i :| 0 <= i < |st.frontier| && st.frontier[i] == v;
      assert i != 0 && st1.frontier[i - 1] == v;
    }
  }

  /** The head's cost becomes the level: no taken node costs more, no waiting node less. */
  lemma SettleLevels(st: SearchState, rank: map<NodeId, nat>, level: real)
    requires Levels(st, rank.Keys, level) && st.frontier != []
    requires forall i :: 0 <= i < |st.frontier[1..]| ==>
      CostOf(st.cost)(st.frontier[0]) <= CostOf(st.cost)(st.frontier[1..][i])
    ensures var x := st.frontier[0];
      Levels(st.(frontier := st.frontier[1..]), (if x in rank then rank else rank[x := |rank|]).Keys, st.cost[x])
  {
    var x := st.frontier[0];
    var st1 := st.(frontier := st.frontier[1..]);
    forall i | 0 <= i < |st1.frontier|
      ensures st1.frontier[i] in st.cost && st.cost[x] <= st.cost[st1.frontier[i]]
    {
      assert st1.frontier[i] == st.frontier[i + 1];
    }
  }

  /** A node taken at its shortest cost keeps every taken node at its shortest cost. */
  lemma SettleShortest(g: Graph, start: NodeId, cost: map<NodeId, real>, rank: map<NodeId, nat>, x: NodeId)
    requires AllShortest(g, start, cost, rank.Keys) && Shortest(g, start, cost, x)
    ensures AllShortest(g, start, cost, (if x in rank then rank else rank[x := |rank|]).Keys)
  {
    var rank1 := if x in rank then rank else rank[x := |rank|];
    forall s | s in rank1
      ensures Shortest(g, start, cost, s)
    {
      if s != x {
        assert Shortest(g, start, cost, s);
      }
    }
  }

  /** Giving the newly taken node the next rank keeps the tree. */
  lemma SettleTree(g: Graph, start: NodeId, cost: map<NodeId, real>, cameFrom: map<NodeId, NodeId>,
                   rank: map<NodeId, nat>, x: NodeId)
    requires Tree(g, start, cost, cameFrom, rank)
    ensures Tree(g, start, cost, cameFrom, if x in rank then rank else rank[x := |rank|])
  {
    var rank1 := if x in rank then rank else rank[x := |rank|];
    forall v
      ensures TreeEdge(g, start, cost, cameFrom, rank1, v)
    {
      assert TreeEdge(g, start, cost, cameFrom, rank, v);
    }
  }

  /** Taking the head `x` off the frontier: `x` joins the taken nodes (with
      the next rank, unless it was taken before) and sets the level. */
  lemma Settle(m: Math, g: Graph, start: NodeId, st: SearchState, rank: map<NodeId, nat>, level: real)
    requires Bookkept(m, g, start, st) && Progress(g, start, st, rank, level)
    requires Tree(g, start, st.cost, st.cameFrom, rank) && AllRelaxed(g, st.cost, rank.Keys)
    requires st.frontier != []
    ensures var x := st.frontier[0];
      Relaxing(m, g, start, st.(frontier := st.frontier[1..]), if x in rank then rank else rank[x := |rank|], x)
  {
    var x := st.frontier[0];
    var rank1 := if x in rank then rank else rank[x := |rank|];
    SettleBookkept(m, g, start, st);
    SettleProgress(m, g, start, st, rank, level);
    SettleTree(g, start, st.cost, st.cameFrom, rank, x);
    RelaxedFewer(g, st.cost, rank.Keys, rank1.Keys - {x});
  }

  /** Taking a node for the first time leaves fewer nodes untaken. */
  lemma SettleProgresses(nodes: set<NodeId>, rank: map<NodeId, nat>, x: NodeId)
    requires x in nodes
    ensures x !in rank ==> |nodes - rank[x := |rank|].Keys| < |nodes - rank.Keys|
  {
    if x !in rank {
      assert rank[x := |rank|].Keys == rank.Keys + {x};
      FewerUntaken(nodes, rank.Keys, x);
    }
  }

  /** Fewer source nodes, fewer edges to keep relaxed. */
  lemma RelaxedFewer(g: Graph, cost: map<NodeId, real>, done: set<NodeId>, fewer: set<NodeId>)
    requires AllRelaxed(g, cost, done) && fewer <= done
    ensures AllRelaxed(g, cost, fewer)
  {
    forall s, v | s in fewer
      ensures RelaxedEdge(g, cost, s, v)
    {
      assert RelaxedEdge(g, cost, s, v);
    }
  }

  /** A relaxation changes only a node that is not taken and not the start,
      to a cost no lower than `x`'s. */
  lemma RelaxChanges(m: Math, g: Graph, start: NodeId, st: SearchState, rank: map<NodeId, nat>, x: NodeId, v: NodeId)
    requires Relaxing(m, g, start, st, rank, x) && (x, v) in g.edges
    ensures v in g.nodes && 0.0 <= g.edges[(x, v)].length
    ensures Improves(g, st, x, v) ==> v !in rank && v != start
  {
    assert EdgeOk(m, g, (x, v));
    if v in rank {
      assert st.cost[v] <= st.cost[x];
    }
  }

  /** Relaxed edges out of taken nodes stay relaxed: a relaxation only lowers
      the cost of a node that is not taken. */
  lemma RelaxedKept(g: Graph, st: SearchState, taken: set<NodeId>, done: set<NodeId>, x: NodeId, v: NodeId,
                    r: SearchState)
    requires Relaxation(g, st, x, v, r) && st.cost.Keys == st.cameFrom.Keys
    requires Improves(g, st, x, v) ==> v !in taken
    requires x in taken && done <= taken
    ensures AllRelaxed(g, st.cost, done) ==> AllRelaxed(g, r.cost, done)
    ensures forall u :: RelaxedEdge(g, st.cost, x, u) ==> RelaxedEdge(g, r.cost, x, u)
  {
    if AllRelaxed(g, st.cost, done) {
      forall s, u | s in done
        ensures RelaxedEdge(g, r.cost, s, u)
      {
        assert RelaxedEdge(g, st.cost, s, u);
      }
    }
  }

  /** Membership in a sequence grown by one element. */
  lemma GrownMembers(f: seq<NodeId>, f': seq<NodeId>, v: NodeId)
    requires multiset(f') == multiset(f) + multiset{v}
    ensures forall u :: u in f' <==> u in f || u == v
  {
    forall u
      ensures u in f' <==> u in f || u == v
    {
      assert u in f' <==> u in multiset(f');
      assert u in f <==> u in multiset(f);
    }
  }

  /** A relaxation keeps the bookkeeping. */
  lemma RelaxBookkept(m: Math, g: Graph, start: NodeId, st: SearchState, x: NodeId, v: NodeId, r: SearchState)
    requires Bookkept(m, g, start, st) && Relaxation(g, st, x, v, r) && 0.0 <= g.edges[(x, v)].length
    requires Improves(g, st, x, v) ==> v != start
    ensures Bookkept(m, g, start, r)
  {
    if Improves(g, st, x, v) {
      GrownMembers(st.frontier, r.frontier, v);
      forall i | 0 <= i < |r.frontier|
        ensures r.frontier[i] in r.cameFrom
      {
        assert r.frontier[i] in r.frontier;
        if r.frontier[i] != v {
          var k :| 0 <= k < |st.frontier| && st.frontier[k] == r.frontier[i];
        }
      }
    }
  }

  /** A relaxation keeps the frontier at or above the level and every
      untaken reached node on it. */
  lemma RelaxLevels(st: SearchState, taken: set<NodeId>, level: real, g: Graph, x: NodeId, v: NodeId, r: SearchState)
    requires Levels(st, taken, level) && Pending(st, taken) && st.cost.Keys == st.cameFrom.Keys
    requires Relaxation(g, st, x, v, r) && level <= st.cost[x] && 0.0 <= g.edges[(x, v)].length
    requires Improves(g, st, x, v) ==> v !in taken
    ensures Levels(r, taken, level)
    ensures Pending(r, taken)
  {
    if Improves(g, st, x, v) {
      GrownMembers(st.frontier, r.frontier, v);
      forall i | 0 <= i < |r.frontier|
        ensures r.frontier[i] in r.cost && level <= r.cost[r.frontier[i]]
      {
        assert r.frontier[i] in r.frontier;
        if r.frontier[i] != v {
          var k :| 0 <= k < |st.frontier| && st.frontier[k] == r.frontier[i];
        }
      }
    }
  }

  /** A relaxation keeps the costs of the taken nodes, so they stay shortest. */
  lemma RelaxShortest(g: Graph, start: NodeId, st: SearchState, taken: set<NodeId>, x: NodeId, v: NodeId,
                      r: SearchState)
    requires Relaxation(g, st, x, v, r)
    requires Improves(g, st, x, v) ==> v !in taken
    requires AllShortest(g, start, st.cost, taken)
    ensures AllShortest(g, start, r.cost, taken)
  {
    forall s | s in taken
      ensures Shortest(g, start, r.cost, s)
    {
      assert Shortest(g, start, st.cost, s);
    }
  }

  /** A relaxation hangs the improved node under `x`, and keeps the tree. */
  lemma RelaxTree(g: Graph, start: NodeId, st: SearchState, rank: map<NodeId, nat>, x: NodeId, v: NodeId,
                  r: SearchState)
    requires Relaxation(g, st, x, v, r) && x in rank
    requires Improves(g, st, x, v) ==> v !in rank && v != start
    requires Tree(g, start, st.cost, st.cameFrom, rank)
    ensures Tree(g, start, r.cost, r.cameFrom, rank)
  {
    forall u
      ensures TreeEdge(g, start, r.cost, r.cameFrom, rank, u)
    {
      assert TreeEdge(g, start, st.cost, st.cameFrom, rank, u);
    }
  }

  /** One relaxation keeps the state of relaxing `x`, relaxes its edge to
      `v`, and changes nothing when that edge was relaxed already. */
  lemma RelaxKeeps(m: Math, g: Graph, start: NodeId, st: SearchState, rank: map<NodeId, nat>, x: NodeId, v: NodeId,
                   r: SearchState)
    requires Relaxing(m, g, start, st, rank, x) && Relaxation(g, st, x, v, r)
    ensures Relaxing(m, g, start, r, rank, x)
    ensures RelaxedEdge(g, r.cost, x, v)
    ensures forall u :: RelaxedEdge(g, st.cost, x, u) ==> RelaxedEdge(g, r.cost, x, u)
    ensures RelaxedEdge(g, st.cost, x, v) ==> r == st
  {
    RelaxChanges(m, g, start, st, rank, x, v);
    RelaxedKept(g, st, rank.Keys, rank.Keys - {x}, x, v, r);
    RelaxBookkept(m, g, start, st, x, v, r);
    RelaxLevels(st, rank.Keys, st.cost[x], g, x, v, r);
    RelaxShortest(g, start, st, rank.Keys, x, v, r);
    RelaxTree(g, start, st, rank, x, v, r);
  }

  /** With the frontier empty, every route from the start ends at a taken node. */
  lemma Exhausted(m: Math, g: Graph, start: NodeId, st: SearchState, rank: map<NodeId, nat>, level: real)
    requires Bookkept(m, g, start, st) && Progress(g, start, st, rank, level)
    requires AllRelaxed(g, st.cost, rank.Keys) && st.frontier == []
    ensures forall v :: v in st.cameFrom ==> v in rank && Shortest(g, start, st.cost, v)
    ensures forall t, w :: RouteTo(g, start, t, w) ==> t in rank
  {
    forall v | v in st.cameFrom
      ensures v in rank && Shortest(g, start, st.cost, v)
    {
      assert Shortest(g, start, st.cost, v);
    }
    forall t, w | RouteTo(g, start, t, w)
      ensures t in rank
    {
      ReachBound(m, g, start, st, rank, level, w);
    }
  }

  /** The count of untaken nodes drops when a new node is taken. */
  lemma FewerUntaken(keys: set<NodeId>, taken: set<NodeId>, x: NodeId)
    requires x in keys && x !in taken
    ensures |keys - (taken + {x})| < |keys - taken|
  {
    assert keys - (taken + {x}) == (keys - taken) - {x};
  }

  /** The edges out of `x` to the first `j` neighbours stay relaxed, and
      with the next one relaxed too, so are the first `j + 1`. */
  lemma RelaxedPrefix(g: Graph, before: map<NodeId, real>, after: map<NodeId, real>, x: NodeId,
                      neighbors: seq<NodeId>, j: nat)
    requires j < |neighbors|
    requires forall k :: 0 <= k < j ==> RelaxedEdge(g, before, x, neighbors[k])
    requires forall u :: RelaxedEdge(g, before, x, u) ==> RelaxedEdge(g, after, x, u)
    requires RelaxedEdge(g, after, x, neighbors[j])
    ensures forall k :: 0 <= k < j + 1 ==> RelaxedEdge(g, after, x, neighbors[k])
  {
    forall k | 0 <= k < j + 1
      ensures RelaxedEdge(g, after, x, neighbors[k])
    {
      if k < j {
        assert RelaxedEdge(g, before, x, neighbors[k]);
      }
    }
  }

  /** The inner loop of the search: relaxes every edge out of `x`. When all
      of them were relaxed already (`x` was taken before), nothing changes. */
  method RelaxNeighbors(m: Math, g: Graph, start: NodeId, st: SearchState, ghost rank: map<NodeId, nat>, x: NodeId)
    returns (r: SearchState)
    requires Relaxing(m, g, start, st, rank, x)
    ensures x in r.cost && Searching(m, g, start, r, rank, r.cost[x])
    ensures AllRelaxed(g, st.cost, rank.Keys) ==> r == st
  {
    var neighbors := Enumerate(Neighbors(g, x));
    ghost var before := AllRelaxed(g, st.cost, rank.Keys);
    r := st;
    var j := 0;
    while j < |neighbors|
      invariant j <= |neighbors|
      invariant Relaxing(m, g, start, r, rank, x)
      invariant forall k :: 0 <= k < j ==> RelaxedEdge(g, r.cost, x, neighbors[k])
      invariant before ==> r == st
    {
      var v := neighbors[j];
      assert v in multiset(Neighbors(g, x));
      RelaxChanges(m, g, start, r, rank, x, v);
      assert before ==> RelaxedEdge(g, r.cost, x, v);
      ghost var prev := r;
      r := Relax(g, r, x, v);
      RelaxKeeps(m, g, start, prev, rank, x, v, r);
      RelaxedPrefix(g, prev.cost, r.cost, x, neighbors, j);
      j := j + 1;
    }
    NeighborsRelaxed(g, r.cost, rank.Keys, x, neighbors);
    Relaxed(m, g, start, r, rank, x);
  }

  /** Once the edges to all neighbours of `x` are relaxed, every edge out of
      a taken node is. */
  lemma NeighborsRelaxed(g: Graph, cost: map<NodeId, real>, taken: set<NodeId>, x: NodeId, neighbors: seq<NodeId>)
    requires AllRelaxed(g, cost, taken - {x}) && multiset(neighbors) == multiset(Neighbors(g, x))
    requires forall k :: 0 <= k < |neighbors| ==> RelaxedEdge(g, cost, x, neighbors[k])
    ensures AllRelaxed(g, cost, taken)
  {
    forall s, v | s in taken
      ensures RelaxedEdge(g, cost, s, v)
    {
      if s == x && (x, v) in g.edges {
        assert v in Neighbors(g, x);
        assert v in multiset(neighbors);
      } else if s != x {
        assert RelaxedEdge(g, cost, s, v);
      }
    }
  }

  /** The loop invariant of the search, between two turns of its outer loop. */
  ghost predicate Searching(m: Math, g: Graph, start: NodeId, st: SearchState, rank: map<NodeId, nat>, level: real) {
    && Bookkept(m, g, start, st) && Progress(g, start, st, rank, level)
    && Tree(g, start, st.cost, st.cameFrom, rank) && AllRelaxed(g, st.cost, rank.Keys)
    && rank.Keys <= g.nodes.Keys
    && (st.frontier != [start] ==> start in rank)
  }

  /** The search starts with the start node reached at no cost, and on the frontier. */
  function Initial(start: NodeId): (st: SearchState)
    ensures st.cameFrom.Keys == st.cost.Keys == {start}
    ensures st.frontier == [start]
  {
    SearchState(map[start := 0.0], map[start := start], [start])
  }

  lemma InitialSearching(m: Math, g: Graph, start: NodeId)
    requires Valid(m, g) && start in g.nodes
    ensures Searching(m, g, start, Initial(start), map[], 0.0)
  {
    var st := Initial(start);
    forall v
      ensures TreeEdge(g, start, st.cost, st.cameFrom, map[], v)
    {
    }
  }

  /** The source's `Peek` followed by `Dequeue` on a sorted frontier: the
      head and the rest. */
  method Dequeue(frontier: seq<NodeId>, sorter: NodeId -> real) returns (head: NodeId, rest: seq<NodeId>)
    requires frontier != [] && Sorted(frontier, sorter)
    ensures head == frontier[0] && rest == frontier[1..]
  {
    var queue := PriorityList(frontier, sorter);
    head := Peek(queue).value;
    rest := Remove(queue).elements;
  }

  /** Takes the cheapest node off the frontier. It is taken for the first
      time, or it was taken before and its edges need no relaxing. */
  method TakeNext(m: Math, g: Graph, start: NodeId, st: SearchState, ghost rank: map<NodeId, nat>, ghost level: real)
    returns (r: SearchState, current: NodeId, ghost rank': map<NodeId, nat>)
    requires Searching(m, g, start, st, rank, level) && st.frontier != []
    ensures current == st.frontier[0] && r == st.(frontier := st.frontier[1..])
    ensures Relaxing(m, g, start, r, rank', current)
    ensures || |g.nodes.Keys - rank'.Keys| < |g.nodes.Keys - rank.Keys|
            || (rank' == rank && AllRelaxed(g, r.cost, rank.Keys))
  {
    var rest;
    current, rest := Dequeue(st.frontier, CostOf(st.cost));
    Settle(m, g, start, st, rank, level);
    SettleProgresses(g.nodes.Keys, rank, current);
    r := st.(frontier := rest);
    rank' := if current in rank then rank else rank[current := |rank|];
  }

  /** One turn of the outer loop of the search: takes the cheapest node off
      the frontier; stops there when it equals the end node, and relaxes its
      edges otherwise. Either a new node is taken, or the frontier shrinks. */
  method SearchStep(m: Math, g: Graph, start: NodeId, end: NodeId, st: SearchState,
                    ghost rank: map<NodeId, nat>, ghost level: real)
    returns (r: SearchState, current: NodeId, found: bool, ghost rank': map<NodeId, nat>, ghost level': real)
    requires Searching(m, g, start, st, rank, level) && st.frontier != [] && end in g.nodes
    ensures current == st.frontier[0]
    ensures found ==>
      && Bookkept(m, g, start, r) && start in rank' && Tree(g, start, r.cost, r.cameFrom, rank')
      && current in r.cameFrom && NodeEquals(m, g, current, end) && Shortest(g, start, r.cost, current)
    ensures !found ==> !NodeEquals(m, g, current, end) && Searching(m, g, start, r, rank', level')
    ensures !found ==>
      || |g.nodes.Keys - rank'.Keys| < |g.nodes.Keys - rank.Keys|
      || (rank' == rank && |r.frontier| < |st.frontier|)
  {
    r, current, rank' := TakeNext(m, g, start, st, rank, level);
    Settled(m, g, start, r, rank', current);
    level' := r.cost[current];
    if NodeEquals(m, g, current, end) {
      found := true;
      return;
    }
    found := false;
    r := RelaxNeighbors(m, g, start, r, rank', current);
    level' := r.cost[current];
  }

  /** What the search knows of a node as soon as it is taken. */
  lemma Settled(m: Math, g: Graph, start: NodeId, st: SearchState, rank: map<NodeId, nat>, x: NodeId)
    requires Relaxing(m, g, start, st, rank, x)
    ensures Bookkept(m, g, start, st) && start in rank && Tree(g, start, st.cost, st.cameFrom, rank)
    ensures x in st.cameFrom && Shortest(g, start, st.cost, x) && rank.Keys <= g.nodes.Keys
  {
    assert Shortest(g, start, st.cost, x);
  }

  /** Once the edges out of `x` are relaxed, the outer loop's invariant holds again. */
  lemma Relaxed(m: Math, g: Graph, start: NodeId, st: SearchState, rank: map<NodeId, nat>, x: NodeId)
    requires Relaxing(m, g, start, st, rank, x) && AllRelaxed(g, st.cost, rank.Keys)
    ensures Searching(m, g, start, st, rank, st.cost[x])
  {
    Settled(m, g, start, st, rank, x);
  }

  /** `SetTarget`'s search, from `start` towards `end`. When it stops at a
      node equal to the end node, that node has its shortest cost; when the
      frontier runs dry, every node a route reaches was reached, at its
      shortest cost. */
  method Search(m: Math, g: Graph, start: NodeId, end: NodeId)
    returns (st: SearchState, stop: Option<NodeId>, ghost rank: map<NodeId, nat>)
    requires Valid(m, g) && start in g.nodes && end in g.nodes
    ensures st.cost.Keys == st.cameFrom.Keys && st.cameFrom.Keys <= g.nodes.Keys
    ensures start in st.cameFrom && st.cameFrom[start] == start && st.cost[start] == 0.0
    ensures start in rank && Tree(g, start, st.cost, st.cameFrom, rank)
    ensures stop.Some? ==>
      && stop.value in st.cameFrom && NodeEquals(m, g, stop.value, end)
      && Shortest(g, start, st.cost, stop.value)
    ensures stop.None? ==> forall v :: v in st.cameFrom ==> Shortest(g, start, st.cost, v)
    ensures stop.None? ==> forall t, w :: RouteTo(g, start, t, w) ==> t in st.cameFrom
  {
    st := Initial(start);
    rank := map[];
    ghost var level := 0.0;
    InitialSearching(m, g, start);
    while st.frontier != []
      invariant Searching(m, g, start, st, rank, level)
      decreases |g.nodes.Keys - rank.Keys|, |st.frontier|
    {
      var current, found;
      st, current, found, rank, level := SearchStep(m, g, start, end, st, rank, level);
      if found {
        return st, Some(current), rank;
      }
    }
    Exhausted(m, g, start, st, rank, level);
    stop := None;
  }

  /** The walk back from `end` along the predecessors, stopping at the node
      whose predecessor equals itself: the start. */
  method TracePath(m: Math, g: Graph, start: NodeId, st: SearchState, ghost rank: map<NodeId, nat>, end: NodeId)
    returns (path: seq<NodeId>)
    requires ValidMath(m) && Valid(m, g)
    requires st.cost.Keys == st.cameFrom.Keys && st.cameFrom.Keys <= g.nodes.Keys
    requires start in st.cameFrom && st.cameFrom[start] == start && st.cost[start] == 0.0
    requires start in rank && Tree(g, start, st.cost, st.cameFrom, rank) && end in st.cameFrom
    ensures RouteTo(g, start, end, path)
    ensures WalkLength(g, path) == st.cost[end]
    ensures end == start ==> path == [start]
  {
    AreSameVecReflexiveSymmetric(m, g.nodes[start].position, g.nodes[start].position);
    var cur := end;
    path := [end];
    assert TreeEdge(g, start, st.cost, st.cameFrom, rank, end);
    while !NodeEquals(m, g, st.cameFrom[cur], cur)
      invariant cur in st.cameFrom && cur in st.cost && cur in g.nodes
      invariant end == start ==> cur == start && path == [start]
      invariant TreeEdge(g, start, st.cost, st.cameFrom, rank, cur)
      invariant IsWalk(g, path) && Passable(g, path) && path[0] == cur && path[|path| - 1] == end
      invariant cur != end ==> cur in rank
      invariant WalkLength(g, path) == st.cost[end] - st.cost[cur]
      decreases if cur in rank then rank[cur] else |rank|
    {
      assert TreeEdge(g, start, st.cost, st.cameFrom, rank, cur);
      var prev := st.cameFrom[cur];
      var longer := [prev] + path;
      assert longer[1..] == path;
      assert IsWalk(g, longer) by {
        forall i | 1 <= i < |longer| - 1
          ensures Adjacent(g, longer[i], longer[i + 1])
        {
          assert longer[i] == path[i - 1] && longer[i + 1] == path[i];
        }
      }
      assert Passable(g, longer) by {
        forall i | 2 <= i < |longer|
          ensures !g.nodes[longer[i]].blocking
        {
          assert longer[i] == path[i - 1];
        }
      }
      path := longer;
      cur := prev;
    }
    AdjacentNodesDiffer(m, g, st.cameFrom[cur], cur);
  }

  /** The walk back as the source writes it, with the test after the step:
      when the end node is the start node it yields the start twice. */
  method TracePathAsWritten(m: Math, g: Graph, start: NodeId, st: SearchState, ghost rank: map<NodeId, nat>,
                            end: NodeId)
    returns (path: seq<NodeId>)
    requires ValidMath(m) && Valid(m, g)
    requires st.cost.Keys == st.cameFrom.Keys && st.cameFrom.Keys <= g.nodes.Keys
    requires start in st.cameFrom && st.cameFrom[start] == start && st.cost[start] == 0.0
    requires start in rank && Tree(g, start, st.cost, st.cameFrom, rank) && end in st.cameFrom
    ensures end == start ==> path == [start, start]
    ensures end != start ==> RouteTo(g, start, end, path) && WalkLength(g, path) == st.cost[end]
  {
    AreSameVecReflexiveSymmetric(m, g.nodes[start].position, g.nodes[start].position);
    assert TreeEdge(g, start, st.cost, st.cameFrom, rank, end);
    var cur := st.cameFrom[end];
    path := [cur, end];
    if end != start {
      assert path[1..] == [end];
    }
    while !NodeEquals(m, g, st.cameFrom[cur], cur)
      invariant cur in st.cameFrom && cur in st.cost && cur in rank && cur in g.nodes
      invariant TreeEdge(g, start, st.cost, st.cameFrom, rank, cur)
      invariant end == start ==> cur == start && path == [start, start]
      invariant end != start ==>
        && IsWalk(g, path) && Passable(g, path) && path[0] == cur && path[|path| - 1] == end
        && WalkLength(g, path) == st.cost[end] - st.cost[cur]
      decreases rank[cur]
    {
      assert TreeEdge(g, start, st.cost, st.cameFrom, rank, cur);
      var prev := st.cameFrom[cur];
      var longer := [prev] + path;
      assert longer[1..] == path;
      assert IsWalk(g, longer) by {
        forall i | 1 <= i < |longer| - 1
          ensures Adjacent(g, longer[i], longer[i + 1])
        {
          assert longer[i] == path[i - 1] && longer[i + 1] == path[i];
        }
      }
      assert Passable(g, longer) by {
        forall i | 2 <= i < |longer|
          ensures !g.nodes[longer[i]].blocking
        {
          assert longer[i] == path[i - 1];
        }
      }
      path := longer;
      cur := prev;
    }
    AdjacentNodesDiffer(m, g, st.cameFrom[cur], cur);
  }

  /** The pathway of the edge between each node of the path and the next;
      `None` where two consecutive nodes are not joined (the source then
      dereferences a null edge). */
  function PathwaysAlong(g: Graph, path: seq<NodeId>): (r: Option<seq<Pathway>>)
    ensures r.Some? <==> forall i :: 0 <= i < |path| - 1 ==> Adjacent(g, path[i], path[i + 1])
    ensures r.Some? ==> |r.value| == if path == [] then 0 else |path| - 1
    ensures r.Some? ==> forall i :: 0 <= i < |r.value| ==> r.value[i] == g.edges[(path[i], path[i + 1])].pathway
  {
    if |path| < 2 then Some([])
    else
      match EdgeTo(g, path[0], path[1])
      case None => None
      case Some(e) =>
        var rest := PathwaysAlong(g, path[1..]);
        if rest.None? then
          assert !forall i :: 0 <= i < |path[1..]| - 1 ==> Adjacent(g, path[1..][i], path[1..][i + 1]);
          None
        else
          assert forall i :: 1 <= i < |path| - 1 ==> path[1..][i - 1] == path[i] && path[1..][i] == path[i + 1];
          Some([e.pathway] + rest.value)
  }

  /** A node is not joined to itself, so the path the source builds when the
      end node is the start node has no pathway: the source then fails. */
  lemma RepeatedNodeHasNoPathway(m: Math, g: Graph, s: NodeId)
    requires Valid(m, g)
    ensures PathwaysAlong(g, [s, s]).None?
  {
    assert Adjacent(g, s, s) ==> EdgeOk(m, g, (s, s));
  }

  /** The length `SetTarget` reports: the sum, along the path, of each
      pathway's distance between consecutive positions. */
  function PathLength(m: Math, positions: seq<Vec2>, pathways: seq<Pathway>): (len: real)
    requires |positions| == |pathways| + 1
    ensures ValidMath(m) ==> 0.0 <= len
    decreases |pathways|
  {
    if pathways == [] then 0.0
    else PathwayDistanceBetween(m, pathways[0], positions[0], positions[1]) + PathLength(m, positions[1..], pathways[1..])
  }

  /** When every edge on the path is as long as its pathway's distance
      between its ends, the reported length is the walk's length. */
  lemma {:induction false} MeasuredPathLength(m: Math, g: Graph, path: seq<NodeId>, pathways: seq<Pathway>)
    requires IsWalk(g, path) && PathwaysAlong(g, path) == Some(pathways)
    requires forall i :: 0 <= i < |path| - 1 ==>
      g.edges[(path[i], path[i + 1])].length
        == PathwayDistanceBetween(m, pathways[i], g.nodes[path[i]].position, g.nodes[path[i + 1]].position)
    ensures |path| == |pathways| + 1
    ensures PathLength(m, Positions(g, path), pathways) == WalkLength(g, path)
    decreases |path|
  {
    if |path| > 1 {
      var rest := path[1..];
      assert IsWalk(g, rest) by {
        forall i | 0 <= i < |rest| - 1
          ensures Adjacent(g, rest[i], rest[i + 1])
        {
          assert rest[i] == path[i + 1] && rest[i + 1] == path[i + 2];
        }
      }
      assert PathwaysAlong(g, rest) == Some(pathways[1..]);
      assert Positions(g, path)[1..] == Positions(g, rest);
      forall i | 0 <= i < |rest| - 1
        ensures g.edges[(rest[i], rest[i + 1])].length
          == PathwayDistanceBetween(m, pathways[1..][i], g.nodes[rest[i]].position, g.nodes[rest[i + 1]].position)
      {
        assert rest[i] == path[i + 1] && rest[i + 1] == path[i + 2] && pathways[1..][i] == pathways[i + 1];
      }
      MeasuredPathLength(m, g, rest, pathways[1..]);
    }
  }

  /** The positions of the nodes of a path. */
  function Positions(g: Graph, path: seq<NodeId>): (ps: seq<Vec2>)
    requires forall i :: 0 <= i < |path| ==> path[i] in g.nodes
    ensures |ps| == |path|
    ensures forall i :: 0 <= i < |path| ==> ps[i] == g.nodes[path[i]].position
  {
    seq(|path|, i requires 0 <= i < |path| => g.nodes[path[i]].position)
  }
}

=== FILE: sorting.dfy ===
/** The stable sort behind every `OrderBy(key)` of the original code: a
    left-to-right insertion sort that places each element after all earlier
    elements whose key does not exceed its own. Also the null-removal that
    follows the sort in the sorted list. */
module Sorting {
  import opened Wrappers

  predicate Sorted<T>(s: seq<T>, key: T -> real) {
    forall i, j :: 0 <= i < j < |s| ==> key(s[i]) <= key(s[j])
  }

  /** Inserts `x` after the longest prefix of `s` whose keys do not exceed `key(x)`. */
  function Insert<T>(x: T, s: seq<T>, key: T -> real): (r: seq<T>)
    ensures |r| == |s| + 1
    ensures multiset(r) == multiset(s) + multiset{x}
  {
    if s == [] then [x]
    else if key(s[0]) <= key(x) then
      assert s == [s[0]] + s[1..];
      [s[0]] + Insert(x, s[1..], key)
    else [x] + s
  }

  /** `s.OrderBy(key)` */
  function SortBy<T>(s: seq<T>, key: T -> real): (r: seq<T>)
    ensures |r| == |s|
    ensures multiset(r) == multiset(s)
  {
    if s == [] then []
    else
      assert s == s[..|s| - 1] + [s[|s| - 1]];
      Insert(s[|s| - 1], SortBy(s[..|s| - 1], key), key)
  }

  /** The elements of `s` whose key is `k`, in order. */
  function WithKey<T>(s: seq<T>, key: T -> real, k: real): seq<T> {
    if s == [] then []
    else (if key(s[0]) == k then [s[0]] else []) + WithKey(s[1..], key, k)
  }

  /** The non-null elements of `s`, in order. */
  function NonNull<T>(s: seq<Option<T>>): (r: seq<T>)
    ensures |r| <= |s|
  {
    if s == [] then []
    else (if s[0].Some? then [s[0].value] else []) + NonNull(s[1..])
  }

  /** Lifts a key on elements to nullable elements; nulls get `nullKey`. */
  function NullableKey<T>(key: T -> real, nullKey: real): Option<T> -> real {
    (o: Option<T>) => if o.Some? then key(o.value) else nullKey
  }

  lemma {:induction false} InsertSorted<T>(x: T, s: seq<T>, key: T -> real)
    requires Sorted(s, key)
    ensures Sorted(Insert(x, s, key), key)
  {
    if s != [] && key(s[0]) <= key(x) {
      InsertSorted(x, s[1..], key);
      var rest := Insert(x, s[1..], key);
      forall y | y in rest
        ensures key(s[0]) <= key(y)
      {
        assert y in multiset(rest);
        if y != x {
          assert y in s[1..];
        }
      }
    }
  }

  lemma {:induction false} SortBySorted<T>(s: seq<T>, key: T -> real)
    ensures Sorted(SortBy(s, key), key)
  {
    if s != [] {
      SortBySorted(s[..|s| - 1], key);
      InsertSorted(s[|s| - 1], SortBy(s[..|s| - 1], key), key);
    }
  }

  lemma {:induction false} WithKeyAppend<T>(a: seq<T>, b: seq<T>, key: T -> real, k: real)
    ensures WithKey(a + b, key, k) == WithKey(a, key, k) + WithKey(b, key, k)
  {
    if a == [] {
      assert a + b == b;
    } else {
      var head := if key(a[0]) == k then [a[0]] else [];
      assert (a + b)[0] == a[0];
      assert (a + b)[1..] == a[1..] + b;
      assert WithKey(a + b, key, k) == head + WithKey(a[1..] + b, key, k);
      WithKeyAppend(a[1..], b, key, k);
      assert WithKey(a, key, k) == head + WithKey(a[1..], key, k);
    }
  }

  lemma {:induction false} WithKeyNone<T>(s: seq<T>, key: T -> real, k: real)
    requires forall i :: 0 <= i < |s| ==> key(s[i]) > k
    ensures WithKey(s, key, k) == []
  {
    if s != [] {
      WithKeyNone(s[1..], key, k);
    }
  }

  lemma AppendAssociative<T>(a: seq<T>, b: seq<T>, c: seq<T>)
    ensures a + (b + c) == (a + b) + c
  {
  }

  lemma WithKeyCons<T>(y: T, s: seq<T>, key: T -> real, k: real)
    ensures WithKey([y] + s, key, k) == (if key(y) == k then [y] else []) + WithKey(s, key, k)
  {
    var u := [y] + s;
    assert u[0] == y && u[1..] == s;
  }

  lemma NonNullCons<T>(y: Option<T>, s: seq<Option<T>>)
    ensures NonNull([y] + s) == (if y.Some? then [y.value] else []) + NonNull(s)
  {
    var u := [y] + s;
    assert u[0] == y && u[1..] == s;
  }

  /** An element with a key smaller than the head's goes in front. */
  lemma InsertFront<T>(x: T, s: seq<T>, key: T -> real)
    requires s == [] || key(x) < key(s[0])
    ensures Insert(x, s, key) == [x] + s
  {
  }

  /** An element with a key no larger than `x`'s stays in front of it. */
  lemma InsertCons<T>(x: T, y: T, s: seq<T>, key: T -> real)
    requires key(y) <= key(x)
    ensures Insert(x, [y] + s, key) == [y] + Insert(x, s, key)
  {
    var u := [y] + s;
    assert u[0] == y && u[1..] == s;
  }

  lemma {:induction false} InsertWithKey<T>(x: T, s: seq<T>, key: T -> real, k: real)
    requires Sorted(s, key)
    ensures WithKey(Insert(x, s, key), key, k) == WithKey(s, key, k) + (if key(x) == k then [x] else [])
    decreases |s|, 1
  {
    if s == [] {
      WithKeyCons(x, [], key, k);
      assert [x] + [] == [x];
    } else if key(s[0]) <= key(x) {
      InsertWithKeyBehind(x, s, key, k);
    } else {
      InsertWithKeyFront(x, s, key, k);
    }
  }

  /** Inserting behind the head of the sequence. */
  lemma {:induction false} InsertWithKeyBehind<T>(x: T, s: seq<T>, key: T -> real, k: real)
    requires Sorted(s, key) && s != [] && key(s[0]) <= key(x)
    ensures WithKey(Insert(x, s, key), key, k) == WithKey(s, key, k) + (if key(x) == k then [x] else [])
    decreases |s|, 0
  {
    var hx := if key(x) == k then [x] else [];
    var y, t := s[0], s[1..];
    var hy := if key(y) == k then [y] else [];
    assert s == [y] + t;
    WithKeyCons(y, t, key, k);
    assert Sorted(t, key) by {
      forall i, j | 0 <= i < j < |t|
        ensures key(t[i]) <= key(t[j])
      {
        assert t[i] == s[i + 1] && t[j] == s[j + 1];
      }
    }
    var inner := Insert(x, t, key);
    InsertWithKey(x, t, key, k);
    InsertCons(x, y, t, key);
    WithKeyCons(y, inner, key, k);
    AppendAssociative(hy, WithKey(t, key, k), hx);
  }

  /** Inserting in front of a sorted sequence whose head has a larger key. */
  lemma InsertWithKeyFront<T>(x: T, s: seq<T>, key: T -> real, k: real)
    requires Sorted(s, key) && s != [] && key(x) < key(s[0])
    ensures WithKey(Insert(x, s, key), key, k) == WithKey(s, key, k) + (if key(x) == k then [x] else [])
  {
    assert Insert(x, s, key) == [x] + s;
    WithKeyCons(x, s, key, k);
    if key(x) == k {
      forall i | 0 <= i < |s|
        ensures key(s[i]) > k
      {
        if i > 0 {
          assert key(s[0]) <= key(s[i]);
        }
      }
      WithKeyNone(s, key, k);
      assert [x] + [] == [] + [x];
    } else {
      assert [] + WithKey(s, key, k) == WithKey(s, key, k) + [];
    }
  }

  /** The sort is stable: the elements sharing any one key keep their relative order. */
  lemma {:induction false} SortByStable<T>(s: seq<T>, key: T -> real, k: real)
    ensures WithKey(SortBy(s, key), key, k) == WithKey(s, key, k)
  {
    if s != [] {
      var init, last := s[..|s| - 1], s[|s| - 1];
      var sorted := SortBy(init, key);
      assert s == init + [last];
      assert SortBy(s, key) == Insert(last, sorted, key);
      SortByStable(init, key, k);
      SortBySorted(init, key);
      InsertWithKey(last, sorted, key, k);
      WithKeyAppend(init, [last], key, k);
      WithKeyCons(last, [], key, k);
      assert [last] + [] == [last];
    }
  }

  lemma {:induction false} InsertAtEnd<T>(x: T, s: seq<T>, key: T -> real)
    requires forall i :: 0 <= i < |s| ==> key(s[i]) <= key(x)
    ensures Insert(x, s, key) == s + [x]
  {
    if s != [] {
      InsertAtEnd(x, s[1..], key);
      assert [s[0]] + (s[1..] + [x]) == s + [x];
    }
  }

  /** Sorting a sorted sequence changes nothing. */
  lemma {:induction false} SortBySortedIsIdentity<T>(s: seq<T>, key: T -> real)
    requires Sorted(s, key)
    ensures SortBy(s, key) == s
  {
    if s != [] {
      var init, last := s[..|s| - 1], s[|s| - 1];
      assert Sorted(init, key);
      SortBySortedIsIdentity(init, key);
      InsertAtEnd(last, init, key);
      assert init + [last] == s;
    }
  }

  lemma {:induction false} NonNullAppend<T>(a: seq<Option<T>>, b: seq<Option<T>>)
    ensures NonNull(a + b) == NonNull(a) + NonNull(b)
  {
    if a == [] {
      assert a + b == b;
    } else {
      var head := if a[0].Some? then [a[0].value] else [];
      assert (a + b)[0] == a[0];
      assert (a + b)[1..] == a[1..] + b;
      assert NonNull(a + b) == head + NonNull(a[1..] + b);
      NonNullAppend(a[1..], b);
      assert NonNull(a) == head + NonNull(a[1..]);
    }
  }

  lemma {:induction false} NonNullFrom<T>(s: seq<Option<T>>, v: T)
    requires v in NonNull(s)
    ensures Some(v) in s
  {
    if s != [] {
      if s[0].Some? && s[0].value == v {
      } else {
        NonNullFrom(s[1..], v);
      }
    }
  }

  /** The first non-null element of a sorted nullable sequence has a key no
      smaller than the key of the sequence's first element. */
  lemma FirstNonNullKey<T>(s: seq<Option<T>>, key: T -> real, nullKey: real)
    requires s != [] && Sorted(s, NullableKey(key, nullKey))
    requires NonNull(s) != []
    ensures NullableKey(key, nullKey)(s[0]) <= key(NonNull(s)[0])
  {
    var v := NonNull(s)[0];
    NonNullFrom(s, v);
    var j :| 0 <= j < |s| && s[j] == Some(v);
    assert NullableKey(key, nullKey)(s[j]) == key(v);
    if j > 0 {
      assert NullableKey(key, nullKey)(s[0]) <= NullableKey(key, nullKey)(s[j]);
    }
  }

  lemma {:induction false} InsertNonNull<T>(x: Option<T>, s: seq<Option<T>>, key: T -> real, nullKey: real)
    requires Sorted(s, NullableKey(key, nullKey))
    ensures NonNull(Insert(x, s, NullableKey(key, nullKey))) ==
      if x.Some? then Insert(x.value, NonNull(s), key) else NonNull(s)
    decreases |s|, 1
  {
    var ok := NullableKey(key, nullKey);
    if s == [] {
      NonNullCons(x, []);
      assert [x] + [] == [x];
    } else if ok(s[0]) <= ok(x) {
      InsertNonNullStep(x, s, key, nullKey);
    } else {
      assert Insert(x, s, ok) == [x] + s;
      NonNullCons(x, s);
      if x.Some? {
        if NonNull(s) != [] {
          FirstNonNullKey(s, key, nullKey);
        }
        InsertFront(x.value, NonNull(s), key);
      } else {
        assert [] + NonNull(s) == NonNull(s);
      }
    }
  }

  lemma {:induction false} InsertNonNullStep<T>(x: Option<T>, s: seq<Option<T>>, key: T -> real, nullKey: real)
    requires Sorted(s, NullableKey(key, nullKey))
    requires s != [] && NullableKey(key, nullKey)(s[0]) <= NullableKey(key, nullKey)(x)
    ensures NonNull(Insert(x, s, NullableKey(key, nullKey))) ==
      if x.Some? then Insert(x.value, NonNull(s), key) else NonNull(s)
    decreases |s|, 0
  {
    var ok := NullableKey(key, nullKey);
    var y, t := s[0], s[1..];
    assert s == [y] + t;
    assert Sorted(t, ok) by {
      forall i, j | 0 <= i < j < |t|
        ensures ok(t[i]) <= ok(t[j])
      {
        assert t[i] == s[i + 1] && t[j] == s[j + 1];
      }
    }
    var inner := Insert(x, t, ok);
    InsertNonNull(x, t, key, nullKey);
    InsertCons(x, y, t, ok);
    assert Insert(x, s, ok) == [y] + inner;
    NonNullCons(y, inner);
    NonNullCons(y, t);
    assert NonNull(s) == (if y.Some? then [y.value] else []) + NonNull(t);
    if y.None? {
      assert NonNull(Insert(x, s, ok)) == NonNull(inner);
      assert NonNull(s) == NonNull(t);
    } else if x.Some? {
      assert key(y.value) <= key(x.value);
      InsertCons(x.value, y.value, NonNull(t), key);
      assert NonNull(Insert(x, s, ok)) == [y.value] + Insert(x.value, NonNull(t), key);
      assert NonNull(s) == [y.value] + NonNull(t);
    } else {
      assert NonNull(Insert(x, s, ok)) == [y.value] + NonNull(t);
    }
  }

  /** A sorted sequence without its head is still sorted, and the head
      has the smallest key. */
  lemma SortedTail<T>(s: seq<T>, key: T -> real)
    requires Sorted(s, key) && s != []
    ensures Sorted(s[1..], key)
    ensures forall i :: 0 <= i < |s[1..]| ==> key(s[0]) <= key(s[1..][i])
  {
    forall i, j | 0 <= i < j < |s[1..]|
      ensures key(s[1..][i]) <= key(s[1..][j])
    {
      assert s[1..][i] == s[i + 1] && s[1..][j] == s[j + 1];
    }
    forall i | 0 <= i < |s[1..]|
      ensures key(s[0]) <= key(s[1..][i])
    {
      assert s[1..][i] == s[i + 1];
    }
  }

  lemma SortBySnoc<T>(a: seq<T>, x: T, key: T -> real)
    ensures SortBy(a + [x], key) == Insert(x, SortBy(a, key), key)
  {
    var s := a + [x];
    assert s[..|s| - 1] == a;
  }

  /** Sorting with nulls and then removing them gives the same sequence as
      sorting the non-null elements alone, whatever key the nulls get. */
  lemma {:induction false} SortThenDropNulls<T>(s: seq<Option<T>>, key: T -> real, nullKey: real)
    ensures NonNull(SortBy(s, NullableKey(key, nullKey))) == SortBy(NonNull(s), key)
  {
    if s != [] {
      var init, last := s[..|s| - 1], s[|s| - 1];
      var ok := NullableKey(key, nullKey);
      assert init + [last] == s;
      SortThenDropNulls(init, key, nullKey);
      SortBySnoc(init, last, ok);
      SortBySorted(init, ok);
      InsertNonNull(last, SortBy(init, ok), key, nullKey);
      NonNullAppend(init, [last]);
      if last.Some? {
        assert NonNull([last]) == [last.value];
        SortBySnoc(NonNull(init), last.value, key);
      } else {
        assert NonNull([last]) == [];
        assert NonNull(s) == NonNull(init);
      }
    }
  }
}

=== FILE: utils.dfy ===
/** The utility class: tolerance-based equality of floats and of points (the
    notion of equality behind ring, passageway and graph-node equality) and the
    conversions between the 2D plane of the map and the engine's 3D space. */
module Utils {
  import opened Vectors

  /** Tolerance of floating-point equality. */
  const Epsilon: real := 0.0001

  /** `float.MaxValue`, the start value of the minimum searches. */
  const FloatMax: real := 340282346638528859811704183484516925440.0

  function Abs(x: real): real {
    if x < 0.0 then -x else x
  }

  /** `AreSame(float, float)` */
  predicate AreSame(a: real, b: real) {
    Abs(a - b) < Epsilon
  }

  /** `AreSame(Vector2, Vector2)`: the distance between the points is the same float as zero. */
  predicate AreSameVec(m: Math, p: Vec2, q: Vec2) {
    AreSame(Distance(m, p, q), 0.0)
  }

  /** `ToVector2`: keeps x and y, drops z. */
  function ToVector2(v: Vec3): Vec2 {
    Vec2(v.x, v.y)
  }

  /** `ToVector3`: the plane's y becomes the engine's depth axis z; `height` goes to y. */
  function ToVector3(v: Vec2, height: real): Vec3 {
    Vec3(v.x, height, v.y)
  }

  lemma AreSameReflexive(a: real)
    ensures AreSame(a, a)
  {
  }

  lemma AreSameSymmetric(a: real, b: real)
    ensures AreSame(a, b) <==> AreSame(b, a)
  {
  }

  /** Tolerance equality is not transitive, so node equality is not an equivalence. */
  lemma AreSameNotTransitive()
    ensures AreSame(0.0, 0.00006) && AreSame(0.00006, 0.00012) && !AreSame(0.0, 0.00012)
  {
  }

  lemma AreSameVecIff(m: Math, p: Vec2, q: Vec2)
    requires ValidMath(m)
    ensures AreSameVec(m, p, q) <==> Distance(m, p, q) < Epsilon
  {
    DistanceFacts(m, p, q);
  }

  lemma AreSameVecReflexiveSymmetric(m: Math, p: Vec2, q: Vec2)
    requires ValidMath(m)
    ensures AreSameVec(m, p, p)
    ensures AreSameVec(m, p, q) <==> AreSameVec(m, q, p)
  {
    DistanceToSelf(m, p);
    DistanceFacts(m, p, q);
  }

  /** Converting to 3D and back does not give the original point back: the
      second coordinate is replaced by the height. */
  lemma ConversionsAreNotInverse(v: Vec2, height: real)
    ensures ToVector2(ToVector3(v, height)) == Vec2(v.x, height)
    ensures ToVector2(ToVector3(v, height)) == v <==> v.y == height
  {
  }
}

=== FILE: vectors.dfy ===
/** The engine's two- and three-dimensional vectors over `real`.

    Floating-point rounding is not modelled. The transcendental operations the
    engine provides (square root, the unsigned and signed angle between two
    vectors, cosine and sine of an angle in degrees, and the two angle helpers
    `Angle` and `AngleBetween` that the utility class uses but whose bodies are
    not part of this model) are the fields of a `Math` record that every
    geometric operation receives as a parameter; `ValidMath` lists the only
    facts the proofs rely on. */
module Vectors {

  datatype Vec2 = Vec2(x: real, y: real)

  datatype Vec3 = Vec3(x: real, y: real, z: real)

  const Zero: Vec2 := Vec2(0.0, 0.0)

  /** `Vector2.right`, the reference direction of bearings. */
  const Right: Vec2 := Vec2(1.0, 0.0)

  /** Below this magnitude `Vector2.normalized` yields the zero vector. */
  const NormalizeEpsilon: real := 0.00001

  function Plus(a: Vec2, b: Vec2): Vec2 {
    Vec2(a.x + b.x, a.y + b.y)
  }

  function Minus(a: Vec2, b: Vec2): Vec2 {
    Vec2(a.x - b.x, a.y - b.y)
  }

  function Scale(k: real, v: Vec2): Vec2 {
    Vec2(k * v.x, k * v.y)
  }

  function Neg(v: Vec2): Vec2 {
    Vec2(-v.x, -v.y)
  }

  function Dot(a: Vec2, b: Vec2): real {
    a.x * b.x + a.y * b.y
  }

  /** `Vector2.Perpendicular`: the vector turned a quarter turn counter-clockwise. */
  function Perpendicular(v: Vec2): Vec2 {
    Vec2(-v.y, v.x)
  }

  function SqrMagnitude(v: Vec2): real {
    Dot(v, v)
  }

  /** The engine operations this model does not compute. */
  datatype Math = Math(
    sqrt: real -> real,                 // Mathf.Sqrt
    angle: (Vec2, Vec2) -> real,        // Vector2.Angle, in degrees
    signedAngle: (Vec2, Vec2) -> real,  // Vector2.SignedAngle, in degrees
    cosDeg: real -> real,               // Mathf.Cos(ToRadians(a))
    sinDeg: real -> real,               // Mathf.Sin(ToRadians(a))
    bearing: Vec2 -> real,              // Utils.Angle(v), in degrees
    angleBetween: (Vec2, Vec2) -> real  // Utils.AngleBetween(u, v)
  )

  /** What the proofs assume of the engine: lengths are non-negative, only
      the zero vector has length zero, scaling a vector by a non-negative factor
      scales its length, the point at any bearing on the unit circle has length
      one, and the unsigned angle lies in [0, 180] and does not depend on the
      order of its arguments. */
  ghost predicate ValidMath(m: Math) {
    && (forall v: Vec2 :: 0.0 <= Magnitude(m, v))
    && Magnitude(m, Zero) == 0.0
    && (forall v: Vec2 :: Magnitude(m, v) == 0.0 ==> v == Zero)
    && (forall k: real, v: Vec2 :: 0.0 <= k ==> Magnitude(m, Scale(k, v)) == k * Magnitude(m, v))
    && (forall a: real :: Magnitude(m, Vec2(m.cosDeg(a), m.sinDeg(a))) == 1.0)
    && (forall u: Vec2, v: Vec2 :: 0.0 <= m.angle(u, v) <= 180.0 && m.angle(u, v) == m.angle(v, u))
  }

  /** `Vector2.magnitude` */
  function Magnitude(m: Math, v: Vec2): real {
    m.sqrt(SqrMagnitude(v))
  }

  /** `Vector2.Distance` */
  function Distance(m: Math, a: Vec2, b: Vec2): real {
    Magnitude(m, Minus(a, b))
  }

  /** `Vector2.normalized`: the unit vector along `v`, or zero when `v` is too short. */
  function Normalized(m: Math, v: Vec2): Vec2 {
    var mag := Magnitude(m, v);
    if mag > NormalizeEpsilon then Scale(1.0 / mag, v) else Zero
  }

  /** Turning a vector around flips the sign of its dot products. */
  lemma DotNeg(a: Vec2, b: Vec2)
    ensures Dot(a, Neg(b)) == -Dot(a, b)
  {
  }

  lemma DistanceFacts(m: Math, a: Vec2, b: Vec2)
    ensures ValidMath(m) ==> 0.0 <= Distance(m, a, b)
    ensures Distance(m, a, b) == Distance(m, b, a)
  {
    assert SqrMagnitude(Minus(a, b)) == SqrMagnitude(Minus(b, a));
  }

  lemma DistanceToSelf(m: Math, a: Vec2)
    ensures ValidMath(m) ==> Distance(m, a, a) == 0.0
  {
    assert Minus(a, a) == Zero;
  }

  /** Only equal points are at distance zero. */
  lemma ZeroDistanceMeansEqual(m: Math, a: Vec2, b: Vec2)
    ensures ValidMath(m) ==> (Distance(m, a, b) == 0.0 <==> a == b)
  {
    if a == b {
      assert Minus(a, b) == Zero;
    } else {
      assert Minus(a, b) != Zero;
    }
  }

  /** A vector longer than the threshold normalizes to unit length. */
  lemma NormalizedIsUnit(m: Math, v: Vec2)
    requires ValidMath(m)
    requires Magnitude(m, v) > NormalizeEpsilon
    ensures Magnitude(m, Normalized(m, v)) == 1.0
  {
    var mag := Magnitude(m, v);
    assert Magnitude(m, Scale(1.0 / mag, v)) == (1.0 / mag) * mag;
  }
}

=== FILE: wrappers.dfy ===
/** Failure-compatible wrappers used across the model: `Option` stands for a
    nullable reference, `Result` for a value or the exception the original
    code would throw. */
module Wrappers {

  datatype Option<+T> = None | Some(value: T) {
    predicate IsFailure() {
      None?
    }

    function PropagateFailure<U>(): Option<U>
      requires None?
    {
      None
    }

    function Extract(): T
      requires Some?
    {
      value
    }
  }

  datatype Result<+R, +E> = Success(value: R) | Failure(error: E) {
    predicate IsFailure() {
      Failure?
    }

    function PropagateFailure<U>(): Result<U, E>
      requires Failure?
    {
      Failure(error)
    }

    function Extract(): R
      requires Success?
    {
      value
    }
  }
}
